=== FILE: README.md ===
# Tiny City card game: the server rules in Dafny

Tiny City is an online card game for two to four players. Each player owns
coins and an inventory of city cards. The server keeps one game state per
room. Play goes round the table in a turn order. On a turn, the current player
may buy one card from the market and may activate inventory cards whose colour
matches the round's active colour. A card's effect is a short command such as
`GET 2`, `GETALL 1`, `STEAL_MONEY ALL 1`, `STEAL_CARD RANDOM` or
`GETBY Blue 2`. When play comes back to the first seat, a new round starts.
The first player who reaches the win target wins.

This project models the rules as pure functions over immutable values:

- the game state, players and cards;
- the hub's turn end, purchase, activation and effect interpreter;
- the game settings;
- the lobby's room registry;
- the pure helpers of the card loader.

Objects that the source mutates in place are returned as new values. A player
is identified by their position in the room's player list. Each hub call
returns a `Step`, which holds:

- the new state;
- a `Reply` saying whether the hub ignored the call, broadcast an update,
  declared a winner, let an exception escape, or caught one;
- the game-log messages.

Randomness is an explicit draw parameter. For every random choice, each
admissible outcome is reachable by some draw.

The .NET behaviour the rules depend on is written out:

- `int` wrap-around where it matters;
- C#'s truncating `%`;
- `int.TryParse` and `int.ToString`;
- `String.Trim`, `Split` and `Replace`;
- case-insensitive `Enum.Parse`;
- the checked LINQ `Sum`;
- `Random.Next`.

Modules, one per file:

- `Options`, `Strings`, `Numbers`, `Lists`: the library behaviour above.
- `Cards`: `Models/Card.cs`.
- `Players`: the player record and the player operations the hub calls.
- `Settings`: `Models/GameSettings.cs`.
- `State`: `Models/GameState.cs`.
- `Effects`: the effect commands of `Hubs/GameHub.cs`.
- `Hub`: the rest of `Hubs/GameHub.cs`.
- `Sessions`: `Services/GameSessionService.cs`.
- `Loader`: `Services/CardLoader.cs`.

## Model

| member | source | states |
|---|---|---|
| Cards.EveryColorHasOrdinal | Hubs/GameHub.cs:462 | every colour is the cast of some draw in 0..3, so a new round can make any colour active |
| Cards.ParseColor | Hubs/GameHub.cs:385 | `Enum.Parse` with case ignored yields only a colour whose name the trimmed text spells, in any letter case |
| Cards.ParseColorExact | Hubs/GameHub.cs:385 | a colour parameter names a colour exactly when its trimmed text equals that colour's name, ignoring case |
| Cards.NewCard | Models/Card.cs:73-78 | a new card is unused, has weight 50, and carries the given id, name, colour, effect and cost |
| Cards.Validate | Models/Card.cs:98-118 | the card is valid iff no problem is reported; each problem is reported iff its check fails (blank name, blank effect, negative cost, weight outside 1..100), once each, in check order |
| Cards.Activate | Models/Card.cs:124-135 | activation succeeds iff the effect is not blank; success marks the card used; failure changes nothing; only the used flag can change |
| Cards.Reset | Models/Card.cs:140-144 | a reset card is unused and otherwise identical |
| Cards.ResetIdempotent | Models/Card.cs:140-144 | resetting twice is resetting once, and reset undoes an activation |
| Cards.ParseEffect | Models/Card.cs:150-163 | a blank effect has no command and no parameters; otherwise the command is the first word of `Split(' ', RemoveEmptyEntries)` upper-cased, and the parameters are the remaining words in order, each non-empty and space-free, however many spaces separate them |
| Cards.ParseEffectOfWords | Models/Card.cs:150-163 | parsing words joined by single spaces gives back the first word upper-cased as the command and the other words unchanged as the parameters |
| Cards.ExactlyOneSector | Models/Card.cs:169-187 | every card is in exactly one of the production, commercial, shadow and special sectors |
| Numbers.ParsePrinted | Models/GameState.cs:268-270 | `int.TryParse` reads back every number `ToString` prints, so the player count substituted into a formula is read back exactly |
| Numbers.TryParseInt | Hubs/GameHub.cs:308 | `int.TryParse` accepts only text that holds at least one decimal digit and consists of nothing but digits, signs, white space and trailing NUL characters, so `"5x"` is refused |
| Numbers.TrailingNuls | Hubs/GameHub.cs:308 | NUL characters at the end of the text do not change what `int.TryParse` reads, so `"5\0"` reads as 5 |
| Numbers.ParsePadded | Hubs/GameHub.cs:308 | any number `ToString` prints is read back with any white space before and after it |
| Numbers.ParsePaddedPlus | Hubs/GameHub.cs:320 | a non-negative number written with a `+` sign and leading zeros, with white space around it, is read as that number |
| Numbers.ParsePaddedZeros | Hubs/GameHub.cs:338 | a non-negative number written with leading zeros, with white space around it, is read as that number |
| Numbers.IntToString | Models/GameState.cs:268 | `ToString` prints a leading minus sign exactly for negative numbers, followed by decimal digits only |
| Numbers.CsRemOfNat | Hubs/GameHub.cs:439 | C#'s remainder agrees with the mathematical one for a non-negative index and a positive count |
| Numbers.Succ32 | Hubs/GameHub.cs:461 | an unchecked `++` on an `int` adds one, except that `int.MaxValue` wraps to `int.MinValue` |
| Strings.JoinSplit | Models/GameState.cs:269 | splitting on a separator loses no text: joining the pieces with it gives back the original |
| Strings.SplitJoin | Models/GameState.cs:269 | splitting words that are free of the separator, after joining them with it, gives back the words |
| Strings.TokensJoin | Hubs/GameHub.cs:268 | splitting on spaces with empty entries removed gives back words that were joined with single spaces |
| Strings.TrimPadded | Services/CardLoader.cs:73 | trimming removes exactly the surrounding white space around text that has none at its ends |
| Lists.FirstIndex | Hubs/GameHub.cs:492 | `FirstOrDefault` finds the first element that satisfies the test, and finds none iff no element does |
| Lists.RemoveAt | Hubs/GameHub.cs:370 | removing position k shifts the later elements down and removes exactly that element from the multiset |
| Lists.RemoveFirst | Models/GameState.cs:116 | `List.Remove` takes away one occurrence of a present element and leaves a list without it unchanged |
| Players.NewPlayer | Models/Player.cs:3-10 | a new player starts with 3 coins, an empty inventory and no purchase this turn |
| Players.CanAffordSpend | Hubs/GameHub.cs:494 | a player can afford a cost exactly when paying it leaves a non-negative balance |
| Players.SpendCoins | Hubs/GameHub.cs:511 | spending lowers the coins by exactly the amount and changes nothing else |
| Players.AddCardToInventory | Hubs/GameHub.cs:513 | the card is appended after the cards already held, and nothing else changes |
| Players.CountColorsPartition | Hubs/GameHub.cs:389 | the per-colour card counts add up to the inventory size |
| Players.CountCardsByColor | Hubs/GameHub.cs:389 | the count of cards of one colour never exceeds the number of cards held |
| Players.CountAfterAdd | Hubs/GameHub.cs:389 | adding a card raises its own colour's count by one and leaves every other colour's count unchanged |
| Players.ResetTurnState | Hubs/GameHub.cs:466 | a reset player has not bought this turn and keeps name, connection, coins and cards, with the cards' used flags optionally cleared |
| Players.HasWonMonotone | Models/GameState.cs:243 | a player who has reached the target still has after gaining more coins |
| Players.TotalCoinsUpdate | Hubs/GameHub.cs:445 | changing one player's coins changes the table's total by the same amount |
| Players.AllCardsUpdate | Hubs/GameHub.cs:513 | replacing one inventory changes the table's card pool by exactly the cards removed and added |
| Settings.Validate | Models/GameSettings.cs:68-99 | the settings are valid iff nothing is reported; each problem is reported iff its check fails, once each, in check order |
| Settings.ChecksFrom | Models/GameSettings.cs:68-99 | the checks from a given position on report exactly the failing ones among them, in check order |
| Settings.ValidPlayerCountBounds | Models/GameSettings.cs:106-107 | under valid settings every count that `IsValidPlayerCount` admits is between 2 and 4 |
| Settings.RandomNext | Models/GameSettings.cs:116 | `Random.Next(lo, hi)` throws iff lo > hi, returns lo when the bounds are equal, and otherwise a value in [lo, hi) |
| Settings.StartingCoinsOverflow | Models/GameSettings.cs:113-119 | as written, a well-formed range whose maximum is `int.MaxValue` makes the draw throw |
| Settings.GenerateStartingCoinsAsWritten | Models/GameSettings.cs:113-119 | as written, a well-formed range below `int.MaxValue` yields a value inside it, a range inverted by more than one throws, and a maximum of `int.MaxValue` throws whenever the minimum is above `int.MinValue` |
| Settings.GenerateStartingCoins | Models/GameSettings.cs:113-119 | starting coins lie within the configured inclusive range |
| Settings.StartingCoinsCoverRange | Models/GameSettings.cs:113-119 | every value of the range is drawn by some draw, and the code as written agrees while the maximum is below `int.MaxValue` |
| Settings.CheckedSum | Models/GameSettings.cs:133-134 | the checked LINQ sum throws exactly when some running total leaves the `int` range, and otherwise is the plain sum of the values |
| Settings.UnparsablePart | Models/GameSettings.cs:133-134 | a part that does not parse as an `int` counts as 0: appending it changes neither the sum nor whether it overflows |
| Settings.EvaluateFormula | Models/GameSettings.cs:128-134 | the formula's value is the sum of its `+`-separated terms with the player count substituted, and is missing exactly when a running total overflows |
| Settings.CalculateMarketSize | Models/GameSettings.cs:126-144 | the market size is the sum of the formula's terms, or `playerCount + 1` (unchecked) when the sum overflows |
| Settings.DefaultFormulaValue | Models/GameSettings.cs:126-144 | the default formula evaluates to the player count plus one, and overflows for `int.MaxValue` players |
| Settings.DefaultMarketSize | Models/GameSettings.cs:126-144 | with the default formula the market size is the player count plus one, with the caught overflow wrapping like the fallback |
| Settings.ApplyDefaultsOverflow | Models/GameSettings.cs:149-160 | as written, repairing an inverted coin range near `int.MaxValue` yields a range that is still inverted |
| Settings.ApplyDefaultsAsWritten | Models/GameSettings.cs:149-160 | as written, repair leaves a non-negative minimum, a positive win target, a non-negative income, a player range ending at most at 4 and not inverted, and a well-formed coin range unless `StartCoinsMin + 5` wraps |
| Settings.RepairRest | Models/GameSettings.cs:153-157 | the repairs after the coin range leave a positive win target, a non-negative income and a player range that ends at most at 4 and is not inverted |
| Settings.ApplyDefaults | Models/GameSettings.cs:149-160 | after repair every check passes, except possibly `MinPlayersCount >= 2`, which fails exactly when the configured maximum is below 2; the formula is kept |
| Settings.ApplyDefaultsKeepsValid | Models/GameSettings.cs:149-160 | repair leaves valid settings unchanged |
| Settings.ApplyDefaultsIdempotent | Models/GameSettings.cs:149-160 | repairing twice is repairing once |
| Settings.ApplyDefaultsAgrees | Models/GameSettings.cs:149-160 | the corrected repair is the code's whenever `StartCoinsMin + 5` does not overflow |
| State.NewGame | Models/GameState.cs:36-66 | a new room has no players and an empty turn order, and starts at round 1 with both indices 0 |
| State.ByWealth | Models/GameState.cs:159-163 | the roster sorted by coins, then by name, is a permutation of the roster |
| State.InsertByWealth | Models/GameState.cs:159-163 | inserting into a sorted roster keeps it sorted and adds exactly the one player |
| State.UpdateTurnOrder | Models/GameState.cs:157-167 | the turn order lists every player's name once, poorest first, and nothing else changes |
| State.PoorestFirst | Models/GameState.cs:159-161 | the first seat goes to a player with no more coins than anyone else |
| State.AddPlayer | Models/GameState.cs:78-98 | a player is added iff not null and the name is new; the player is appended, the turn order is re-sorted to the names of the roster by (coins, name), and a refusal changes nothing |
| State.UpdateCurrentPlayerIndex | Models/GameState.cs:172-176 | an index past the end is pulled back to the last seat (or 0), and an index in range is kept |
| State.RemovePlayer | Models/GameState.cs:105-120 | the first player with the connection id is removed together with one occurrence of their name in the turn order; an unknown id changes nothing |
| State.RemoveAfterAdd | Models/GameState.cs:78-120 | adding a new player and then removing them by connection restores the roster and the turn order's names |
| State.RemoveKeepsDistinct | Models/GameState.cs:105-120 | removing a player keeps the roster's names distinct |
| State.PlayerNamed | Models/GameState.cs:130 | the lookup finds a player with the name iff some player has it |
| State.GetCurrentPlayerAsWritten | Models/GameState.cs:126-131 | as written, the lookup throws iff the index is outside the turn order |
| State.GetCurrentPlayerEmptyRaises | Models/GameState.cs:126-131 | as written, an empty turn order makes the lookup throw instead of returning null |
| State.GetCurrentPlayer | Models/GameState.cs:126-131 | the current player is the player named at the index; there is none iff the index is out of range, the name is empty, or nobody bears it |
| State.GetCurrentPlayerAgrees | Models/GameState.cs:126-131 | for an index in range the corrected lookup is the code's |
| State.NextPlayer | Models/GameState.cs:137-152 | with players seated, the seat moves one place, wrapping to 0, the next name is returned and the turn counter rises; an empty order changes nothing and returns the empty name |
| State.AdvanceSeat | Models/GameState.cs:145 | advancing k times moves the seat k places round the table |
| State.AdvanceFullCycle | Models/GameState.cs:145 | advancing to the end of the order reaches seat 0, and a full cycle returns to the starting seat |
| State.ResetPlayersKeeps | Models/GameState.cs:188-191 | resetting every player keeps the coin total and the names |
| State.StartNewRound | Models/GameState.cs:181-194 | a new round counts up, returns both indices to 0, applies `ResetTurnState` to every player, and keeps the turn order, market, deck, active colour and room code |
| State.StartNewRoundSettles | Models/GameState.cs:181-194 | starting a second new round leaves the players as the first left them |
| State.Refill | Models/GameState.cs:200-215 | refilling moves cards from the top of the deck to the end of the market, in order, until the market reaches the target or the deck is empty |
| State.ReplenishMarket | Models/GameState.cs:200-215 | the loop ends with the market at the target or the deck empty, having moved cards in order, and agrees with the refill |
| State.RemoveCardFromMarket | Models/GameState.cs:222-234 | the first market card with the id is removed and returned; without such a card nothing changes |
| State.CheckWinner | Models/GameState.cs:241-252 | no winner iff no player has reached the target; otherwise the winner is the first player in roster order who has |
| State.CalculateMarketSize | Models/GameState.cs:265-271 | the room's market size is the sum of the formula's terms for its player count; an overflowing sum gives no value (the exception escapes) |
| State.DefaultMarketSize | Models/GameState.cs:265-271 | with the default formula the room's market size is its player count plus one |
| Effects.OthersFrom | Hubs/GameHub.cs:401 | the other players are exactly those whose name differs from the actor's, in roster order |
| Effects.SelectVictims | Hubs/GameHub.cs:399-410 | `ALL` selects every other player, `RANDOM` exactly one when there is one, and any other mode none; never the actor |
| Effects.RandomReachesEveryOther | Hubs/GameHub.cs:401-408 | every player other than the actor is the `RANDOM` victim for some draw |
| Effects.Pay | Hubs/GameHub.cs:311 | paying one player changes only that player's coins, and the table's total by the amount |
| Effects.PayAll | Hubs/GameHub.cs:323-324 | every player, the actor included, gains the bonus, and nothing else about any player changes |
| Effects.ExecuteGet | Hubs/GameHub.cs:306-313 | `GET n` pays n to the actor; a missing or unreadable amount changes nothing |
| Effects.PayAllTotal | Hubs/GameHub.cs:323-324 | paying everyone a bonus raises the total by the bonus times the player count |
| Effects.ExecuteGetAll | Hubs/GameHub.cs:318-327 | `GETALL n` pays n to every player; a missing or unreadable amount changes nothing |
| Effects.ExecuteGetBy | Hubs/GameHub.cs:380-394 | `GETBY colour n` pays the actor n per card of that colour; an unknown colour throws, and a missing or unreadable multiplier changes nothing |
| Effects.StealCoinsTotal | Hubs/GameHub.cs:343-350 | stealing coins moves coins without creating or destroying any |
| Effects.StealCoins | Hubs/GameHub.cs:343-350 | the coin-stealing loop keeps the roster's size and writes one log entry per victim |
| Effects.StealCoinsActor | Hubs/GameHub.cs:343-350 | the actor ends with its coins plus exactly what was taken from all victims |
| Effects.StealFrom | Hubs/GameHub.cs:345-348 | one theft takes the amount, or all the victim has when that is less, and gives exactly that to the actor; nothing but those two players' coins changes |
| Effects.StealCoinsShape | Hubs/GameHub.cs:343-350 | stealing changes only coins, and only the actor's and the victims' |
| Effects.StealCoinsVictims | Hubs/GameHub.cs:343-350 | each victim loses the amount, or everything they have when that is less |
| Effects.ExecuteStealMoney | Hubs/GameHub.cs:332-351 | `STEAL_MONEY mode n` keeps the coin total and every inventory; each selected victim loses the amount or all they have, the actor gains exactly the sum of those losses, and every other player is untouched; missing parameters change nothing |
| Effects.TakeCard | Hubs/GameHub.cs:367-371 | one card moves from the victim's inventory to the end of the actor's, and the table's card pool is unchanged |
| Effects.CardStep | Hubs/GameHub.cs:365-373 | a victim without cards is skipped; otherwise the card at the draw's position leaves the victim, whose other cards keep their order, and is appended to the actor's cards; the card pool and all coins are kept, and players other than the two are untouched |
| Effects.StealReachesEveryCard | Hubs/GameHub.cs:367-371 | every card a victim holds is the one taken for some draw |
| Effects.StealCardsPool | Hubs/GameHub.cs:365-374 | stealing cards keeps the table's card pool |
| Effects.StealCardsShape | Hubs/GameHub.cs:365-374 | stealing cards changes only inventories; the actor keeps every card and other players are untouched |
| Effects.StealCards | Hubs/GameHub.cs:365-374 | the card-stealing loop keeps the roster's size and writes one log entry per stolen card |
| Effects.StealCardsVictims | Hubs/GameHub.cs:365-374 | each victim with cards loses exactly the card its draw picks and keeps the rest in order, the draws counting only victims that had cards; a victim without cards is skipped |
| Effects.StealCardsActor | Hubs/GameHub.cs:365-374 | the actor keeps its cards and gains exactly the stolen cards, appended in victim order |
| Effects.ExecuteStealCard | Hubs/GameHub.cs:356-375 | `STEAL_CARD mode` keeps the card pool and all coins; each selected victim with cards loses the card its draw picks, the actor's cards gain exactly those cards in victim order, and every other player is untouched |
| Effects.ExecuteEffect | Hubs/GameHub.cs:263-301 | only `GETBY` can throw; every effect changes only coins and inventories without taking the actor's cards; the stealing effects conserve coins and cards; an unknown command changes nothing |
| Effects.StealMoneyKeepsCards | Hubs/GameHub.cs:343-350 | when no inventory changes, the card pool is unchanged |
| Effects.StealCardKeepsCoins | Hubs/GameHub.cs:365-374 | when no player's coins change, the coin total is unchanged |
| Hub.CurrentSeat | Hubs/GameHub.cs:217-224 | a negative index throws; an index past the turn order or a name nobody bears finds nobody; otherwise the first player bearing the seated name is found |
| Hub.CurrentSeatByNames | Hubs/GameHub.cs:217-224 | whose turn it is depends only on the turn order, the index and the players' names |
| Hub.ProcessNewRound | Hubs/GameHub.cs:459-473 | a new round counts up, sets the drawn colour, resets every player's turn state, and refills the market from the deck without losing cards |
| Hub.NextTurnIndex | Hubs/GameHub.cs:439 | from a valid seat the next index is one further, wrapping to 0 after the last seat; it turns negative only from a negative index or at `int.MaxValue` |
| Hub.ProcessTurnEnd | Hubs/GameHub.cs:437-454 | an empty turn order throws (division by zero); otherwise the index moves on, and the turn order and the players' names are kept |
| Hub.TurnEndAdvances | Hubs/GameHub.cs:439 | from a valid seat, ending a turn never throws and keeps the index valid, one seat further round the table |
| Hub.TurnEndNewRound | Hubs/GameHub.cs:448-451 | a new round starts exactly when play returns to a seated first player; then the round counts up and the market is refilled to the target or until the deck runs out, otherwise round, colour, market and deck are kept |
| Hub.TurnEndRolls | Hubs/GameHub.cs:448-451 | when play returns to a seated first player the round counts up (wrapping at `int.MaxValue`), the drawn colour is set, the market is refilled to the target or until the deck runs out, the market and deck keep their cards, and nobody has bought yet |
| Hub.TurnEndStays | Hubs/GameHub.cs:448-451 | any other turn end keeps the round, the colour, the market and the deck |
| Hub.TurnEndIncome | Hubs/GameHub.cs:441-446 | the next seated player receives the daily income and may buy again; every other player keeps their coins, also when a new round starts; the coin total rises by the income, and without a next player nobody changes |
| Hub.Payday | Hubs/GameHub.cs:445-446 | the paid player gains exactly the income and may buy again; every other player and every other field of the state is unchanged |
| Hub.EndTurn | Hubs/GameHub.cs:422-432 | an unknown room is ignored; from a valid seat the turn always passes and the seat stays valid |
| Hub.ProcessCardPurchase | Hubs/GameHub.cs:509-518 | the buyer pays the cost, is marked as having bought, and receives the card, which leaves the market; nobody else changes |
| Hub.PurchaseConserves | Hubs/GameHub.cs:509-518 | a purchase lowers the coin total by the card's cost and keeps the cards in hands and market together |
| Hub.PlayerClickCard | Hubs/GameHub.cs:480-504 | a purchase happens iff there is a current player who has not bought, the card is in the market and affordable; anything else changes nothing |
| Hub.PurchaseMovesCard | Hubs/GameHub.cs:492-498 | the bought card is the market card with the id, now at the end of the buyer's inventory and out of the market |
| Hub.OnePurchasePerTurn | Hubs/GameHub.cs:489-490 | after a purchase, any further click in the same turn is ignored |
| Hub.ActivationTarget | Hubs/GameHub.cs:187-188 | the card to activate is the current player's first card with the id, if both exist |
| Hub.MarkUsed | Hubs/GameHub.cs:199 | marking the card used changes nothing but that card's flag |
| Hub.TargetCard | Hubs/GameHub.cs:188 | the card found carries the requested id |
| Hub.CanActivateCardCases | Hubs/GameHub.cs:232-235 | a missing card cannot be activated, nor can a used one, and a card of the active colour can be again once the round's reset clears its flag |
| Hub.ActivateFires | Hubs/GameHub.cs:187-199 | an activatable card at a valid index enters the `try` block, which runs the effect on it |
| Hub.ActivateCard | Hubs/GameHub.cs:179-210 | a negative index throws; a card that is missing, of another colour or used is ignored; an ignored, escaping or caught call changes nothing; only players can change |
| Hub.Fire | Hubs/GameHub.cs:196-209 | firing a card either catches the colour error and changes nothing, or applies the effect, marks the card used and ends the game iff the actor has reached the target, naming the actor |
| Hub.ActivateCaught | Hubs/GameHub.cs:206-209 | an exception is caught only for an activatable `GETBY` card |
| Hub.ActivateMarks | Hubs/GameHub.cs:196-204 | a completed activation marks the card used, keeps the actor's other cards, and ends the game iff the actor has reached the target, naming the actor |
| Hub.ActivateKeepsSeats | Hubs/GameHub.cs:179-210 | activation never changes the roster's names or purchase flags |
| Hub.ActivateOnce | Hubs/GameHub.cs:232-235 | a card that was activated cannot be activated again in the same round |
| Hub.ActivateUnknownCommandStillUses | Hubs/GameHub.cs:297-299 | a card with an unknown command is still marked used, and nothing else happens |
| Sessions.GetPlayers | Services/GameSessionService.cs:14-15 | a known room gives its list, and an unknown room an empty one |
| Sessions.AddPlayer | Services/GameSessionService.cs:8-12 | the room exists afterwards and the name is appended unless present; other rooms are untouched |
| Sessions.AddPlayerCreatesRoom | Services/GameSessionService.cs:10-11 | joining an unknown room creates it with exactly the one name |
| Sessions.AddPlayerKeepsWellFormed | Services/GameSessionService.cs:8-12 | no room ever lists a name twice, and the joined name is listed |
| Sessions.AddPlayerIdempotent | Services/GameSessionService.cs:8-12 | joining twice is joining once |
| Sessions.AddPlayerOtherRooms | Services/GameSessionService.cs:8-12 | joining one room is invisible from every other room |
| Sessions.JoinAllContents | Services/GameSessionService.cs:8-12 | after a series of joins the room keeps its earlier names first and in order, and lists exactly the earlier and joined names, none twice |
| Loader.Clamp | Services/CardLoader.cs:167 | the result lies within the bounds, equals an in-range value, and is the nearer bound otherwise |
| Loader.ParseCardWeight | Services/CardLoader.cs:165-168 | a weight is always in 1..100: 50 for zero or less, kept when in range, 100 above |
| Loader.ParseCardWeightIdempotent | Services/CardLoader.cs:165-168 | normalising a normalised weight changes nothing |
| Loader.IsHeaderRowCases | Services/CardLoader.cs:116-118 | an empty cell and every spelling of `Name` mark a header, and nothing of another length does |
| Loader.BuildIconPath | Services/CardLoader.cs:181-182 | an empty file name gives the placeholder, and any other name the file under the cards' image folder |
| Loader.IconPathRoundTrip | Services/CardLoader.cs:181-182 | the file name can be read back from its path, except that an empty name and `placeholder.png` give the same path |
| Loader.ParseCardColor | Services/CardLoader.cs:145-158 | the colour the text names, ignoring case, or Blue when it names none |
| Loader.ParseCardColorNames | Services/CardLoader.cs:145-158 | every colour's name in any case reads back as that colour, and a text naming no colour reads as Blue |
| Loader.SpellingParses | Services/CardLoader.cs:145-158 | any spelling of a colour's name, in any letter case, reads as that colour |
| Loader.ParseCardRow | Services/CardLoader.cs:69-109 | a header row or an unconvertible number cell gives no card; otherwise the card carries the trimmed name, colour, effect and icon path, the untrimmed description and narrative, the numbers and a normalised weight |
| Loader.ParsedCardWeightValid | Services/CardLoader.cs:69-109 | a loaded card never fails the name or weight checks of card validation |
| Loader.ParseRowsShape | Services/CardLoader.cs:51 | loading gives at most one card per row, each unused and with a weight in range |
| Loader.KeepShape | Services/CardLoader.cs:51 | `OfType` yields no more cards than there are results, every card it yields is one of the results, and when every card among the results is unused with a weight in range, so is every card kept |
| Loader.ParseRowsKeepsAll | Services/CardLoader.cs:51 | a table of well-formed card rows loses none of them |

## Left out

- Coins are unbounded integers. The source's unchecked `int` addition on coins can wrap; the model does not wrap. This affects `Players.SpendCoins`, `Effects.Pay`, `Effects.PayAllTotal` and `Hub.TurnEndIncome`.
- Effects.ExecuteGetBy: `count * multiplier` is not wrapped to 32 bits, because coins are unbounded here.
- Effects.ExecuteGetAll: the bonus is not wrapped to 32 bits, because coins are unbounded here.
- Hub.ProcessTurnEnd: the daily income is added without 32-bit wrap-around, because coins are unbounded here.
- Numbers.TryParseInt: the current culture's positive and negative signs are taken to be `+` and `-`, and only ASCII digits are read.
- Case mapping is ASCII only. Culture-specific upper-casing in `ToUpper` and in case-insensitive comparison is not modelled.
- `ThenBy(p => p.Name)` uses the culture's string comparer. The model compares names ordinally, code unit by code unit.
- `Enum.Parse` also accepts numeric strings and comma-separated flag lists. The model accepts only the four colour names.
- Null values are modelled only where the rules test for them: a null player in `AddPlayer`, a missing room, player or card. Null strings and null list entries cannot occur here.
- A `null` card in the deck would make `GameState.ReplenishMarket` loop forever. The deck holds no nulls here, so that loop is not modelled.
- I/O is not modelled: the Excel workbook, the icon-file check `ValidateIconFile`, logging, and the SignalR messages. `BroadcastUpdate` and the table data it sends are not modelled either. Message texts are reduced to who was affected and by how much.
- The lobby and connection hub methods are not part of this model: joining, starting and leaving a game, and deck generation.
- `GameSessionService.GetGameState` and the session's `ReplenishMarket(state)` are not part of this model; the hub calls them, but they are not in `Services/GameSessionService.cs`. The room's state is a parameter of the hub calls. The market size that `ReplenishMarket` fills to is a parameter (`RoundInputs.marketTarget`).
- Hub.PlayerClickCard and Hub.ActivateCard receive the room's state directly. The null-room case is modelled once, in `Hub.EndTurn`, and is the same early return in all three methods.
- `Player.CanAfford`, `SpendCoins`, `AddCardToInventory`, `CountCardsByColor`, `ResetTurnState` and `HasWon` are not part of this model: `Models/Player.cs` holds only the fields. They are modelled by their evident meaning. Players.ResetTurnState takes a flag saying whether it also clears the cards' used flags, so the model covers both readings.
- Card ids come from `Guid.NewGuid().GetHashCode()` and are a parameter here. `Card.CalculatePaybackPeriod` uses floating point and is not modelled.
- `Task.Result` and `async` ordering are not modelled. Each hub call is one atomic step.
- State.CalculateMarketSize: overflow of the checked sum is modelled as no value, because the method does not catch the exception and it escapes to the caller.
- A "finished" game state that rejects further moves does not exist in the code. A win only sends a message, and the model follows the code.

## Findings

| source | as written | input that shows it | evidently intended | confidence | as-written member | corrected member |
|---|---|---|---|---|---|---|
| Models/GameSettings.cs:152 | an inverted coin range is repaired to `StartCoinsMax = StartCoinsMin + 5` in unchecked `int` arithmetic | `StartCoinsMin = 2147483645`, `StartCoinsMax = 0`: the sum wraps to a negative number and the range stays inverted | after repair `StartCoinsMax >= StartCoinsMin` | high, not executed | Settings.ApplyDefaultsOverflow | Settings.ApplyDefaults |
| Models/GameState.cs:126-131 | `TurnOrder[CurrentPlayerIndex]` is read before any range test | an empty turn order: the indexer throws `ArgumentOutOfRangeException` | return null, as the method's documentation says for an empty list | high, not executed | State.GetCurrentPlayerEmptyRaises | State.GetCurrentPlayer |
| Models/GameSettings.cs:113-119 | the exclusive upper bound is `StartCoinsMax + 1` in unchecked `int` arithmetic | `StartCoinsMin = 0`, `StartCoinsMax = int.MaxValue`: the bound wraps to `int.MinValue` and `Random.Next` throws | a value in the inclusive range | medium, not executed | Settings.StartingCoinsOverflow | Settings.GenerateStartingCoins |

=== FILE: cards.dfy ===
/**
  Models/Card.cs: the card colours, the card value object, its validation,
  the used flag, and the tokenisation of the effect script.
 */
module Cards {
  import opened Options
  import opened Strings

  /** The colour (economic sector) of a card, in the enum's declaration order. */
  datatype CardColor = Blue | Gold | Red | Purple

  /** The enum member's name, as `ToString()` prints it. */
  function ColorName(c: CardColor): string {
    match c
    case Blue => "Blue"
    case Gold => "Gold"
    case Red => "Red"
    case Purple => "Purple"
  }

  /** `(CardColor)k` for the four declared values 0..3. */
  function ColorOfOrdinal(k: nat): (c: CardColor)
    requires k < 4
  {
    if k == 0 then Blue else if k == 1 then Gold else if k == 2 then Red else Purple
  }

  /** Every colour is the cast of some value in 0..3, so a draw from
      `Random.Next(0, 4)` can pick any of them. */
  lemma EveryColorHasOrdinal(c: CardColor)
    ensures exists k :: 0 <= k < 4 && ColorOfOrdinal(k) == c
  {
    var k := match c case Blue => 0 case Gold => 1 case Red => 2 case Purple => 3;
    assert ColorOfOrdinal(k) == c;
  }

  /** `Enum.Parse<CardColor>(s, ignoreCase: true)` on member names: surrounding
      white space is ignored and letters match in any case; anything else fails. */
  function ParseColor(s: string): (r: Option<CardColor>)
    ensures r.Some? ==> EqualsIgnoreCase(Trim(s), ColorName(r.value))
  {
    var t := Trim(s);
    if EqualsIgnoreCase(t, ColorName(Blue)) then Some(Blue)
    else if EqualsIgnoreCase(t, ColorName(Gold)) then Some(Gold)
    else if EqualsIgnoreCase(t, ColorName(Red)) then Some(Red)
    else if EqualsIgnoreCase(t, ColorName(Purple)) then Some(Purple)
    else None
  }

  /** Parsing succeeds with colour `c` exactly when the trimmed input is `c`'s
      name up to letter case. */
  lemma ParseColorExact(s: string, c: CardColor)
    ensures ParseColor(s) == Some(c) <==> EqualsIgnoreCase(Trim(s), ColorName(c))
  {
    if EqualsIgnoreCase(Trim(s), ColorName(c)) {
      InitialsDiffer(Trim(s), c);
    }
  }

  /** The lower-case and upper-case spellings of a colour name match it. */
  lemma ColorNameAnyCase(c: CardColor)
    ensures EqualsIgnoreCase(Lower(ColorName(c)), ColorName(c))
    ensures EqualsIgnoreCase(Upper(ColorName(c)), ColorName(c))
  {
    UpperLower(ColorName(c));
    UpperIdempotent(ColorName(c));
  }

  /** Lower-casing first does not change the upper-cased string. */
  lemma UpperLower(s: string)
    ensures Upper(Lower(s)) == Upper(s)
  {
  }

  /** The four colour names already differ in their upper-cased initial. */
  lemma InitialsDiffer(t: string, c: CardColor)
    requires EqualsIgnoreCase(t, ColorName(c))
    ensures forall d: CardColor :: d != c ==> !EqualsIgnoreCase(t, ColorName(d))
  {
    forall d: CardColor | d != c
      ensures !EqualsIgnoreCase(t, ColorName(d))
    {
      assert Upper(ColorName(c))[0] != Upper(ColorName(d))[0];
    }
  }

  /** ASCII lower-casing, used only to state that parsing ignores case. */
  function Lower(s: string): (r: string)
    ensures |r| == |s|
  {
    seq(|s|, i requires 0 <= i < |s| => if 'A' <= s[i] <= 'Z' then (s[i] as int + 32) as char else s[i])
  }

  /** A card instance. `isUsed` is the only field the game changes after creation. */
  datatype Card = Card(
    id: int,
    name: string,
    color: CardColor,
    effect: string,
    cost: int,
    reward: int,
    icon: string,
    description: string,
    narrative: string,
    isUsed: bool,
    weight: int)

  const DefaultWeight: int := 50

  /** A card built with an object initializer that leaves `IsUsed` and `Weight` at their defaults. */
  function NewCard(id: int, name: string, color: CardColor, effect: string, cost: int,
                   reward: int, icon: string, description: string, narrative: string): (c: Card)
    ensures !c.isUsed && c.weight == DefaultWeight
    ensures c.id == id && c.name == name && c.color == color && c.effect == effect && c.cost == cost
  {
    Card(id, name, color, effect, cost, reward, icon, description, narrative, false, DefaultWeight)
  }

  // ---------------------------------------------------------------------
  // Validation
  // ---------------------------------------------------------------------

  /** One validation message per failed check, named after the check. */
  datatype CardProblem = MissingName | MissingEffect | NegativeCost | WeightOutOfRange

  /** The position of each check in `Validate`. */
  function CheckRank(p: CardProblem): nat {
    match p
    case MissingName => 0
    case MissingEffect => 1
    case NegativeCost => 2
    case WeightOutOfRange => 3
  }

  predicate WeightInRange(w: int) {
    1 <= w <= 100
  }

  /** All four checks of `Validate` pass. */
  predicate IsValidCard(c: Card) {
    !IsBlank(c.name) && !IsBlank(c.effect) && c.cost >= 0 && WeightInRange(c.weight)
  }

  /** `Card.Validate()`: the failed checks, each once, in the order they are made. */
  function Validate(c: Card): (errors: seq<CardProblem>)
    ensures errors == [] <==> IsValidCard(c)
    ensures (MissingName in errors) <==> IsBlank(c.name)
    ensures (MissingEffect in errors) <==> IsBlank(c.effect)
    ensures (NegativeCost in errors) <==> c.cost < 0
    ensures (WeightOutOfRange in errors) <==> !WeightInRange(c.weight)
    ensures forall i, j :: 0 <= i < j < |errors| ==> CheckRank(errors[i]) < CheckRank(errors[j])
  {
    (if IsBlank(c.name) then [MissingName] else [])
    + (if IsBlank(c.effect) then [MissingEffect] else [])
    + (if c.cost < 0 then [NegativeCost] else [])
    + (if !WeightInRange(c.weight) then [WeightOutOfRange] else [])
  }

  // ---------------------------------------------------------------------
  // Used flag
  // ---------------------------------------------------------------------

  /** `Card.Activate()`: refused (false, card unchanged) for a blank effect,
      otherwise the card becomes used. */
  function Activate(c: Card): (r: (bool, Card))
    ensures r.0 <==> !IsBlank(c.effect)
    ensures r.0 ==> r.1.isUsed
    ensures !r.0 ==> r.1 == c
    ensures r.1.(isUsed := c.isUsed) == c
  {
    if IsBlank(c.effect) then (false, c) else (true, c.(isUsed := true))
  }

  /** `Card.Reset()`: clears the used flag and nothing else. */
  function Reset(c: Card): (r: Card)
    ensures !r.isUsed
    ensures r.(isUsed := c.isUsed) == c
  {
    c.(isUsed := false)
  }

  /** Resetting twice is resetting once, and a reset undoes an activation. */
  lemma ResetIdempotent(c: Card)
    ensures Reset(Reset(c)) == Reset(c)
    ensures Reset(Activate(c).1) == Reset(c)
  {
  }

  // ---------------------------------------------------------------------
  // Effect script tokenisation
  // ---------------------------------------------------------------------

  /** A tokenised effect script: upper-cased command and raw parameters. */
  datatype ParsedEffect = ParsedEffect(command: string, parameters: seq<string>)

  /** `Card.ParseEffect()`: empty for a blank script; otherwise the first
      space-separated token upper-cased, and the remaining tokens in order. */
  function ParseEffect(effect: string): (r: ParsedEffect)
    ensures IsBlank(effect) ==> r == ParsedEffect("", [])
    ensures !IsBlank(effect) ==>
      && |r.command| > 0
      && |r.parameters| == |Tokens(effect)| - 1
      && Upper(r.command) == r.command
      && forall k :: 0 <= k < |r.parameters| ==> |r.parameters[k]| > 0 && ' ' !in r.parameters[k]
    ensures !IsBlank(effect) ==>
      |Tokens(effect)| > 0 && r.command == Upper(Tokens(effect)[0]) && r.parameters == Tokens(effect)[1..]
  {
    if IsBlank(effect) then ParsedEffect("", [])
    else
      var parts := Tokens(effect);
      TokensOfNonBlank(effect);
      TokensShape(effect);
      assert forall k :: 0 <= k < |parts[1..]| ==> parts[1..][k] == parts[k + 1];
      UpperIdempotent(parts[0]);
      ParsedEffect(Upper(parts[0]), parts[1..])
  }

  lemma UpperIdempotent(s: string)
    ensures Upper(Upper(s)) == Upper(s)
  {
  }

  /** Parsing a script written as words separated by single spaces gives back
      the upper-cased first word and the other words. */
  lemma ParseEffectOfWords(words: seq<string>)
    requires |words| > 0
    requires forall k :: 0 <= k < |words| ==> |words[k]| > 0 && ' ' !in words[k]
    requires !IsBlank(words[0])
    ensures ParseEffect(Join(words, ' ')) == ParsedEffect(Upper(words[0]), words[1..])
  {
    var s := Join(words, ' ');
    TokensJoin(words);
    var i :| 0 <= i < |words[0]| && !IsWhiteSpace(words[0][i]);
    JoinHasFirst(words, i);
    assert !IsBlank(s);
  }

  lemma JoinHasFirst(words: seq<string>, i: nat)
    requires |words| > 0 && i < |words[0]|
    ensures i < |Join(words, ' ')| && Join(words, ' ')[i] == words[0][i]
  {
  }

  // ---------------------------------------------------------------------
  // Sector predicates
  // ---------------------------------------------------------------------

  predicate IsProductionCard(c: Card) { c.color == Blue }
  predicate IsCommercialCard(c: Card) { c.color == Gold }
  predicate IsShadowCard(c: Card) { c.color == Red }
  predicate IsSpecialCard(c: Card) { c.color == Purple }

  function SectorCount(c: Card): nat {
    (if IsProductionCard(c) then 1 else 0) + (if IsCommercialCard(c) then 1 else 0)
    + (if IsShadowCard(c) then 1 else 0) + (if IsSpecialCard(c) then 1 else 0)
  }

  /** Every card belongs to exactly one of the four sectors. */
  lemma ExactlyOneSector(c: Card)
    ensures SectorCount(c) == 1
  {
  }
}

=== FILE: effects.dfy ===
/**
  Hubs/GameHub.cs, the effect language: a card's effect script is split on
  spaces, its first word upper-cased and dispatched to GET, GETALL,
  STEAL_MONEY, STEAL_CARD or GETBY; anything else does nothing. Players are
  addressed by their index in the roster; `actor` is the player whose card
  is being activated. Random choices arrive as explicit draws.
 */
module Effects {
  import opened Options
  import opened Strings
  import opened Numbers
  import opened Lists
  import opened Cards
  import opened Players

  /** The game-log messages the effects send, as data (the text is not modelled). */
  datatype Message =
    | Earned(player: string, amount: int)
    | Harvest(bonus: int)
    | StoleCoins(thief: string, amount: int, victim: string)
    | StoleCard(thief: string, card: string, victim: string)
    | Traded(player: string, earnings: int)

  /** The random choices an effect may make: the victim for `RANDOM`, and the
      value behind the `k`-th stolen-card index. */
  datatype Draws = Draws(victim: nat, steal: nat -> nat)

  /** An effect either runs (possibly doing nothing) or raises because the
      colour given to GETBY does not parse. */
  datatype Outcome = Applied(players: seq<Player>, log: seq<Message>) | ColorParseFailed

  /** Only coins and inventories change; names, connections and the
      bought-this-turn flags stay as they were. */
  predicate KeepsSeats(ps: seq<Player>, qs: seq<Player>) {
    |qs| == |ps| && forall i :: 0 <= i < |ps| ==> qs[i] == ps[i].(coins := qs[i].coins, inventory := qs[i].inventory)
  }

  /** Nobody's inventory changes. */
  predicate KeepsInventories(ps: seq<Player>, qs: seq<Player>) {
    |qs| == |ps| && forall i :: 0 <= i < |ps| ==> qs[i].inventory == ps[i].inventory
  }

  /** The actor keeps every card it held, at the same positions. */
  predicate KeepsActorCards(ps: seq<Player>, qs: seq<Player>, actor: nat)
    requires actor < |ps| && |qs| == |ps|
  {
    |qs[actor].inventory| >= |ps[actor].inventory|
    && qs[actor].inventory[..|ps[actor].inventory|] == ps[actor].inventory
  }

  // ---------------------------------------------------------------------
  // Victims
  // ---------------------------------------------------------------------

  /** The indices, from `from` on, of the players not named `name`, in roster order. */
  function OthersFrom(ps: seq<Player>, name: string, from: nat): (r: seq<nat>)
    requires from <= |ps|
    ensures forall k :: 0 <= k < |r| ==> from <= r[k] < |ps| && ps[r[k]].name != name
    ensures forall k, m :: 0 <= k < m < |r| ==> r[k] < r[m]
    ensures forall j :: from <= j < |ps| && ps[j].name != name ==> j in r
    decreases |ps| - from
  {
    if from == |ps| then []
    else if ps[from].name != name then [from] + OthersFrom(ps, name, from + 1)
    else OthersFrom(ps, name, from + 1)
  }

  /** `SelectVictims`: `ALL` is every other player, `RANDOM` one of them (none
      when there are no others), and any other mode nobody. */
  function SelectVictims(ps: seq<Player>, actor: nat, mode: string, draw: nat): (r: seq<nat>)
    requires actor < |ps|
    ensures forall k :: 0 <= k < |r| ==> r[k] < |ps| && ps[r[k]].name != ps[actor].name && r[k] != actor
    ensures forall k, m :: 0 <= k < m < |r| ==> r[k] < r[m]
    ensures mode == "ALL" ==> forall j :: 0 <= j < |ps| && ps[j].name != ps[actor].name ==> j in r
    ensures mode == "RANDOM" ==> |r| <= 1
    ensures mode == "RANDOM" && (exists j :: 0 <= j < |ps| && ps[j].name != ps[actor].name) ==> |r| == 1
    ensures mode != "ALL" && mode != "RANDOM" ==> r == []
  {
    var others := OthersFrom(ps, ps[actor].name, 0);
    if mode == "ALL" then others
    else if mode == "RANDOM" && |others| != 0 then [others[draw % |others|]]
    else []
  }

  /** The `RANDOM` draw `m` below the number of other players picks the `m`-th of them. */
  lemma RandomPicks(ps: seq<Player>, actor: nat, m: nat)
    requires actor < |ps| && m < |OthersFrom(ps, ps[actor].name, 0)|
    ensures SelectVictims(ps, actor, "RANDOM", m) == [OthersFrom(ps, ps[actor].name, 0)[m]]
  {
    var mode := "RANDOM";
    assert mode != "ALL" by { assert mode[0] != "ALL"[0]; }
    ModSmall(m, |OthersFrom(ps, ps[actor].name, 0)|);
  }

  /** Every other player is the `RANDOM` victim for some draw. */
  lemma RandomReachesEveryOther(ps: seq<Player>, actor: nat, j: nat)
    requires actor < |ps| && j < |ps| && ps[j].name != ps[actor].name
    ensures exists draw: nat :: SelectVictims(ps, actor, "RANDOM", draw) == [j]
  {
    var others := OthersFrom(ps, ps[actor].name, 0);
    assert j in others;
    var m :| 0 <= m < |others| && others[m] == j;
    RandomPicks(ps, actor, m);
  }

  // ---------------------------------------------------------------------
  // Income
  // ---------------------------------------------------------------------

  /** Adds `amount` to one player's coins. */
  function Pay(ps: seq<Player>, i: nat, amount: int): (r: seq<Player>)
    requires i < |ps|
    ensures |r| == |ps| && r[i].coins == ps[i].coins + amount
    ensures r[i] == ps[i].(coins := r[i].coins)
    ensures forall j :: 0 <= j < |ps| && j != i ==> r[j] == ps[j]
    ensures TotalCoins(r) == TotalCoins(ps) + amount
  {
    TotalCoinsUpdate(ps, i, ps[i].(coins := ps[i].coins + amount));
    ps[i := ps[i].(coins := ps[i].coins + amount)]
  }

  /** `GET n`: the actor gains `n`; nothing happens without a number. */
  function ExecuteGet(ps: seq<Player>, actor: nat, params: seq<string>): (r: (seq<Player>, seq<Message>))
    requires actor < |ps|
    ensures |params| < 1 || TryParseInt(params[0]).None? ==> r == (ps, [])
    ensures |params| >= 1 && TryParseInt(params[0]).Some? ==>
      r.0 == Pay(ps, actor, TryParseInt(params[0]).value)
  {
    if |params| < 1 then (ps, [])
    else match TryParseInt(params[0])
      case None => (ps, [])
      case Some(n) => (Pay(ps, actor, n), [Earned(ps[actor].name, n)])
  }

  /** Every player's coins raised by `bonus`. */
  function PayAll(ps: seq<Player>, bonus: int): (r: seq<Player>)
    ensures |r| == |ps|
    ensures forall i :: 0 <= i < |ps| ==> r[i] == ps[i].(coins := ps[i].coins + bonus)
  {
    seq(|ps|, i requires 0 <= i < |ps| => ps[i].(coins := ps[i].coins + bonus))
  }

  /** A harvest adds `bonus` once per player to the coins in play. */
  lemma {:induction false} PayAllTotal(ps: seq<Player>, bonus: int)
    ensures TotalCoins(PayAll(ps, bonus)) == TotalCoins(ps) + bonus * |ps|
  {
    if |ps| > 0 {
      PayAllTotal(ps[1..], bonus);
      assert PayAll(ps, bonus)[1..] == PayAll(ps[1..], bonus);
      assert bonus * |ps| == bonus + bonus * (|ps| - 1);
    }
  }

  /** `GETALL n`: every player, the actor included, gains `n`. */
  function ExecuteGetAll(ps: seq<Player>, params: seq<string>): (r: (seq<Player>, seq<Message>))
    ensures |params| < 1 || TryParseInt(params[0]).None? ==> r == (ps, [])
    ensures |params| >= 1 && TryParseInt(params[0]).Some? ==>
      && |r.0| == |ps|
      && (forall i :: 0 <= i < |ps| ==> r.0[i].coins == ps[i].coins + TryParseInt(params[0]).value)
      && TotalCoins(r.0) == TotalCoins(ps) + TryParseInt(params[0]).value * |ps|
    ensures KeepsSeats(ps, r.0) && KeepsInventories(ps, r.0)
  {
    if |params| < 1 then (ps, [])
    else match TryParseInt(params[0])
      case None => (ps, [])
      case Some(n) =>
        PayAllTotal(ps, n);
        (PayAll(ps, n), [Harvest(n)])
  }

  /** `GETBY colour n`: the actor gains `n` for every card of that colour it
      holds. A colour that does not parse raises before anything changes; a
      multiplier that does not parse does nothing. */
  function ExecuteGetBy(ps: seq<Player>, actor: nat, params: seq<string>): (r: Outcome)
    requires actor < |ps|
    ensures r.ColorParseFailed? <==> |params| > 1 && ParseColor(params[0]).None?
    ensures r.Applied? && |params| > 1 && TryParseInt(params[1]).Some? ==>
      r.players == Pay(ps, actor, CountCardsByColor(ps[actor], ParseColor(params[0]).value)
                                  * TryParseInt(params[1]).value)
    ensures r.Applied? && (|params| <= 1 || TryParseInt(params[1]).None?) ==> r == Applied(ps, [])
  {
    if |params| <= 1 then Applied(ps, [])
    else match ParseColor(params[0])
      case None => ColorParseFailed
      case Some(color) =>
        match TryParseInt(params[1])
        case None => Applied(ps, [])
        case Some(multiplier) =>
          var earnings := CountCardsByColor(ps[actor], color) * multiplier;
          Applied(Pay(ps, actor, earnings), [Traded(ps[actor].name, earnings)])
  }

  // ---------------------------------------------------------------------
  // Theft
  // ---------------------------------------------------------------------

  /** The victims are distinct players other than the actor. */
  predicate ValidVictims(ps: seq<Player>, actor: nat, victims: seq<nat>) {
    && (forall k :: 0 <= k < |victims| ==> victims[k] < |ps| && victims[k] != actor)
    && (forall k, m :: 0 <= k < m < |victims| ==> victims[k] != victims[m])
  }

  /** One pass of the STEAL_MONEY loop: victim `v` loses `Min(coins, amount)`
      and the actor gains the same. */
  function StealFrom(ps: seq<Player>, actor: nat, v: nat, amount: int): (r: seq<Player>)
    requires actor < |ps| && v < |ps| && v != actor
    ensures |r| == |ps|
    ensures r[v].coins == ps[v].coins - Min(ps[v].coins, amount)
    ensures r[actor].coins == ps[actor].coins + Min(ps[v].coins, amount)
    ensures forall i :: 0 <= i < |ps| ==> r[i] == ps[i].(coins := r[i].coins)
    ensures forall i :: 0 <= i < |ps| && i != actor && i != v ==> r[i] == ps[i]
    ensures TotalCoins(r) == TotalCoins(ps)
  {
    var stolen := Min(ps[v].coins, amount);
    Pay(Pay(ps, v, -stolen), actor, stolen)
  }

  /** The STEAL_MONEY loop: each victim in turn loses `Min(coins, amount)` and
      the actor gains the same. */
  function StealCoins(ps: seq<Player>, actor: nat, victims: seq<nat>, amount: int): (r: (seq<Player>, seq<Message>))
    requires actor < |ps| && ValidVictims(ps, actor, victims)
    ensures |r.0| == |ps| && |r.1| == |victims|
    decreases |victims|
  {
    if |victims| == 0 then (ps, [])
    else
      var v := victims[0];
      var ps2 := StealFrom(ps, actor, v, amount);
      assert ValidVictims(ps2, actor, victims[1..]);
      var tail := StealCoins(ps2, actor, victims[1..], amount);
      (tail.0, [StoleCoins(ps[actor].name, Min(ps[v].coins, amount), ps[v].name)] + tail.1)
  }

  /** The victims after the first are the rest of the list, none of them the first. */
  lemma RestOfVictims(ps: seq<Player>, actor: nat, victims: seq<nat>)
    requires |victims| > 0 && ValidVictims(ps, actor, victims)
    ensures forall m :: 0 <= m < |victims| - 1 ==> victims[1..][m] == victims[m + 1]
    ensures victims[0] !in victims[1..]
    ensures forall i :: i !in victims ==> i != victims[0] && i !in victims[1..]
  {
    var rest := victims[1..];
    forall m | 0 <= m < |rest|
      ensures rest[m] != victims[0]
    {
      assert rest[m] == victims[m + 1];
    }
  }

  /** Theft moves coins; it never creates or destroys them. */
  lemma {:induction false} StealCoinsTotal(ps: seq<Player>, actor: nat, victims: seq<nat>, amount: int)
    requires actor < |ps| && ValidVictims(ps, actor, victims)
    ensures TotalCoins(StealCoins(ps, actor, victims, amount).0) == TotalCoins(ps)
    decreases |victims|
  {
    if |victims| > 0 {
      var ps2 := StealFrom(ps, actor, victims[0], amount);
      assert ValidVictims(ps2, actor, victims[1..]);
      StealCoinsTotal(ps2, actor, victims[1..], amount);
    }
  }

  /** Only coins change, and only the actor's and the victims'. */
  lemma {:induction false} StealCoinsShape(ps: seq<Player>, actor: nat, victims: seq<nat>, amount: int)
    requires actor < |ps| && ValidVictims(ps, actor, victims)
    ensures var r := StealCoins(ps, actor, victims, amount).0;
      && (forall i :: 0 <= i < |ps| ==> r[i] == ps[i].(coins := r[i].coins))
      && (forall i :: 0 <= i < |ps| && i != actor && i !in victims ==> r[i] == ps[i])
    decreases |victims|
  {
    if |victims| > 0 {
      var v, rest := victims[0], victims[1..];
      var ps2 := StealFrom(ps, actor, v, amount);
      assert ValidVictims(ps2, actor, rest);
      StealCoinsShape(ps2, actor, rest, amount);
      RestOfVictims(ps, actor, victims);
      var r := StealCoins(ps, actor, victims, amount).0;
      assert r == StealCoins(ps2, actor, rest, amount).0;
      forall i | 0 <= i < |ps|
        ensures r[i] == ps[i].(coins := r[i].coins)
      {
        assert r[i] == ps2[i].(coins := r[i].coins);
        assert ps2[i] == ps[i].(coins := ps2[i].coins);
      }
      forall i | 0 <= i < |ps| && i != actor && i !in victims
        ensures r[i] == ps[i]
      {
        assert i !in rest && i != v;
        assert r[i] == ps2[i] == ps[i];
      }
    }
  }

  /** Each victim loses `Min(coins, amount)` of the coins it had. */
  lemma {:induction false} StealCoinsVictims(ps: seq<Player>, actor: nat, victims: seq<nat>, amount: int)
    requires actor < |ps| && ValidVictims(ps, actor, victims)
    ensures var r := StealCoins(ps, actor, victims, amount).0;
      forall k :: 0 <= k < |victims| ==>
        r[victims[k]].coins == ps[victims[k]].coins - Min(ps[victims[k]].coins, amount)
    decreases |victims|
  {
    if |victims| > 0 {
      var v, rest := victims[0], victims[1..];
      var ps2 := StealFrom(ps, actor, v, amount);
      assert ValidVictims(ps2, actor, rest);
      StealCoinsVictims(ps2, actor, rest, amount);
      RestOfVictims(ps, actor, victims);
      var r := StealCoins(ps, actor, victims, amount).0;
      assert r == StealCoins(ps2, actor, rest, amount).0;
      forall k | 0 <= k < |victims|
        ensures r[victims[k]].coins == ps[victims[k]].coins - Min(ps[victims[k]].coins, amount)
      {
        if k == 0 {
          StealCoinsShape(ps2, actor, rest, amount);
          assert r[v] == ps2[v];
        } else {
          assert victims[k] == rest[k - 1];
          assert ps2[victims[k]] == ps[victims[k]];
        }
      }
    }
  }

  /** Every listed index is a seat of the roster. */
  predicate Seats(ps: seq<Player>, victims: seq<nat>) {
    forall k :: 0 <= k < |victims| ==> victims[k] < |ps|
  }

  /** The coins a theft of `amount` from each listed victim takes in all:
      every victim gives `Min(coins, amount)`. */
  function Stolen(ps: seq<Player>, victims: seq<nat>, amount: int): int
    requires Seats(ps, victims)
    decreases |victims|
  {
    if |victims| == 0 then 0
    else Min(ps[victims[0]].coins, amount) + Stolen(ps, victims[1..], amount)
  }

  /** The takings depend only on the victims' coins. */
  lemma {:induction false} StolenSame(ps: seq<Player>, qs: seq<Player>, victims: seq<nat>, amount: int)
    requires |qs| == |ps| && Seats(ps, victims)
    requires forall k :: 0 <= k < |victims| ==> qs[victims[k]].coins == ps[victims[k]].coins
    ensures Stolen(qs, victims, amount) == Stolen(ps, victims, amount)
    decreases |victims|
  {
    if |victims| > 0 {
      var rest := victims[1..];
      assert forall k :: 0 <= k < |rest| ==> rest[k] == victims[k + 1];
      StolenSame(ps, qs, rest, amount);
    }
  }

  /** The actor ends up with its coins plus everything taken from the victims. */
  lemma {:induction false} StealCoinsActor(ps: seq<Player>, actor: nat, victims: seq<nat>, amount: int)
    requires actor < |ps| && ValidVictims(ps, actor, victims)
    ensures StealCoins(ps, actor, victims, amount).0[actor].coins == ps[actor].coins + Stolen(ps, victims, amount)
    decreases |victims|
  {
    if |victims| > 0 {
      var v, rest := victims[0], victims[1..];
      var ps2 := StealFrom(ps, actor, v, amount);
      assert ValidVictims(ps2, actor, rest);
      StealCoinsActor(ps2, actor, rest, amount);
      RestOfVictims(ps, actor, victims);
      StolenSame(ps, ps2, rest, amount);
      assert StealCoins(ps, actor, victims, amount).0 == StealCoins(ps2, actor, rest, amount).0;
    }
  }

  /** `STEAL_MONEY mode n`: money moves from the chosen victims to the actor. */
  function ExecuteStealMoney(ps: seq<Player>, actor: nat, params: seq<string>, draws: Draws): (r: (seq<Player>, seq<Message>))
    requires actor < |ps|
    ensures |params| <= 1 || TryParseInt(params[1]).None? ==> r == (ps, [])
    ensures TotalCoins(r.0) == TotalCoins(ps)
    ensures KeepsSeats(ps, r.0) && KeepsInventories(ps, r.0)
    ensures |params| > 1 && TryParseInt(params[1]).Some? ==>
      var victims := SelectVictims(ps, actor, Upper(params[0]), draws.victim);
      && (forall k :: 0 <= k < |victims| ==>
            r.0[victims[k]].coins == ps[victims[k]].coins - Min(ps[victims[k]].coins, TryParseInt(params[1]).value))
      && r.0[actor].coins == ps[actor].coins + Stolen(ps, victims, TryParseInt(params[1]).value)
      && (forall i :: 0 <= i < |ps| && i != actor && i !in victims ==> r.0[i] == ps[i])
  {
    if |params| <= 1 then (ps, [])
    else
      var mode := Upper(params[0]);
      match TryParseInt(params[1])
      case None => (ps, [])
      case Some(amount) =>
        var victims := SelectVictims(ps, actor, mode, draws.victim);
        StealCoinsTotal(ps, actor, victims, amount);
        StealCoinsShape(ps, actor, victims, amount);
        StealCoinsVictims(ps, actor, victims, amount);
        StealCoinsActor(ps, actor, victims, amount);
        StealCoins(ps, actor, victims, amount)
  }

  /** Replaces one player's inventory. */
  function SetInventory(ps: seq<Player>, i: nat, inv: seq<Card>): (r: seq<Player>)
    requires i < |ps|
    ensures |r| == |ps| && r[i] == ps[i].(inventory := inv)
    ensures forall j :: 0 <= j < |ps| && j != i ==> r[j] == ps[j]
    ensures multiset(AllCards(r)) + multiset(ps[i].inventory) == multiset(AllCards(ps)) + multiset(inv)
  {
    AllCardsUpdate(ps, i, ps[i].(inventory := inv));
    ps[i := ps[i].(inventory := inv)]
  }

  /** One theft: the card at `index` moves from the victim's inventory to the
      end of the actor's. */
  function TakeCard(ps: seq<Player>, actor: nat, victim: nat, index: nat): (r: seq<Player>)
    requires actor < |ps| && victim < |ps| && victim != actor && index < |ps[victim].inventory|
    ensures |r| == |ps|
    ensures multiset(AllCards(r)) == multiset(AllCards(ps))
    ensures r[victim].inventory == RemoveAt(ps[victim].inventory, index)
    ensures r[actor].inventory == ps[actor].inventory + [ps[victim].inventory[index]]
    ensures forall j :: 0 <= j < |ps| && j != actor && j != victim ==> r[j] == ps[j]
    ensures KeepsSeats(ps, r)
    ensures forall j :: 0 <= j < |ps| ==> r[j].coins == ps[j].coins
  {
    var c := ps[victim].inventory[index];
    var ps1 := SetInventory(ps, victim, RemoveAt(ps[victim].inventory, index));
    var ps2 := SetInventory(ps1, actor, ps1[actor].inventory + [c]);
    var ai := ps[actor].inventory;
    assert ps1[actor] == ps[actor];
    assert multiset(ai + [c]) == multiset(ai) + multiset{c};
    PoolAfterMove(multiset(AllCards(ps)), multiset(AllCards(ps1)), multiset(AllCards(ps2)),
                  multiset(ps[victim].inventory), multiset(RemoveAt(ps[victim].inventory, index)),
                  multiset(ai), c);
    ps2
  }

  /** The card pool after one card leaves the victim (`vi` becomes `vr`) and
      joins the actor (`ai` gains it) is the pool before. */
  lemma PoolAfterMove(m0: multiset<Card>, m1: multiset<Card>, m2: multiset<Card>,
                      vi: multiset<Card>, vr: multiset<Card>, ai: multiset<Card>, c: Card)
    requires m1 + vi == m0 + vr
    requires vr + multiset{c} == vi
    requires m2 + ai == m1 + (ai + multiset{c})
    ensures m2 == m0
  {
    assert (m1 + multiset{c}) + vr == m0 + vr;
    MultisetCancel(m1 + multiset{c}, m0, vr);
    assert m2 + ai == (m1 + multiset{c}) + ai;
    MultisetCancel(m2, m1 + multiset{c}, ai);
  }

  /** Adding the same cards to both sides preserves neither more nor less. */
  lemma MultisetCancel<T>(a: multiset<T>, b: multiset<T>, c: multiset<T>)
    requires a + c == b + c
    ensures a == b
  {
    assert forall x :: a[x] == (a + c)[x] - c[x];
    assert forall x :: b[x] == (b + c)[x] - c[x];
  }

  /** Keeping the actor's cards in place composes. */
  lemma KeepsActorCardsTrans(a: seq<Player>, b: seq<Player>, c: seq<Player>, actor: nat)
    requires actor < |a| && |b| == |a| && |c| == |a|
    requires KeepsActorCards(a, b, actor) && KeepsActorCards(b, c, actor)
    ensures KeepsActorCards(a, c, actor)
  {
    var n := |a[actor].inventory|;
    assert c[actor].inventory[..n] == c[actor].inventory[..|b[actor].inventory|][..n];
  }

  /** One pass of the STEAL_CARD loop: a victim with cards loses the card at
      `steal(k) % Count` to the actor; a victim without cards is skipped. */
  function CardStep(ps: seq<Player>, actor: nat, v: nat, steal: nat -> nat, k: nat): (r: seq<Player>)
    requires actor < |ps| && v < |ps| && v != actor
    ensures |r| == |ps|
    ensures multiset(AllCards(r)) == multiset(AllCards(ps))
    ensures KeepsSeats(ps, r) && KeepsActorCards(ps, r, actor)
    ensures forall j :: 0 <= j < |ps| ==> r[j].coins == ps[j].coins
    ensures forall j :: 0 <= j < |ps| && j != actor && j != v ==> r[j] == ps[j]
    ensures LostOneCard(ps[v], r[v]) && LostCardAt(ps[v], r[v], steal(k))
    ensures r[actor].inventory == ps[actor].inventory + Taken(ps[v], steal(k))
  {
    if |ps[v].inventory| == 0 then ps
    else
      var r := TakeCard(ps, actor, v, steal(k) % |ps[v].inventory|);
      assert r[actor].inventory[..|ps[actor].inventory|] == ps[actor].inventory;
      r
  }

  /** The card one pass takes from a player with draw `pick`: none when the
      player holds none, otherwise the one at `pick % Count`. */
  function Taken(p: Player, pick: nat): seq<Card> {
    if |p.inventory| == 0 then [] else [p.inventory[pick % |p.inventory|]]
  }

  /** What one pass with draw `pick` leaves a player: an empty inventory stays
      empty, otherwise the card at `pick % Count` is gone and the rest keep their order. */
  predicate LostCardAt(before: Player, after: Player, pick: nat) {
    if |before.inventory| == 0 then after.inventory == before.inventory
    else after.inventory == RemoveAt(before.inventory, pick % |before.inventory|)
  }

  /** Every card of a victim is the one taken for some draw. */
  lemma StealReachesEveryCard(ps: seq<Player>, actor: nat, v: nat, steal: nat -> nat, k: nat)
    requires actor < |ps| && v < |ps| && v != actor && steal(k) < |ps[v].inventory|
    ensures var r := CardStep(ps, actor, v, steal, k);
      && r[v].inventory == RemoveAt(ps[v].inventory, steal(k))
      && r[actor].inventory == ps[actor].inventory + [ps[v].inventory[steal(k)]]
  {
    ModSmall(steal(k), |ps[v].inventory|);
  }

  /** After the first pass the remaining victims still qualify, and what the
      loop takes from them is what it would have taken before that pass. */
  lemma RestTakings(ps: seq<Player>, actor: nat, victims: seq<nat>, steal: nat -> nat, k: nat)
    requires actor < |ps| && |victims| > 0 && ValidVictims(ps, actor, victims)
    ensures var ps1 := CardStep(ps, actor, victims[0], steal, k);
      && ValidVictims(ps1, actor, victims[1..])
      && TakenCards(ps1, victims[1..], steal, NextDraw(ps, victims[0], k))
         == TakenCards(ps, victims[1..], steal, NextDraw(ps, victims[0], k))
  {
    var ps1 := CardStep(ps, actor, victims[0], steal, k);
    var rest := victims[1..];
    RestOfVictims(ps, actor, victims);
    assert ValidVictims(ps1, actor, rest);
    forall j | 0 <= j < |rest| ensures ps1[rest[j]].inventory == ps[rest[j]].inventory {
      assert rest[j] != victims[0] && rest[j] != actor;
    }
    TakenSame(ps, ps1, rest, steal, NextDraw(ps, victims[0], k));
  }

  /** The theft counter after a pass: it counts only actual thefts. */
  function NextDraw(ps: seq<Player>, v: nat, k: nat): nat
    requires v < |ps|
  {
    if |ps[v].inventory| == 0 then k else k + 1
  }

  /** The STEAL_CARD loop over the victims whose inventory is not empty; the
      `k`-th theft takes the card at `steal(k) % Count`. */
  function StealCards(ps: seq<Player>, actor: nat, victims: seq<nat>, steal: nat -> nat, k: nat)
    : (r: (seq<Player>, seq<Message>))
    requires actor < |ps| && ValidVictims(ps, actor, victims)
    ensures |r.0| == |ps|
    ensures |r.1| == |TakenCards(ps, victims, steal, k)|
    decreases |victims|
  {
    if |victims| == 0 then (ps, [])
    else
      var v := victims[0];
      var ps1 := CardStep(ps, actor, v, steal, k);
      RestTakings(ps, actor, victims, steal, k);
      var tail := StealCards(ps1, actor, victims[1..], steal, NextDraw(ps, v, k));
      var said := if |ps[v].inventory| == 0 then []
        else [StoleCard(ps[actor].name, ps[v].inventory[steal(k) % |ps[v].inventory|].name, ps[v].name)];
      (tail.0, said + tail.1)
  }

  /** The theft counter when the loop reaches `victims[m]`, starting from `k`:
      it has advanced once for every earlier victim that held a card. */
  function DrawAt(ps: seq<Player>, victims: seq<nat>, k: nat, m: nat): nat
    requires Seats(ps, victims) && m < |victims|
    decreases m
  {
    if m == 0 then k else DrawAt(ps, victims[1..], NextDraw(ps, victims[0], k), m - 1)
  }

  /** The cards the loop takes, in victim order: one from each victim holding any. */
  function TakenCards(ps: seq<Player>, victims: seq<nat>, steal: nat -> nat, k: nat): seq<Card>
    requires Seats(ps, victims)
    decreases |victims|
  {
    if |victims| == 0 then []
    else Taken(ps[victims[0]], steal(k)) + TakenCards(ps, victims[1..], steal, NextDraw(ps, victims[0], k))
  }

  /** The draws and the takings depend only on the victims' inventories. */
  lemma {:induction false} TakenSame(ps: seq<Player>, qs: seq<Player>, victims: seq<nat>, steal: nat -> nat, k: nat)
    requires |qs| == |ps| && Seats(ps, victims)
    requires forall j :: 0 <= j < |victims| ==> qs[victims[j]].inventory == ps[victims[j]].inventory
    ensures TakenCards(qs, victims, steal, k) == TakenCards(ps, victims, steal, k)
    ensures forall m :: 0 <= m < |victims| ==> DrawAt(qs, victims, k, m) == DrawAt(ps, victims, k, m)
    decreases |victims|
  {
    if |victims| > 0 {
      var v, rest := victims[0], victims[1..];
      assert forall j :: 0 <= j < |rest| ==> rest[j] == victims[j + 1];
      var k1 := NextDraw(ps, v, k);
      assert NextDraw(qs, v, k) == k1;
      TakenSame(ps, qs, rest, steal, k1);
      forall m | 0 < m < |victims|
        ensures DrawAt(qs, victims, k, m) == DrawAt(ps, victims, k, m)
      {
        assert DrawAt(qs, victims, k, m) == DrawAt(qs, rest, k1, m - 1);
      }
    }
  }

  /** After the first pass the remaining victims still qualify and hold what
      they held, and the loop carries on from there. */
  lemma FirstPass(ps: seq<Player>, actor: nat, victims: seq<nat>, steal: nat -> nat, k: nat)
    requires actor < |ps| && |victims| > 0 && ValidVictims(ps, actor, victims)
    ensures var ps1 := CardStep(ps, actor, victims[0], steal, k);
      && ValidVictims(ps1, actor, victims[1..])
      && (forall j :: 0 <= j < |victims| - 1 ==> ps1[victims[1..][j]] == ps[victims[1..][j]])
      && StealCards(ps, actor, victims, steal, k).0
         == StealCards(ps1, actor, victims[1..], steal, NextDraw(ps, victims[0], k)).0
  {
    var ps1 := CardStep(ps, actor, victims[0], steal, k);
    RestOfVictims(ps, actor, victims);
    assert ValidVictims(ps1, actor, victims[1..]);
  }

  /** The takings start with what the first victim gives. */
  lemma TakenCardsFirst(ps: seq<Player>, victims: seq<nat>, steal: nat -> nat, k: nat)
    requires |victims| > 0 && Seats(ps, victims)
    ensures TakenCards(ps, victims, steal, k)
         == Taken(ps[victims[0]], steal(k)) + TakenCards(ps, victims[1..], steal, NextDraw(ps, victims[0], k))
  {
  }

  /** The step of `StealCardsActor`: if the claim holds after the first pass,
      it holds before it. */
  lemma ActorStep(ps: seq<Player>, actor: nat, victims: seq<nat>, steal: nat -> nat, k: nat)
    requires actor < |ps| && |victims| > 0 && ValidVictims(ps, actor, victims)
    requires var ps1 := CardStep(ps, actor, victims[0], steal, k);
      ValidVictims(ps1, actor, victims[1..])
      && StealCards(ps1, actor, victims[1..], steal, NextDraw(ps, victims[0], k)).0[actor].inventory
         == ps1[actor].inventory + TakenCards(ps1, victims[1..], steal, NextDraw(ps, victims[0], k))
    ensures StealCards(ps, actor, victims, steal, k).0[actor].inventory
         == ps[actor].inventory + TakenCards(ps, victims, steal, k)
  {
    var v, rest := victims[0], victims[1..];
    var ps1 := CardStep(ps, actor, v, steal, k);
    var k1 := NextDraw(ps, v, k);
    var a, t, tr := ps[actor].inventory, Taken(ps[v], steal(k)), TakenCards(ps, rest, steal, k1);
    FirstPass(ps, actor, victims, steal, k);
    TakenSame(ps, ps1, rest, steal, k1);
    TakenCardsFirst(ps, victims, steal, k);
    AppendAssoc(a, t, tr);
  }

  /** The actor's inventory ends with exactly the stolen cards, in victim order. */
  lemma {:induction false} StealCardsActor(ps: seq<Player>, actor: nat, victims: seq<nat>, steal: nat -> nat, k: nat)
    requires actor < |ps| && ValidVictims(ps, actor, victims)
    ensures StealCards(ps, actor, victims, steal, k).0[actor].inventory
         == ps[actor].inventory + TakenCards(ps, victims, steal, k)
    decreases |victims|
  {
    if |victims| > 0 {
      FirstPass(ps, actor, victims, steal, k);
      StealCardsActor(CardStep(ps, actor, victims[0], steal, k), actor, victims[1..], steal, NextDraw(ps, victims[0], k));
      ActorStep(ps, actor, victims, steal, k);
    }
  }

  /** Theft moves cards; it never creates or destroys them. */
  lemma {:induction false} StealCardsPool(ps: seq<Player>, actor: nat, victims: seq<nat>, steal: nat -> nat, k: nat)
    requires actor < |ps| && ValidVictims(ps, actor, victims)
    ensures multiset(AllCards(StealCards(ps, actor, victims, steal, k).0)) == multiset(AllCards(ps))
    decreases |victims|
  {
    if |victims| > 0 {
      var ps1 := CardStep(ps, actor, victims[0], steal, k);
      assert ValidVictims(ps1, actor, victims[1..]);
      StealCardsPool(ps1, actor, victims[1..], steal, NextDraw(ps, victims[0], k));
    }
  }

  /** Only inventories change; coins do not, and the actor keeps its cards in place. */
  lemma {:induction false} StealCardsShape(ps: seq<Player>, actor: nat, victims: seq<nat>, steal: nat -> nat, k: nat)
    requires actor < |ps| && ValidVictims(ps, actor, victims)
    ensures var r := StealCards(ps, actor, victims, steal, k).0;
      && KeepsSeats(ps, r) && KeepsActorCards(ps, r, actor)
      && (forall j :: 0 <= j < |ps| ==> r[j].coins == ps[j].coins)
      && (forall j :: 0 <= j < |ps| && j != actor && j !in victims ==> r[j] == ps[j])
    decreases |victims|
  {
    if |victims| > 0 {
      var v, rest := victims[0], victims[1..];
      var ps1 := CardStep(ps, actor, v, steal, k);
      assert ValidVictims(ps1, actor, rest);
      StealCardsShape(ps1, actor, rest, steal, NextDraw(ps, v, k));
      RestOfVictims(ps, actor, victims);
      var r := StealCards(ps, actor, victims, steal, k).0;
      assert r == StealCards(ps1, actor, rest, steal, NextDraw(ps, v, k)).0;
      KeepsActorCardsTrans(ps, ps1, r, actor);
      forall j | 0 <= j < |ps|
        ensures r[j] == ps[j].(coins := r[j].coins, inventory := r[j].inventory)
      {
        assert r[j] == ps1[j].(coins := r[j].coins, inventory := r[j].inventory);
        assert ps1[j] == ps[j].(coins := ps1[j].coins, inventory := ps1[j].inventory);
      }
      forall j | 0 <= j < |ps| && j != actor && j !in victims
        ensures r[j] == ps[j]
      {
        assert j !in rest && j != v;
        assert r[j] == ps1[j] == ps[j];
      }
    }
  }

  /** A player holding cards has lost exactly one; a player holding none has lost nothing. */
  predicate LostOneCard(before: Player, after: Player) {
    |after.inventory| == if |before.inventory| == 0 then 0 else |before.inventory| - 1
  }

  /** What the loop leaves each listed victim, given the roster `ps` it
      starts from and the counter `k` it starts with. */
  predicate LostDrawn(ps: seq<Player>, r: seq<Player>, victims: seq<nat>, steal: nat -> nat, k: nat)
    requires Seats(ps, victims) && |r| == |ps|
  {
    forall m :: 0 <= m < |victims| ==>
      && LostOneCard(ps[victims[m]], r[victims[m]])
      && LostCardAt(ps[victims[m]], r[victims[m]], steal(DrawAt(ps, victims, k, m)))
  }

  /** The step of `StealCardsVictims`: if the claim holds after the first
      pass, it holds before it. */
  lemma VictimsStep(ps: seq<Player>, actor: nat, victims: seq<nat>, steal: nat -> nat, k: nat)
    requires actor < |ps| && |victims| > 0 && ValidVictims(ps, actor, victims)
    requires var ps1 := CardStep(ps, actor, victims[0], steal, k);
      ValidVictims(ps1, actor, victims[1..])
      && LostDrawn(ps1, StealCards(ps1, actor, victims[1..], steal, NextDraw(ps, victims[0], k)).0,
                   victims[1..], steal, NextDraw(ps, victims[0], k))
    ensures LostDrawn(ps, StealCards(ps, actor, victims, steal, k).0, victims, steal, k)
  {
    var v, rest := victims[0], victims[1..];
    var ps1 := CardStep(ps, actor, v, steal, k);
    var k1 := NextDraw(ps, v, k);
    FirstPass(ps, actor, victims, steal, k);
    StealCardsShape(ps1, actor, rest, steal, k1);
    RestOfVictims(ps, actor, victims);
    TakenSame(ps, ps1, rest, steal, k1);
    var r := StealCards(ps1, actor, rest, steal, k1).0;
    assert r[v] == ps1[v];
    forall m | 0 < m < |victims|
      ensures LostOneCard(ps[victims[m]], r[victims[m]])
      ensures LostCardAt(ps[victims[m]], r[victims[m]], steal(DrawAt(ps, victims, k, m)))
    {
      assert victims[m] == rest[m - 1];
      assert DrawAt(ps, victims, k, m) == DrawAt(ps, rest, k1, m - 1);
    }
  }

  /** A victim holding cards loses exactly one, the one its draw picks, and
      keeps the rest in order; a victim holding none loses nothing. */
  lemma {:induction false} StealCardsVictims(ps: seq<Player>, actor: nat, victims: seq<nat>, steal: nat -> nat, k: nat)
    requires actor < |ps| && ValidVictims(ps, actor, victims)
    ensures var r := StealCards(ps, actor, victims, steal, k).0;
      forall m :: 0 <= m < |victims| ==>
        && LostOneCard(ps[victims[m]], r[victims[m]])
        && LostCardAt(ps[victims[m]], r[victims[m]], steal(DrawAt(ps, victims, k, m)))
    decreases |victims|
  {
    if |victims| > 0 {
      FirstPass(ps, actor, victims, steal, k);
      StealCardsVictims(CardStep(ps, actor, victims[0], steal, k), actor, victims[1..], steal, NextDraw(ps, victims[0], k));
      VictimsStep(ps, actor, victims, steal, k);
    }
  }

  /** `STEAL_CARD mode`: cards move from the chosen victims to the actor. */
  function ExecuteStealCard(ps: seq<Player>, actor: nat, params: seq<string>, draws: Draws): (r: (seq<Player>, seq<Message>))
    requires actor < |ps|
    ensures |params| == 0 ==> r == (ps, [])
    ensures multiset(AllCards(r.0)) == multiset(AllCards(ps))
    ensures KeepsSeats(ps, r.0) && KeepsActorCards(ps, r.0, actor)
    ensures forall j :: 0 <= j < |ps| ==> r.0[j].coins == ps[j].coins
    ensures |params| > 0 ==>
      var victims := SelectVictims(ps, actor, Upper(params[0]), draws.victim);
      && (forall m :: 0 <= m < |victims| ==>
            && LostOneCard(ps[victims[m]], r.0[victims[m]])
            && LostCardAt(ps[victims[m]], r.0[victims[m]], draws.steal(DrawAt(ps, victims, 0, m))))
      && r.0[actor].inventory == ps[actor].inventory + TakenCards(ps, victims, draws.steal, 0)
      && (forall i :: 0 <= i < |ps| && i != actor && i !in victims ==> r.0[i] == ps[i])
  {
    if |params| == 0 then (ps, [])
    else
      var mode := Upper(params[0]);
      var victims := SelectVictims(ps, actor, mode, draws.victim);
      StealCardsPool(ps, actor, victims, draws.steal, 0);
      StealCardsShape(ps, actor, victims, draws.steal, 0);
      StealCardsVictims(ps, actor, victims, draws.steal, 0);
      StealCardsActor(ps, actor, victims, draws.steal, 0);
      StealCards(ps, actor, victims, draws.steal, 0)
  }

  // ---------------------------------------------------------------------
  // Dispatch
  // ---------------------------------------------------------------------

  /** `ExecuteEffect`: a blank script does nothing; otherwise the upper-cased
      first word picks the handler and the other words are its parameters. */
  function ExecuteEffect(ps: seq<Player>, actor: nat, effect: string, draws: Draws): (r: Outcome)
    requires actor < |ps|
    ensures r.ColorParseFailed? ==> ParseEffect(effect).command == "GETBY"
    ensures r.Applied? ==> KeepsSeats(ps, r.players) && KeepsActorCards(ps, r.players, actor)
    ensures r.Applied? && ParseEffect(effect).command !in {"GET", "GETALL", "STEAL_MONEY", "STEAL_CARD", "GETBY"}
      ==> r == Applied(ps, [])
    ensures r.Applied? && ParseEffect(effect).command in {"STEAL_MONEY", "STEAL_CARD"}
      ==> TotalCoins(r.players) == TotalCoins(ps) && multiset(AllCards(r.players)) == multiset(AllCards(ps))
  {
    if IsBlank(effect) then Applied(ps, [])
    else
      var parsed := ParseEffect(effect);
      var params := parsed.parameters;
      match parsed.command
      case "GET" =>
        var r := ExecuteGet(ps, actor, params);
        Applied(r.0, r.1)
      case "GETALL" =>
        var r := ExecuteGetAll(ps, params);
        Applied(r.0, r.1)
      case "STEAL_MONEY" =>
        var r := ExecuteStealMoney(ps, actor, params, draws);
        StealMoneyKeepsCards(ps, r.0);
        Applied(r.0, r.1)
      case "STEAL_CARD" =>
        var r := ExecuteStealCard(ps, actor, params, draws);
        StealCardKeepsCoins(ps, r.0);
        Applied(r.0, r.1)
      case "GETBY" => ExecuteGetBy(ps, actor, params)
      case _ => Applied(ps, [])
  }

  /** Coin-only changes leave the pool of cards as it was. */
  lemma {:induction false} StealMoneyKeepsCards(ps: seq<Player>, qs: seq<Player>)
    requires KeepsInventories(ps, qs)
    ensures AllCards(qs) == AllCards(ps)
  {
    if |ps| > 0 {
      StealMoneyKeepsCards(ps[1..], qs[1..]);
    }
  }

  /** Inventory-only changes leave the coins in play as they were. */
  lemma {:induction false} StealCardKeepsCoins(ps: seq<Player>, qs: seq<Player>)
    requires |qs| == |ps| && forall j :: 0 <= j < |ps| ==> qs[j].coins == ps[j].coins
    ensures TotalCoins(qs) == TotalCoins(ps)
  {
    if |ps| > 0 {
      StealCardKeepsCoins(ps[1..], qs[1..]);
    }
  }
}

=== FILE: hub.dfy ===
/**
  Hubs/GameHub.cs, the rules around a turn: whose turn it is, ending a turn
  (daily income, a new round when play returns to the first seat), buying a
  card from the market, and activating a card from the inventory. Each hub
  call is one atomic step on the room's state; what the hub would broadcast
  is summarised by a `Reply`.
 */
module Hub {
  import opened Options
  import opened Numbers
  import opened Lists
  import opened Cards
  import opened Players
  import opened State
  import opened Effects
  import Settings

  /** What a hub call ends with: nothing to do, a table update, the end of
      the game, an exception escaping the hub, or one the hub catches. */
  datatype Reply = Ignored | Updated | GameOver(winner: string) | Raised | Caught

  /** The room's state after the call, the reply, and the game-log messages. */
  datatype Step = Step(state: GameState, reply: Reply, log: seq<Message>)

  /** The inputs of a new round the hub does not decide itself: the draw behind
      `Random.Next(0, 4)` for the active colour, whether `ResetTurnState` also
      clears the cards' used flags, and the market size the session's
      `ReplenishMarket` fills to. */
  datatype RoundInputs = RoundInputs(colorDraw: nat, clearUsed: bool, marketTarget: int)

  // ---------------------------------------------------------------------
  // The current player
  // ---------------------------------------------------------------------

  /** What the hub's `GetCurrentPlayer` does: it raises (a negative index),
      finds nobody (null), or finds the player at a roster position. */
  datatype Seat = SeatRaised | NoSeat | SeatAt(index: nat)

  /** `GetCurrentPlayer(state)`: null when `CurrentTurnIndex` is at or past
      the end of the turn order; otherwise the first player bearing the name
      there, where a negative index raises. */
  function CurrentSeat(s: GameState): (r: Seat)
    ensures r.SeatRaised? <==> s.currentTurnIndex < 0
    ensures r.NoSeat? <==> 0 <= s.currentTurnIndex
                           && (s.currentTurnIndex >= |s.turnOrder|
                               || s.turnOrder[s.currentTurnIndex] !in Names(s.players))
    ensures r.SeatAt? ==> && 0 <= s.currentTurnIndex < |s.turnOrder|
                          && r.index < |s.players|
                          && PlayerNamed(s.players, s.turnOrder[s.currentTurnIndex]) == Some(s.players[r.index])
                          && s.players[r.index].name == s.turnOrder[s.currentTurnIndex]
                          && forall j :: 0 <= j < r.index ==> s.players[j].name != s.players[r.index].name
  {
    if s.currentTurnIndex >= |s.turnOrder| then NoSeat
    else if s.currentTurnIndex < 0 then SeatRaised
    else
      var name := s.turnOrder[s.currentTurnIndex];
      match FirstIndex(s.players, (p: Player) => p.name == name)
      case None =>
        assert forall j :: 0 <= j < |s.players| ==> Names(s.players)[j] != name;
        NoSeat
      case Some(k) => SeatAt(k)
  }

  /** The lookup depends only on the turn order, the index and the names. */
  lemma {:induction false} CurrentSeatByNames(s: GameState, t: GameState)
    requires t.turnOrder == s.turnOrder && t.currentTurnIndex == s.currentTurnIndex
    requires |t.players| == |s.players|
    requires forall i :: 0 <= i < |s.players| ==> t.players[i].name == s.players[i].name
    ensures CurrentSeat(t) == CurrentSeat(s)
  {
    if 0 <= s.currentTurnIndex < |s.turnOrder| {
      var name := s.turnOrder[s.currentTurnIndex];
      assert Names(t.players) == Names(s.players);
      var a := CurrentSeat(s);
      var b := CurrentSeat(t);
      if a.SeatAt? && b.SeatAt? {
        assert t.players[a.index].name == name;
        assert s.players[b.index].name == name;
      }
    }
  }

  // ---------------------------------------------------------------------
  // Ending a turn and starting a round
  // ---------------------------------------------------------------------

  /** `ProcessNewRound`: the round number goes up by one (unchecked), the
      active colour is the drawn one of the four, every player's turn state is
      reset, and the market is replenished from the deck. The turn indices and
      the turn order stay as they are. */
  function ProcessNewRound(s: GameState, inputs: RoundInputs): (r: GameState)
    ensures r.roundNumber == Succ32(s.roundNumber)
    ensures r.activeColor == ColorOfOrdinal(inputs.colorDraw % 4)
    ensures |r.players| == |s.players|
    ensures forall i :: 0 <= i < |s.players| ==> r.players[i] == ResetTurnState(s.players[i], inputs.clearUsed)
    ensures r.market + r.deck == s.market + s.deck
    ensures |r.market| == Max(|s.market|, Min(inputs.marketTarget, |s.market| + |s.deck|))
    ensures r.turnOrder == s.turnOrder && r.currentTurnIndex == s.currentTurnIndex
    ensures r.currentPlayerIndex == s.currentPlayerIndex && r.roomCode == s.roomCode
  {
    var s1 := s.(roundNumber := Succ32(s.roundNumber),
                 activeColor := ColorOfOrdinal(inputs.colorDraw % 4),
                 players := ResetPlayers(s.players, inputs.clearUsed));
    Refill(s1, inputs.marketTarget)
  }

  /** The next value of `CurrentTurnIndex`: `(CurrentTurnIndex + 1) % Count`
      with an unchecked increment and C#'s remainder. */
  function NextTurnIndex(cti: Int32, count: nat): (r: Int32)
    requires count > 0
    ensures 0 <= cti < Int32Max && cti + 1 < count ==> r == cti + 1
    ensures 0 <= cti < Int32Max && cti + 1 == count ==> r == 0
    ensures r < 0 ==> cti < -1 || cti == Int32Max
  {
    var r := CsRem(Wrap32(cti as int + 1), count);
    assert 0 <= cti < Int32Max && cti + 1 <= count ==> r == (if cti + 1 == count then 0 else cti + 1) by {
      if 0 <= cti < Int32Max && cti + 1 <= count {
        var j: nat := cti + 1;
        assert Wrap32(cti as int + 1) == j;
        CsRemOfNat(j, count);
        if j == count { ModSelf(count); } else { ModSmall(j, count); }
      }
    }
    r
  }

  /** The state with the turn index moved on. */
  function PassTurn(s: GameState): (r: GameState)
    requires |s.turnOrder| > 0
    ensures r == s.(currentTurnIndex := r.currentTurnIndex)
    ensures r.currentTurnIndex == NextTurnIndex(s.currentTurnIndex, |s.turnOrder|)
  {
    s.(currentTurnIndex := NextTurnIndex(s.currentTurnIndex, |s.turnOrder|))
  }

  /** `ProcessTurnEnd`: an empty turn order divides by zero before anything
      changes. Otherwise the turn index moves on; the player then current (if
      any) receives the daily income and may buy again, and when the index has
      returned to 0 a new round starts. A negative index raises in the lookup,
      after the index was already stored. */
  function ProcessTurnEnd(s: GameState, dailyIncome: int, inputs: RoundInputs): (r: Step)
    ensures |s.turnOrder| == 0 ==> r == Step(s, Raised, [])
    ensures r.reply == Raised || r.reply == Updated
    ensures r.log == []
    ensures |s.turnOrder| > 0 ==>
      r.state.currentTurnIndex == NextTurnIndex(s.currentTurnIndex, |s.turnOrder|)
    ensures r.state.turnOrder == s.turnOrder && |r.state.players| == |s.players|
    ensures forall i :: 0 <= i < |s.players| ==> r.state.players[i].name == s.players[i].name
  {
    if |s.turnOrder| == 0 then Step(s, Raised, [])
    else
      var s1 := PassTurn(s);
      match CurrentSeat(s1)
      case SeatRaised => Step(s1, Raised, [])
      case NoSeat => Step(s1, Updated, [])
      case SeatAt(i) =>
        var s2 := Payday(s1, i, dailyIncome);
        if s2.currentTurnIndex == 0 then Step(ProcessNewRound(s2, inputs), Updated, [])
        else Step(s2, Updated, [])
  }

  /** The player at roster position `i` receives the daily income and may buy again. */
  function Payday(s: GameState, i: nat, dailyIncome: int): (r: GameState)
    requires i < |s.players|
    ensures |r.players| == |s.players|
    ensures r.players[i].coins == s.players[i].coins + dailyIncome && !r.players[i].hasBoughtThisTurn
    ensures r.players[i].name == s.players[i].name
    ensures forall j :: 0 <= j < |s.players| && j != i ==> r.players[j] == s.players[j]
    ensures TotalCoins(r.players) == TotalCoins(s.players) + dailyIncome
    ensures r == s.(players := r.players)
  {
    var p := s.players[i];
    var q := p.(coins := p.coins + dailyIncome, hasBoughtThisTurn := false);
    TotalCoinsUpdate(s.players, i, q);
    s.(players := s.players[i := q])
  }

  /** The hub's index points into a turn order whose length fits an `int`. */
  predicate HubInTurn(s: GameState) {
    0 <= s.currentTurnIndex < |s.turnOrder| <= Int32Max
  }

  /** From a valid index, ending a turn never raises, moves the index to the
      next seat (wrapping to 0) and keeps it valid. */
  lemma TurnEndAdvances(s: GameState, dailyIncome: int, inputs: RoundInputs)
    requires HubInTurn(s)
    ensures var r := ProcessTurnEnd(s, dailyIncome, inputs);
      && r.reply == Updated
      && r.state.currentTurnIndex == Succ(s.currentTurnIndex, |s.turnOrder|)
      && HubInTurn(r.state)
  {
  }

  /** A new round starts exactly when play passes from the last seat to the
      first and somebody sits there; otherwise the round, the active colour,
      the market and the deck are as they were. */
  lemma TurnEndNewRound(s: GameState, dailyIncome: int, inputs: RoundInputs)
    requires HubInTurn(s)
    ensures var r := ProcessTurnEnd(s, dailyIncome, inputs).state;
      var rolled := s.currentTurnIndex + 1 == |s.turnOrder| && s.turnOrder[0] in Names(s.players);
      && (rolled ==>
            && r.roundNumber == Succ32(s.roundNumber)
            && r.activeColor == ColorOfOrdinal(inputs.colorDraw % 4)
            && r.market + r.deck == s.market + s.deck
            && |r.market| == Max(|s.market|, Min(inputs.marketTarget, |s.market| + |s.deck|))
            && forall i :: 0 <= i < |r.players| ==> !r.players[i].hasBoughtThisTurn)
      && (!rolled ==>
            && r.roundNumber == s.roundNumber && r.activeColor == s.activeColor
            && r.market == s.market && r.deck == s.deck)
  {
    var s1 := PassTurn(s);
    assert s1.currentTurnIndex == 0 <==> s.currentTurnIndex + 1 == |s.turnOrder|;
    assert s1.players == s.players;
    if s1.currentTurnIndex == 0 && s.turnOrder[0] in Names(s.players) {
      TurnEndRolls(s, dailyIncome, inputs);
    } else {
      TurnEndStays(s, dailyIncome, inputs);
    }
  }

  /** Play returning to an occupied first seat starts a new round. */
  lemma TurnEndRolls(s: GameState, dailyIncome: int, inputs: RoundInputs)
    requires |s.turnOrder| > 0 && PassTurn(s).currentTurnIndex == 0
    requires s.turnOrder[0] in Names(s.players)
    ensures var r := ProcessTurnEnd(s, dailyIncome, inputs).state;
      && r.roundNumber == Succ32(s.roundNumber)
      && r.activeColor == ColorOfOrdinal(inputs.colorDraw % 4)
      && r.market + r.deck == s.market + s.deck
      && |r.market| == Max(|s.market|, Min(inputs.marketTarget, |s.market| + |s.deck|))
      && forall i :: 0 <= i < |r.players| ==> !r.players[i].hasBoughtThisTurn
  {
    var s1 := PassTurn(s);
    var i := CurrentSeat(s1).index;
    var s2 := Payday(s1, i, dailyIncome);
    var r := ProcessNewRound(s2, inputs);
    assert ProcessTurnEnd(s, dailyIncome, inputs).state == r;
    forall j | 0 <= j < |r.players|
      ensures !r.players[j].hasBoughtThisTurn
    {
      assert r.players[j] == ResetTurnState(s2.players[j], inputs.clearUsed);
    }
  }

  /** Any other turn end keeps the round, the colour, the market and the deck. */
  lemma TurnEndStays(s: GameState, dailyIncome: int, inputs: RoundInputs)
    requires |s.turnOrder| > 0
    requires PassTurn(s).currentTurnIndex != 0 || s.turnOrder[0] !in Names(s.players)
    ensures var r := ProcessTurnEnd(s, dailyIncome, inputs).state;
      && r.roundNumber == s.roundNumber && r.activeColor == s.activeColor
      && r.market == s.market && r.deck == s.deck
  {
    var s1 := PassTurn(s);
    match CurrentSeat(s1)
    case SeatRaised =>
    case NoSeat =>
    case SeatAt(i) =>
      assert s1.currentTurnIndex != 0;
  }

  /** Only the player now on turn is paid: that player gains exactly the daily
      income and may buy again, every other player keeps its coins, and without
      a new round every other player is untouched. */
  lemma TurnEndIncome(s: GameState, dailyIncome: int, inputs: RoundInputs)
    requires |s.turnOrder| > 0
    ensures var r := ProcessTurnEnd(s, dailyIncome, inputs).state;
      && (CurrentSeat(PassTurn(s)).SeatAt? ==>
            var i := CurrentSeat(PassTurn(s)).index;
            && r.players[i].coins == s.players[i].coins + dailyIncome
            && !r.players[i].hasBoughtThisTurn
            && TotalCoins(r.players) == TotalCoins(s.players) + dailyIncome
            && (forall j :: 0 <= j < |s.players| && j != i ==> r.players[j].coins == s.players[j].coins)
            && (r.currentTurnIndex != 0 ==>
                  forall j :: 0 <= j < |s.players| && j != i ==> r.players[j] == s.players[j]))
      && (!CurrentSeat(PassTurn(s)).SeatAt? ==> r.players == s.players)
  {
    var s1 := PassTurn(s);
    match CurrentSeat(s1)
    case SeatRaised =>
    case NoSeat =>
    case SeatAt(i) =>
      var s2 := Payday(s1, i, dailyIncome);
      var r := ProcessTurnEnd(s, dailyIncome, inputs).state;
      if s2.currentTurnIndex == 0 {
        assert r == ProcessNewRound(s2, inputs);
        ResetPlayersKeeps(s2.players, inputs.clearUsed);
        assert r.players == ResetPlayers(s2.players, inputs.clearUsed);
      } else {
        assert r == s2;
      }
  }

  /** `EndTurn(roomCode)`: nothing happens for a room without a game. */
  function EndTurn(room: Option<GameState>, settings: Settings.GameSettings, inputs: RoundInputs): (r: Option<Step>)
    ensures r.None? <==> room.None?
    ensures room.Some? ==> r.value.state.turnOrder == room.value.turnOrder
    ensures room.Some? && HubInTurn(room.value) ==>
      r.value.reply == Updated && HubInTurn(r.value.state)
  {
    match room
    case None => None
    case Some(s) =>
      assert HubInTurn(s) ==> ProcessTurnEnd(s, settings.dailyIncome, inputs).reply == Updated
                              && HubInTurn(ProcessTurnEnd(s, settings.dailyIncome, inputs).state) by {
        if HubInTurn(s) { TurnEndAdvances(s, settings.dailyIncome, inputs); }
      }
      Some(ProcessTurnEnd(s, settings.dailyIncome, inputs))
  }

  // ---------------------------------------------------------------------
  // Buying
  // ---------------------------------------------------------------------

  /** `ProcessCardPurchase`: the buyer pays the cost, is marked as having
      bought, and the market card at `k` moves to the end of the inventory.
      (`Market.Remove(card)` removes that very card, which is the first with
      its id.) */
  function ProcessCardPurchase(s: GameState, i: nat, k: nat): (r: GameState)
    requires i < |s.players| && k < |s.market|
    ensures |r.players| == |s.players|
    ensures r.players[i].coins == s.players[i].coins - s.market[k].cost
    ensures r.players[i].hasBoughtThisTurn
    ensures r.players[i].inventory == s.players[i].inventory + [s.market[k]]
    ensures r.players[i].name == s.players[i].name && r.players[i].connectionId == s.players[i].connectionId
    ensures forall j :: 0 <= j < |s.players| && j != i ==> r.players[j] == s.players[j]
    ensures r.market == RemoveAt(s.market, k)
    ensures r.(players := s.players, market := s.market) == s
  {
    var card := s.market[k];
    var p := AddCardToInventory(SpendCoins(s.players[i], card.cost).(hasBoughtThisTurn := true), card);
    s.(players := s.players[i := p], market := RemoveAt(s.market, k))
  }

  /** A purchase moves one card and its price: the coins in play fall by the
      cost, and the cards in the market and in the inventories, together, are
      the same multiset. */
  lemma PurchaseConserves(s: GameState, i: nat, k: nat)
    requires i < |s.players| && k < |s.market|
    ensures var r := ProcessCardPurchase(s, i, k);
      && TotalCoins(r.players) == TotalCoins(s.players) - s.market[k].cost
      && multiset(AllCards(r.players)) + multiset(r.market)
         == multiset(AllCards(s.players)) + multiset(s.market)
  {
    var r := ProcessCardPurchase(s, i, k);
    var c := s.market[k];
    TotalCoinsUpdate(s.players, i, r.players[i]);
    AllCardsUpdate(s.players, i, r.players[i]);
    var a, b := multiset(AllCards(r.players)), multiset(AllCards(s.players));
    var inv := multiset(s.players[i].inventory);
    assert multiset(r.players[i].inventory) == inv + multiset{c};
    assert a + inv == b + inv + multiset{c};
    MultisetCancel(a, b + multiset{c}, inv);
    assert multiset(r.market) + multiset{c} == multiset(s.market);
  }

  /** `PlayerClickCard(roomCode, cardId)` once the room's state is found:
      nothing happens without a current player, when that player has already
      bought this turn, when no market card has the id, or when the player
      cannot afford it; otherwise the purchase is made. */
  function PlayerClickCard(s: GameState, cardId: int): (r: Step)
    ensures r.log == []
    ensures r.reply == Raised <==> s.currentTurnIndex < 0
    ensures r.reply != Updated ==> r.state == s
    ensures r.reply == Updated <==>
      && CurrentSeat(s).SeatAt?
      && !s.players[CurrentSeat(s).index].hasBoughtThisTurn
      && FirstIndex(s.market, (c: Card) => c.id == cardId).Some?
      && CanAfford(s.players[CurrentSeat(s).index], s.market[FirstIndex(s.market, (c: Card) => c.id == cardId).value].cost)
    ensures r.reply == Updated ==>
      r.state == ProcessCardPurchase(s, CurrentSeat(s).index, FirstIndex(s.market, (c: Card) => c.id == cardId).value)
    ensures r.reply == Raised || r.reply == Ignored || r.reply == Updated
  {
    match CurrentSeat(s)
    case SeatRaised => Step(s, Raised, [])
    case NoSeat => Step(s, Ignored, [])
    case SeatAt(i) =>
      if s.players[i].hasBoughtThisTurn then Step(s, Ignored, [])
      else
        match FirstIndex(s.market, (c: Card) => c.id == cardId)
        case None => Step(s, Ignored, [])
        case Some(k) =>
          if !CanAfford(s.players[i], s.market[k].cost) then Step(s, Ignored, [])
          else Step(ProcessCardPurchase(s, i, k), Updated, [])
  }

  /** A successful purchase takes the first market card with the id: that
      card leaves the market and ends the buyer's inventory, and the buyer is
      poorer by its cost. */
  lemma PurchaseMovesCard(s: GameState, cardId: int)
    requires PlayerClickCard(s, cardId).reply == Updated
    ensures var r := PlayerClickCard(s, cardId).state;
      var i := CurrentSeat(s).index;
      && i < |r.players|
      && |r.players[i].inventory| == |s.players[i].inventory| + 1
      && var c := r.players[i].inventory[|s.players[i].inventory|];
      && c.id == cardId && c in s.market
      && r.players[i].coins == s.players[i].coins - c.cost
      && |r.market| == |s.market| - 1
      && multiset(r.market) + multiset{c} == multiset(s.market)
  {
  }

  /** A player buys at most once per turn: after a purchase, a second click on
      any card does nothing. */
  lemma OnePurchasePerTurn(s: GameState, cardId: int, otherId: int)
    requires PlayerClickCard(s, cardId).reply == Updated
    ensures var t := PlayerClickCard(s, cardId).state;
      PlayerClickCard(t, otherId) == Step(t, Ignored, [])
  {
    var t := PlayerClickCard(s, cardId).state;
    CurrentSeatByNames(s, t);
  }

  // ---------------------------------------------------------------------
  // Activating
  // ---------------------------------------------------------------------

  /** `CanActivateCard`: the card exists, has the active colour, and is unused. */
  predicate CanActivateCard(card: Option<Card>, s: GameState) {
    card.Some? && card.value.color == s.activeColor && !card.value.isUsed
  }

  /** No card means no activation; a used card cannot fire until the round's
      reset clears its flag, after which a card of the active colour can. */
  lemma CanActivateCardCases(c: Card, s: GameState)
    ensures !CanActivateCard(None, s)
    ensures !CanActivateCard(Some(c.(isUsed := true)), s)
    ensures c.color == s.activeColor ==> CanActivateCard(Some(Reset(c)), s)
  {
  }

  /** The card the current player would activate, with its position. */
  function ActivationTarget(s: GameState, cardId: int): (r: Option<(nat, nat)>)
    ensures r.Some? <==>
      && CurrentSeat(s).SeatAt?
      && FirstIndex(s.players[CurrentSeat(s).index].inventory, (c: Card) => c.id == cardId).Some?
    ensures r.Some? ==>
      && r.value.0 == CurrentSeat(s).index && r.value.0 < |s.players|
      && r.value.1 < |s.players[r.value.0].inventory|
      && s.players[r.value.0].inventory[r.value.1].id == cardId
      && forall j :: 0 <= j < r.value.1 ==> s.players[r.value.0].inventory[j].id != cardId
  {
    match CurrentSeat(s)
    case SeatAt(i) =>
      (match FirstIndex(s.players[i].inventory, (c: Card) => c.id == cardId)
       case None => None
       case Some(k) => Some((i, k)))
    case _ => None
  }

  /** Marks the card at position `k` of player `i`'s inventory as used. */
  function MarkUsed(ps: seq<Player>, i: nat, k: nat): (r: seq<Player>)
    requires i < |ps| && k < |ps[i].inventory|
    ensures |r| == |ps| && |r[i].inventory| == |ps[i].inventory|
    ensures r[i].inventory[k] == ps[i].inventory[k].(isUsed := true)
    ensures forall m :: 0 <= m < |ps[i].inventory| && m != k ==> r[i].inventory[m] == ps[i].inventory[m]
    ensures r[i].(inventory := ps[i].inventory) == ps[i]
    ensures forall j :: 0 <= j < |ps| && j != i ==> r[j] == ps[j]
  {
    var inv := ps[i].inventory;
    ps[i := ps[i].(inventory := inv[k := inv[k].(isUsed := true)])]
  }

  /** `ActivateCard(roomCode, cardId)` once the room's state is found: the
      lookup of the current player happens outside the hub's `try` and may
      raise; a card that is missing, of another colour or already used is
      refused. Otherwise the effect runs; a colour GETBY cannot parse raises
      inside the `try`, is caught, and nothing changes. Else the card is
      marked used and the game is over when the actor's coins have reached
      the target. */
  function ActivateCard(s: GameState, cardId: int, winTarget: int, draws: Draws): (r: Step)
    ensures r.reply == Raised <==> s.currentTurnIndex < 0
    ensures r.reply == Ignored <==> s.currentTurnIndex >= 0 && !Activatable(s, cardId)
    ensures r.reply == Raised || r.reply == Ignored || r.reply == Caught ==> r.state == s && r.log == []
    ensures r.state.(players := s.players) == s
  {
    if s.currentTurnIndex < 0 then Step(s, Raised, [])
    else
      match ActivationTarget(s, cardId)
      case None => Step(s, Ignored, [])
      case Some((i, k)) =>
        if !CanActivateCard(Some(s.players[i].inventory[k]), s) then Step(s, Ignored, [])
        else Fire(s, i, k, winTarget, draws)
  }

  /** The `try` block of `ActivateCard` for the card at position `k` of
      player `i`'s inventory: the effect runs, a colour GETBY cannot parse is
      caught and changes nothing; otherwise the card is marked used and the
      game is over when the actor has reached the target. */
  function Fire(s: GameState, i: nat, k: nat, winTarget: int, draws: Draws): (r: Step)
    requires i < |s.players| && k < |s.players[i].inventory|
    ensures var e := ExecuteEffect(s.players, i, s.players[i].inventory[k].effect, draws);
      && (r.reply == Caught <==> e.ColorParseFailed?)
      && (e.ColorParseFailed? ==> r == Step(s, Caught, []))
      && (e.Applied? ==> r.state == s.(players := MarkUsed(e.players, i, k)) && r.log == e.log)
    ensures r.reply == Caught || r.reply == Updated || r.reply.GameOver?
    ensures r.reply != Caught ==> (r.reply.GameOver? <==> HasWon(r.state.players[i], winTarget))
    ensures r.reply.GameOver? ==> r.reply.winner == s.players[i].name
  {
    match ExecuteEffect(s.players, i, s.players[i].inventory[k].effect, draws)
    case ColorParseFailed => Step(s, Caught, [])
    case Applied(ps, log) =>
      var ps2 := MarkUsed(ps, i, k);
      if HasWon(ps2[i], winTarget) then Step(s.(players := ps2), GameOver(ps2[i].name), log)
      else Step(s.(players := ps2), Updated, log)
  }

  /** The current player holds a card with the id, and the first such card
      has the active colour and is unused. */
  predicate Activatable(s: GameState, cardId: int) {
    && ActivationTarget(s, cardId).Some?
    && CanActivateCard(Some(TargetCard(s, cardId)), s)
  }

  /** The card `ActivateCard` would use. */
  function TargetCard(s: GameState, cardId: int): (c: Card)
    requires ActivationTarget(s, cardId).Some?
    ensures c.id == cardId
  {
    s.players[ActivationTarget(s, cardId).value.0].inventory[ActivationTarget(s, cardId).value.1]
  }

  /** An activatable card at a non-negative index goes into the `try` block. */
  lemma ActivateFires(s: GameState, cardId: int, winTarget: int, draws: Draws)
    requires s.currentTurnIndex >= 0 && Activatable(s, cardId)
    ensures var (i, k) := ActivationTarget(s, cardId).value;
      && i < |s.players| && k < |s.players[i].inventory|
      && ActivateCard(s, cardId, winTarget, draws) == Fire(s, i, k, winTarget, draws)
  {
  }

  /** The only exception the hub catches is GETBY's unparsable colour. */
  lemma ActivateCaught(s: GameState, cardId: int, winTarget: int, draws: Draws)
    requires ActivateCard(s, cardId, winTarget, draws).reply == Caught
    ensures Activatable(s, cardId)
    ensures ParseEffect(TargetCard(s, cardId).effect).command == "GETBY"
  {
    ActivateFires(s, cardId, winTarget, draws);
  }

  /** After an activation that went through, the card is used and otherwise
      unchanged, the actor still holds every card it held at the same place,
      and the game is over exactly when the actor has reached the target. */
  lemma ActivateMarks(s: GameState, cardId: int, winTarget: int, draws: Draws)
    ensures var r := ActivateCard(s, cardId, winTarget, draws);
      (r.reply.Updated? || r.reply.GameOver?) ==>
      && Activatable(s, cardId)
      && var (i, k) := ActivationTarget(s, cardId).value;
      && i < |r.state.players| && |r.state.players[i].inventory| >= |s.players[i].inventory|
      && r.state.players[i].inventory[k] == TargetCard(s, cardId).(isUsed := true)
      && (forall m :: 0 <= m < |s.players[i].inventory| && m != k ==>
            r.state.players[i].inventory[m] == s.players[i].inventory[m])
      && (r.reply.GameOver? <==> HasWon(r.state.players[i], winTarget))
      && (r.reply.GameOver? ==> r.reply.winner == s.players[i].name)
  {
    var r := ActivateCard(s, cardId, winTarget, draws);
    if r.reply.Updated? || r.reply.GameOver? {
      ActivateFires(s, cardId, winTarget, draws);
      var (i, k) := ActivationTarget(s, cardId).value;
      var e := ExecuteEffect(s.players, i, s.players[i].inventory[k].effect, draws);
      assert e.Applied?;
      var ps := e.players;
      assert KeepsActorCards(s.players, ps, i);
      assert forall m :: 0 <= m < |s.players[i].inventory| ==>
        ps[i].inventory[m] == ps[i].inventory[..|s.players[i].inventory|][m];
    }
  }

  /** Activation changes nothing about the seats: the roster keeps its names,
      connections and purchase flags. */
  lemma ActivateKeepsSeats(s: GameState, cardId: int, winTarget: int, draws: Draws)
    ensures var r := ActivateCard(s, cardId, winTarget, draws).state;
      && |r.players| == |s.players|
      && forall j :: 0 <= j < |s.players| ==>
           r.players[j].name == s.players[j].name && r.players[j].hasBoughtThisTurn == s.players[j].hasBoughtThisTurn
  {
    var r := ActivateCard(s, cardId, winTarget, draws);
    if r.reply.Updated? || r.reply.GameOver? {
      ActivateFires(s, cardId, winTarget, draws);
      var (i, k) := ActivationTarget(s, cardId).value;
      var e := ExecuteEffect(s.players, i, s.players[i].inventory[k].effect, draws);
      assert e.Applied? && KeepsSeats(s.players, e.players);
      var ps2 := MarkUsed(e.players, i, k);
      assert r.state.players == ps2;
      forall j | 0 <= j < |s.players|
        ensures ps2[j].name == s.players[j].name && ps2[j].hasBoughtThisTurn == s.players[j].hasBoughtThisTurn
      {
        assert ps2[j].name == e.players[j].name && ps2[j].hasBoughtThisTurn == e.players[j].hasBoughtThisTurn;
      }
    }
  }

  /** A card is activated at most once: once an activation has gone through,
      activating the same id again is refused (until a reset clears the flag). */
  lemma ActivateOnce(s: GameState, cardId: int, winTarget: int, draws: Draws, again: Draws)
    ensures var r := ActivateCard(s, cardId, winTarget, draws);
      r.reply.Updated? ==> ActivateCard(r.state, cardId, winTarget, again) == Step(r.state, Ignored, [])
  {
    var r := ActivateCard(s, cardId, winTarget, draws);
    if r.reply.Updated? {
      var t := r.state;
      ActivateKeepsSeats(s, cardId, winTarget, draws);
      ActivateMarks(s, cardId, winTarget, draws);
      CurrentSeatByNames(s, t);
      var (i, k) := ActivationTarget(s, cardId).value;
      var inv, inv2 := s.players[i].inventory, t.players[i].inventory;
      assert inv2[k].id == cardId;
      assert forall j :: 0 <= j < k ==> inv2[j].id != cardId;
      assert ActivationTarget(t, cardId) == Some((i, k));
      assert TargetCard(t, cardId) == inv2[k] && inv2[k].isUsed;
      assert t.currentTurnIndex == s.currentTurnIndex && !Activatable(t, cardId);
      assert ActivateCard(t, cardId, winTarget, again).reply == Ignored;
    }
  }

  /** An effect whose command the interpreter does not know does nothing, yet
      the card is still used up. */
  lemma ActivateUnknownCommandStillUses(s: GameState, cardId: int, winTarget: int, draws: Draws)
    requires s.currentTurnIndex >= 0 && Activatable(s, cardId)
    requires ParseEffect(TargetCard(s, cardId).effect).command !in {"GET", "GETALL", "STEAL_MONEY", "STEAL_CARD", "GETBY"}
    ensures var r := ActivateCard(s, cardId, winTarget, draws);
      var (i, k) := ActivationTarget(s, cardId).value;
      && (r.reply.Updated? || r.reply.GameOver?)
      && r.state.players == MarkUsed(s.players, i, k)
      && r.log == []
  {
    ActivateFires(s, cardId, winTarget, draws);
  }
}

=== FILE: lists.dfy ===
/**
  The `List<T>` operations the game uses: `FirstOrDefault` with a predicate,
  `RemoveAt`, and `Remove` (the first equal element).
 */
module Lists {
  import opened Options

  /** The index of the first element satisfying `p`, as `FirstOrDefault(p)` finds it. */
  function FirstIndex<T>(xs: seq<T>, p: T -> bool): (k: Option<nat>)
    ensures k.Some? ==> k.value < |xs| && p(xs[k.value])
    ensures k.Some? ==> forall j :: 0 <= j < k.value ==> !p(xs[j])
    ensures k.None? <==> forall j :: 0 <= j < |xs| ==> !p(xs[j])
  {
    if |xs| == 0 then None
    else if p(xs[0]) then Some(0)
    else
      match FirstIndex(xs[1..], p)
      case None => None
      case Some(k) => Some(k + 1)
  }

  /** `List.RemoveAt(k)`: the elements before and after position `k`, in order. */
  function RemoveAt<T>(xs: seq<T>, k: nat): (r: seq<T>)
    requires k < |xs|
    ensures |r| == |xs| - 1
    ensures forall j :: 0 <= j < k ==> r[j] == xs[j]
    ensures forall j :: k <= j < |r| ==> r[j] == xs[j + 1]
    ensures multiset(r) + multiset{xs[k]} == multiset(xs)
  {
    assert xs == xs[..k] + [xs[k]] + xs[k + 1..];
    xs[..k] + xs[k + 1..]
  }

  /** `List.Remove(x)`: drops the first element equal to `x`, if there is one. */
  function RemoveFirst<T(==)>(xs: seq<T>, x: T): (r: seq<T>)
    ensures x !in xs ==> r == xs
    ensures x in xs ==> |r| == |xs| - 1 && multiset(r) == multiset(xs) - multiset{x}
    ensures x in xs ==>
      exists k :: 0 <= k < |xs| && xs[k] == x && x !in xs[..k] && r == xs[..k] + xs[k + 1..]
  {
    match FirstIndex(xs, y => y == x)
    case None => xs
    case Some(k) =>
      assert x !in xs[..k] by {
        forall j | 0 <= j < k ensures xs[..k][j] != x { assert xs[..k][j] == xs[j]; }
      }
      RemoveAt(xs, k)
  }

  /** Concatenation is associative. */
  lemma AppendAssoc<T>(a: seq<T>, b: seq<T>, c: seq<T>)
    ensures a + (b + c) == (a + b) + c
  {
  }

  /** Removing the last element gives back the prefix. */
  lemma RemoveAtLast<T>(xs: seq<T>, x: T)
    ensures RemoveAt(xs + [x], |xs|) == xs
  {
    assert (xs + [x])[..|xs|] == xs;
  }
}

=== FILE: loader.dfy ===
/**
  Services/CardLoader.cs, the pure part of reading a card table: the weight
  normaliser, the header-row test, the icon path, the colour fallback, and
  the construction of a card from one row's cell values. Reading the
  workbook, the icon-file check and the id generator are not modelled; the
  row arrives as the values its cells yielded, and the id as a parameter.
 */
module Loader {
  import opened Options
  import opened Strings
  import opened Numbers
  import opened Cards

  const DefaultWeight: Int32 := 50
  const MinWeight: Int32 := 1
  const MaxWeight: Int32 := 100
  const IconPrefix: string := "/images/cards/"
  const PlaceholderIcon: string := "/images/cards/placeholder.png"

  /** `Math.Clamp(value, min, max)` for `min <= max`. */
  function Clamp(value: int, lo: int, hi: int): (r: int)
    requires lo <= hi
    ensures lo <= r <= hi
    ensures lo <= value <= hi ==> r == value
    ensures value < lo ==> r == lo
    ensures value > hi ==> r == hi
  {
    if value < lo then lo else if value > hi then hi else value
  }

  /** `ParseCardWeight`: 50 for a weight that is zero or negative, otherwise
      the weight clamped into 1..100. */
  function ParseCardWeight(weight: Int32): (r: Int32)
    ensures WeightInRange(r)
    ensures weight <= 0 ==> r == DefaultWeight
    ensures 1 <= weight <= 100 ==> r == weight
    ensures weight > 100 ==> r == MaxWeight
  {
    if weight <= 0 then DefaultWeight else Clamp(weight, MinWeight, MaxWeight)
  }

  /** Normalising a normalised weight changes nothing. */
  lemma ParseCardWeightIdempotent(weight: Int32)
    ensures ParseCardWeight(ParseCardWeight(weight)) == ParseCardWeight(weight)
  {
  }

  /** `IsHeaderRow`: an empty name cell, or the word `Name` in any case. */
  predicate IsHeaderRow(nameValue: string) {
    |nameValue| == 0 || EqualsIgnoreCase(nameValue, "Name")
  }

  /** The header test accepts the empty cell and the spellings of `Name`, and
      nothing of any other length. */
  lemma IsHeaderRowCases(nameValue: string)
    ensures IsHeaderRow("") && IsHeaderRow("Name") && IsHeaderRow("name") && IsHeaderRow("NAME")
    ensures |nameValue| != 0 && |nameValue| != 4 ==> !IsHeaderRow(nameValue)
    ensures IsHeaderRow(nameValue) && |nameValue| > 0 ==> Upper(nameValue) == "NAME"
  {
    assert Upper("Name") == "NAME";
    assert Upper("name") == "NAME";
    assert Upper("NAME") == "NAME";
    if |nameValue| != 0 && |nameValue| != 4 {
      assert |Upper(nameValue)| != |Upper("Name")|;
    }
  }

  /** `BuildIconPath`: the placeholder for an empty file name, otherwise the
      file under the cards' image folder. */
  function BuildIconPath(iconFile: string): (r: string)
    ensures |iconFile| == 0 ==> r == PlaceholderIcon
    ensures |iconFile| > 0 ==> r == IconPrefix + iconFile
  {
    if |iconFile| == 0 then PlaceholderIcon else IconPrefix + iconFile
  }

  /** The file name a path under the image folder refers to. */
  function IconFileOf(path: string): (r: Option<string>)
    ensures r.Some? ==> path == IconPrefix + r.value
  {
    if |path| >= |IconPrefix| && path[..|IconPrefix|] == IconPrefix then
      assert path == path[..|IconPrefix|] + path[|IconPrefix|..];
      Some(path[|IconPrefix|..])
    else None
  }

  /** The icon path gives back its file name; an empty name comes back as
      the placeholder's, which is the one name the path cannot tell apart. */
  lemma IconPathRoundTrip(iconFile: string)
    ensures |iconFile| > 0 ==> IconFileOf(BuildIconPath(iconFile)) == Some(iconFile)
    ensures |iconFile| == 0 ==> IconFileOf(BuildIconPath(iconFile)) == Some("placeholder.png")
    ensures BuildIconPath("") == BuildIconPath("placeholder.png")
  {
    var p := BuildIconPath(iconFile);
    assert (IconPrefix + iconFile)[..|IconPrefix|] == IconPrefix;
    assert (IconPrefix + iconFile)[|IconPrefix|..] == iconFile;
    assert PlaceholderIcon == IconPrefix + "placeholder.png";
  }

  /** `ParseCardColor`: the colour the value names, case ignored, or Blue
      when `Enum.Parse` fails. */
  function ParseCardColor(colorValue: string): (r: CardColor)
    ensures ParseColor(colorValue).Some? ==> r == ParseColor(colorValue).value
    ensures ParseColor(colorValue).None? ==> r == Blue
  {
    ParseColor(colorValue).GetOr(Blue)
  }

  /** Every colour's name, in any of its usual spellings, reads back as that
      colour; a value naming no colour reads as Blue. */
  lemma ParseCardColorNames(c: CardColor, other: string)
    ensures ParseCardColor(ColorName(c)) == c
    ensures ParseCardColor(Lower(ColorName(c))) == c
    ensures ParseCardColor(Upper(ColorName(c))) == c
    ensures (forall d: CardColor :: !EqualsIgnoreCase(Trim(other), ColorName(d))) ==> ParseCardColor(other) == Blue
  {
    ColorNameAnyCase(c);
    var n := ColorName(c);
    SpellingParses(n, c);
    SpellingParses(Lower(n), c);
    SpellingParses(Upper(n), c);
    if ParseColor(other).Some? {
      ParseColorExact(other, ParseColor(other).value);
    }
  }

  /** A spelling of a colour's name carries no surrounding blanks, so it
      parses as that colour. */
  lemma SpellingParses(t: string, c: CardColor)
    requires EqualsIgnoreCase(t, ColorName(c))
    ensures ParseCardColor(t) == c
  {
    var n := ColorName(c);
    assert |t| == |Upper(t)| == |Upper(n)| == |n| > 0;
    var last := |t| - 1;
    assert Upper(t)[0] == Upper(n)[0] && Upper(t)[last] == Upper(n)[last];
    assert !IsWhiteSpace(n[0]) && !IsWhiteSpace(n[last]);
    TrimUnchanged(t);
    ParseColorExact(t, c);
  }

  /** The values one table row yields: the text cells as read, and the three
      number cells as `GetValue<int>()` converts them (None when it throws). */
  datatype Row = Row(
    name: string,
    color: string,
    effect: string,
    cost: Option<Int32>,
    reward: Option<Int32>,
    icon: string,
    description: string,
    weight: Option<Int32>,
    narrative: string)

  /** `ParseCardRow`: no card for a header row or when a number cell does not
      convert (the exception is caught); otherwise a card of the trimmed name,
      colour, effect and icon, the converted numbers, and a normalised
      weight. Description and narrative are taken as they are. */
  function ParseCardRow(row: Row, id: int): (r: Option<Card>)
    ensures r.None? <==> IsHeaderRow(Trim(row.name)) || row.cost.None? || row.reward.None? || row.weight.None?
    ensures r.Some? ==>
      && r.value.id == id
      && r.value.name == Trim(row.name) && r.value.effect == Trim(row.effect)
      && r.value.color == ParseCardColor(Trim(row.color))
      && r.value.cost == row.cost.value && r.value.reward == row.reward.value
      && r.value.icon == BuildIconPath(Trim(row.icon))
      && r.value.weight == ParseCardWeight(row.weight.value)
      && !r.value.isUsed
    ensures r.Some? ==> r.value.description == row.description && r.value.narrative == row.narrative
  {
    var name := Trim(row.name);
    if IsHeaderRow(name) then None
    else if row.cost.None? || row.reward.None? || row.weight.None? then None
    else
      Some(Card(id, name, ParseCardColor(Trim(row.color)), Trim(row.effect),
                row.cost.value, row.reward.value, BuildIconPath(Trim(row.icon)),
                row.description, row.narrative, false, ParseCardWeight(row.weight.value)))
  }

  /** A loaded card never fails the weight check of `Card.Validate`, and has
      a non-blank name. */
  lemma ParsedCardWeightValid(row: Row, id: int)
    ensures var r := ParseCardRow(row, id);
      r.Some? ==> WeightOutOfRange !in Validate(r.value) && MissingName !in Validate(r.value)
  {
    var t := Trim(row.name);
    if ParseCardRow(row, id).Some? {
      assert |t| > 0;
      assert !IsWhiteSpace(t[0]);
    }
  }

  /** Each row's result, in table order (the `Select`). */
  function RowCards(rows: seq<Row>, ids: seq<int>): (cells: seq<Option<Card>>)
    requires |ids| == |rows|
    ensures |cells| == |rows|
    ensures forall i :: 0 <= i < |rows| ==> cells[i] == ParseCardRow(rows[i], ids[i])
  {
    seq(|rows|, i requires 0 <= i < |rows| => ParseCardRow(rows[i], ids[i]))
  }

  /** The cards among the results, in order (the `OfType<Card>()`). */
  function Keep(cells: seq<Option<Card>>): (r: seq<Card>)
  {
    if |cells| == 0 then []
    else if cells[0].None? then Keep(cells[1..])
    else [cells[0].value] + Keep(cells[1..])
  }

  /** The rows' cards, skipping the rows that yield none; row `i` receives
      id `ids[i]`. */
  function ParseRows(rows: seq<Row>, ids: seq<int>): seq<Card>
    requires |ids| == |rows|
  {
    Keep(RowCards(rows, ids))
  }

  /** What loading promises of every card: unused, with a weight in range. */
  predicate Loaded(c: Card) {
    WeightInRange(c.weight) && !c.isUsed
  }

  /** Keeping the cards drops the empty results and nothing else: at most one
      card per result, every card one of the results. */
  lemma {:induction false} KeepShape(cells: seq<Option<Card>>)
    requires forall i :: 0 <= i < |cells| && cells[i].Some? ==> Loaded(cells[i].value)
    ensures |Keep(cells)| <= |cells|
    ensures forall k :: 0 <= k < |Keep(cells)| ==> Loaded(Keep(cells)[k])
    ensures forall k :: 0 <= k < |Keep(cells)| ==> Some(Keep(cells)[k]) in cells
  {
    if |cells| > 0 {
      var tail := cells[1..];
      assert forall i :: 0 <= i < |tail| ==> tail[i] == cells[i + 1];
      KeepShape(tail);
      var all := Keep(cells);
      if cells[0].Some? {
        assert all == [cells[0].value] + Keep(tail);
        forall k | 0 <= k < |all|
          ensures Loaded(all[k]) && Some(all[k]) in cells
        {
          if k > 0 {
            assert all[k] == Keep(tail)[k - 1];
          }
        }
      } else {
        forall k | 0 <= k < |all|
          ensures Some(all[k]) in cells
        {
          assert Some(all[k]) in tail;
        }
      }
    }
  }

  /** Results that are all cards are all kept. */
  lemma {:induction false} KeepAll(cells: seq<Option<Card>>)
    requires forall i :: 0 <= i < |cells| ==> cells[i].Some?
    ensures |Keep(cells)| == |cells|
  {
    if |cells| > 0 {
      var tail := cells[1..];
      assert forall i :: 0 <= i < |tail| ==> tail[i] == cells[i + 1];
      KeepAll(tail);
    }
  }

  /** Loading yields at most one card per row, each unused and with a weight
      in range. */
  lemma ParseRowsShape(rows: seq<Row>, ids: seq<int>)
    requires |ids| == |rows|
    ensures |ParseRows(rows, ids)| <= |rows|
    ensures forall k :: 0 <= k < |ParseRows(rows, ids)| ==> Loaded(ParseRows(rows, ids)[k])
  {
    var cells := RowCards(rows, ids);
    forall i | 0 <= i < |cells| && cells[i].Some?
      ensures Loaded(cells[i].value)
    {
      assert cells[i] == ParseCardRow(rows[i], ids[i]);
    }
    KeepShape(cells);
  }

  /** A table whose every row is a well-formed card row loses none of them. */
  lemma ParseRowsKeepsAll(rows: seq<Row>, ids: seq<int>)
    requires |ids| == |rows|
    requires forall i :: 0 <= i < |rows| ==> ParseCardRow(rows[i], ids[i]).Some?
    ensures |ParseRows(rows, ids)| == |rows|
  {
    KeepAll(RowCards(rows, ids));
  }
}

=== FILE: numbers.dfy ===
/**
  C# integer semantics the game relies on: the 32-bit `int` range, unchecked
  wrap-around, the truncating remainder `%`, `int.TryParse` with the default
  `NumberStyles.Integer`, and `int.ToString()`.
 */
module Numbers {
  import opened Options
  import Lists

  const Int32Min: int := -0x8000_0000
  const Int32Max: int := 0x7FFF_FFFF
  const Modulus32: int := 0x1_0000_0000

  /** The values of a C# `int`. */
  type Int32 = x: int | Int32Min <= x <= Int32Max

  /** Unchecked C# `int` arithmetic: the result taken modulo 2^32 into the `int` range. */
  function Wrap32(x: int): (r: Int32)
    ensures (r - x) % Modulus32 == 0
    ensures Int32Min <= x <= Int32Max ==> r == x
  {
    (x - Int32Min) % Modulus32 + Int32Min
  }

  /** An unchecked C# `x + 1`: one more, except that the largest `int` wraps
      to the smallest. */
  function Succ32(x: Int32): (r: Int32)
    ensures x < Int32Max ==> r == x + 1
    ensures x == Int32Max ==> r == Int32Min
  {
    Wrap32(x as int + 1)
  }

  function Min(a: int, b: int): (r: int)
    ensures r <= a && r <= b && (r == a || r == b)
  {
    if a <= b then a else b
  }

  function Max(a: int, b: int): (r: int)
    ensures r >= a && r >= b && (r == a || r == b)
  {
    if a >= b then a else b
  }

  function Abs(a: int): (r: nat)
    ensures r == a || r == -a
  {
    if a < 0 then -a else a
  }

  /** C# `a % n`: truncating division, so the remainder takes the dividend's sign. */
  function CsRem(a: int, n: int): (r: int)
    requires n != 0
    ensures a >= 0 ==> 0 <= r < Abs(n)
    ensures a < 0 ==> -(Abs(n) as int) < r <= 0
    ensures Abs(r) <= Abs(a)
  {
    var m := Abs(n);
    if a >= 0 then ModBelow(a, m); a % m
    else ModBelow(-a, m); -((-a) % m)
  }

  /** The remainder of a natural number is below the divisor and the number. */
  lemma ModBelow(a: nat, m: nat)
    requires m > 0
    ensures 0 <= a % m < m && a % m <= a
  {
    if a < m {
      assert a == m * 0 + a;
    }
  }

  /** A number below the divisor is its own remainder. */
  lemma ModSmall(d: int, n: int)
    requires 0 <= d < n
    ensures d % n == d
  {
  }

  /** A positive number divides itself. */
  lemma ModSelf(n: int)
    requires n > 0
    ensures n % n == 0
  {
  }

  /** On a non-negative dividend the C# remainder is Dafny's. */
  lemma CsRemOfNat(a: nat, n: nat)
    requires n > 0
    ensures CsRem(a, n) == a % n
  {
  }

  // ---------------------------------------------------------------------
  // Decimal digits
  // ---------------------------------------------------------------------

  predicate IsDigit(c: char) {
    '0' <= c <= '9'
  }

  function DigitValue(c: char): nat
    requires IsDigit(c)
  {
    c as int - '0' as int
  }

  function DigitChar(d: nat): (c: char)
    requires d < 10
    ensures IsDigit(c) && DigitValue(c) == d
  {
    ('0' as int + d) as char
  }

  predicate AllDigits(s: string) {
    forall i :: 0 <= i < |s| ==> IsDigit(s[i])
  }

  /** The number a digit string denotes. */
  function DigitsValue(s: string): nat
    requires AllDigits(s)
  {
    if |s| == 0 then 0 else DigitsValue(s[..|s| - 1]) * 10 + DigitValue(s[|s| - 1])
  }

  /** The shortest decimal digits of `n`. */
  function NatDigits(n: nat): (s: string)
    ensures |s| > 0 && AllDigits(s)
  {
    if n < 10 then [DigitChar(n)] else NatDigits(n / 10) + [DigitChar(n % 10)]
  }

  /** `int.ToString()`: invariant-culture decimal with a leading '-' for negatives. */
  function IntToString(n: int): (s: string)
    ensures |s| > 0
    ensures s[0] == '-' <==> n < 0
    ensures AllDigits(if n < 0 then s[1..] else s)
  {
    if n < 0 then "-" + NatDigits(-n) else NatDigits(n)
  }

  /** The characters `int.TryParse` skips around the number (`NumberStyles.Integer`):
      U+0009..U+000D and the space. */
  predicate IsNumberWhite(c: char) {
    ('\U{0009}' <= c <= '\U{000D}') || c == ' '
  }

  function SkipNumberWhite(s: string): (r: string)
    ensures |r| <= |s|
  {
    if |s| > 0 && IsNumberWhite(s[0]) then SkipNumberWhite(s[1..]) else s
  }

  function DropNumberWhite(s: string): (r: string)
    ensures |r| <= |s|
  {
    if |s| > 0 && IsNumberWhite(s[|s| - 1]) then DropNumberWhite(s[..|s| - 1]) else s
  }

  /** A sign followed by digits, with the value it denotes (unbounded). */
  function SignedDigits(t: string): Option<int> {
    if |t| > 0 && (t[0] == '-' || t[0] == '+') then
      var body := t[1..];
      if |body| > 0 && AllDigits(body) then
        Some(if t[0] == '-' then -(DigitsValue(body) as int) else DigitsValue(body))
      else None
    else if |t| > 0 && AllDigits(t) then Some(DigitsValue(t))
    else None
  }

  /** `int.TryParse(s, out v)`: optional white space, an optional sign, one or
      more ASCII digits, optional white space, and a value that fits an `int`.
      The runtime also accepts NUL characters at the very end of the text. */
  function TryParseInt(s: string): (r: Option<Int32>)
    ensures r.Some? ==> exists i :: 0 <= i < |s| && IsDigit(s[i])
    ensures r.Some? ==> forall i :: 0 <= i < |s| ==> NumberChar(s[i])
  {
    var c := DropNuls(s);
    DropNulsIsPrefix(s);
    var r := ParseNumber(c);
    if r.Some? then
      assert forall i :: 0 <= i < |c| ==> c[i] == s[i];
      r
    else r
  }

  /** `int.TryParse` once the trailing NULs are cut off. */
  function ParseNumber(s: string): (r: Option<Int32>)
    ensures r.Some? ==> exists i :: 0 <= i < |s| && IsDigit(s[i])
    ensures r.Some? ==> forall i :: 0 <= i < |s| ==> NumberChar(s[i])
  {
    var t := DropNumberWhite(SkipNumberWhite(s));
    SkipIsSuffix(s);
    DropIsPrefix(SkipNumberWhite(s));
    match SignedDigits(t)
    case Some(v) =>
      var i := if IsDigit(t[0]) then 0 else 1;
      assert IsDigit(t[i]);
      assert t[i] == s[|s| - |SkipNumberWhite(s)| + i];
      var u := SkipNumberWhite(s);
      TrimSplit(s);
      CharsOfParts(s, s[..|s| - |u|], t, u[|t|..]);
      if Int32Min <= v <= Int32Max then Some(v) else None
    case None => None
  }

  /** The text without its trailing NUL characters. */
  function DropNuls(s: string): (r: string)
    ensures |r| <= |s|
  {
    if |s| > 0 && s[|s| - 1] == '\0' then DropNuls(s[..|s| - 1]) else s
  }

  lemma {:induction false} DropNulsIsPrefix(s: string)
    ensures DropNuls(s) == s[..|DropNuls(s)|]
    ensures forall i :: |DropNuls(s)| <= i < |s| ==> s[i] == '\0'
  {
    if |s| > 0 && s[|s| - 1] == '\0' {
      DropNulsIsPrefix(s[..|s| - 1]);
    }
  }

  predicate AllNuls(z: string) {
    forall i :: 0 <= i < |z| ==> z[i] == '\0'
  }

  /** NULs appended to the text do not change what `int.TryParse` reads. */
  lemma {:induction false} TrailingNuls(s: string, z: string)
    requires AllNuls(z)
    ensures TryParseInt(s + z) == TryParseInt(s)
  {
    if |z| > 0 {
      assert (s + z)[..|s + z| - 1] == s + z[..|z| - 1];
      TrailingNuls(s, z[..|z| - 1]);
    } else {
      assert s + z == s;
    }
  }

  /** A text not ending in NUL keeps all its characters. */
  lemma NoNuls(s: string)
    requires |s| == 0 || s[|s| - 1] != '\0'
    ensures TryParseInt(s) == ParseNumber(s)
  {
  }

  /** The characters `int.TryParse` can accept anywhere in its input. */
  predicate NumberChar(c: char) {
    IsDigit(c) || IsNumberWhite(c) || c == '+' || c == '-' || c == '\0'
  }

  predicate AllNumberWhite(s: string) {
    forall i :: 0 <= i < |s| ==> IsNumberWhite(s[i])
  }

  /** A signed digit string holds only digits and signs. */
  lemma SignedChars(t: string)
    requires SignedDigits(t).Some?
    ensures forall i :: 0 <= i < |t| ==> IsDigit(t[i]) || t[i] == '+' || t[i] == '-'
  {
    if !IsDigit(t[0]) {
      forall i | 1 <= i < |t| ensures IsDigit(t[i]) {
        assert t[1..][i - 1] == t[i];
      }
    }
  }

  /** Trimming splits a text into white space, the core, and white space. */
  lemma TrimSplit(s: string)
    ensures var u := SkipNumberWhite(s); var t := DropNumberWhite(u);
      && s == s[..|s| - |u|] + t + u[|t|..]
      && AllNumberWhite(s[..|s| - |u|]) && AllNumberWhite(u[|t|..])
  {
    var u := SkipNumberWhite(s);
    var t := DropNumberWhite(u);
    var k := |s| - |u|;
    SkipIsSuffix(s);
    DropIsPrefix(u);
    assert s == s[..k] + u;
    assert u == t + u[|t|..];
    Lists.AppendAssoc(s[..k], t, u[|t|..]);
    forall i | 0 <= i < k ensures IsNumberWhite(s[..k][i]) {
      assert s[..k][i] == s[i];
    }
    forall i | 0 <= i < |u| - |t| ensures IsNumberWhite(u[|t|..][i]) {
      assert u[|t|..][i] == u[|t| + i];
    }
  }

  /** A signed digit string with white space around it holds only number characters. */
  lemma CharsOfParts(s: string, lead: string, t: string, trail: string)
    requires s == lead + t + trail
    requires AllNumberWhite(lead) && AllNumberWhite(trail)
    requires SignedDigits(t).Some?
    ensures forall i :: 0 <= i < |s| ==> NumberChar(s[i])
  {
    SignedChars(t);
  }

  /** Skipping leading white space stops at the first other character. */
  lemma {:induction false} SkipWhitePrefix(a: string, t: string)
    requires AllNumberWhite(a)
    requires |t| > 0 && !IsNumberWhite(t[0])
    ensures SkipNumberWhite(a + t) == t
  {
    if |a| == 0 {
      assert a + t == t;
    } else {
      assert (a + t)[1..] == a[1..] + t;
      SkipWhitePrefix(a[1..], t);
    }
  }

  /** Dropping trailing white space stops at the last other character. */
  lemma {:induction false} DropWhiteSuffix(t: string, b: string)
    requires AllNumberWhite(b)
    requires |t| > 0 && !IsNumberWhite(t[|t| - 1])
    ensures DropNumberWhite(t + b) == t
  {
    if |b| == 0 {
      assert t + b == t;
    } else {
      assert (t + b)[..|t + b| - 1] == t + b[..|b| - 1];
      DropWhiteSuffix(t, b[..|b| - 1]);
    }
  }

  /** Surrounding white space does not change what is parsed. */
  lemma Padded(a: string, t: string, b: string)
    requires AllNumberWhite(a) && AllNumberWhite(b)
    requires |t| > 0 && !IsNumberWhite(t[0]) && !IsNumberWhite(t[|t| - 1]) && t[|t| - 1] != '\0'
    ensures TryParseInt(a + t + b) == TryParseInt(t)
  {
    assert a + t + b == a + (t + b);
    assert (a + t + b)[|a + t + b| - 1] == if |b| > 0 then b[|b| - 1] else t[|t| - 1];
    NoNuls(a + t + b);
    NoNuls(t);
    SkipWhitePrefix(a, t + b);
    DropWhiteSuffix(t, b);
    SkipWhitePrefix([], t);
    DropWhiteSuffix(t, []);
    assert t + [] == t;
  }

  predicate AllZeros(z: string) {
    forall i :: 0 <= i < |z| ==> z[i] == '0'
  }

  lemma {:induction false} ZerosValue(z: string)
    requires AllZeros(z)
    ensures AllDigits(z) && DigitsValue(z) == 0
  {
    if |z| > 0 {
      ZerosValue(z[..|z| - 1]);
    }
  }

  /** Leading zeros do not change the value of a digit string. */
  lemma {:induction false} LeadingZeros(z: string, d: string)
    requires AllZeros(z) && AllDigits(d)
    ensures AllDigits(z + d) && DigitsValue(z + d) == DigitsValue(d)
  {
    if |d| == 0 {
      assert z + d == z;
      ZerosValue(z);
    } else {
      assert (z + d)[..|z + d| - 1] == z + d[..|d| - 1];
      LeadingZeros(z, d[..|d| - 1]);
    }
  }

  /** `int.TryParse` reads back a printed number with white space around it. */
  lemma ParsePadded(a: string, n: Int32, b: string)
    requires AllNumberWhite(a) && AllNumberWhite(b)
    ensures TryParseInt(a + IntToString(n) + b) == Some(n)
  {
    var s := IntToString(n);
    PrintedShape(n);
    Padded(a, s, b);
    ParsePrinted(n);
  }

  /** A core without surrounding white space is parsed as it stands. */
  lemma Unpadded(t: string)
    requires |t| > 0 && !IsNumberWhite(t[0]) && !IsNumberWhite(t[|t| - 1])
    ensures DropNumberWhite(SkipNumberWhite(t)) == t
  {
  }

  /** A digit string, with or without a '+' in front, denotes its digits' value. */
  lemma UnsignedDigits(w: string)
    requires AllDigits(w) && |w| > 0
    ensures SignedDigits(w) == Some(DigitsValue(w) as int)
    ensures SignedDigits("+" + w) == Some(DigitsValue(w) as int)
  {
    assert IsDigit(w[0]);
    assert ("+" + w)[0] == '+' && ("+" + w)[1..] == w;
  }

  /** A core that reads as an `int` is read the same with white space around it. */
  lemma ParsedCore(a: string, t: string, b: string, v: Int32)
    requires AllNumberWhite(a) && AllNumberWhite(b)
    requires |t| > 0 && !IsNumberWhite(t[0]) && !IsNumberWhite(t[|t| - 1])
    requires SignedDigits(t) == Some(v as int)
    ensures TryParseInt(a + t + b) == Some(v)
  {
    SignedChars(t);
    Padded(a, t, b);
    Unpadded(t);
  }

  /** The same for a non-negative number written with a '+' sign and leading zeros. */
  lemma ParsePaddedPlus(a: string, z: string, n: Int32, b: string)
    requires AllNumberWhite(a) && AllNumberWhite(b) && AllZeros(z) && n >= 0
    ensures TryParseInt(a + "+" + z + IntToString(n) + b) == Some(n)
  {
    var d := IntToString(n);
    NatDigitsValue(n);
    LeadingZeros(z, d);
    var w := z + d;
    UnsignedDigits(w);
    var t := "+" + w;
    assert IsDigit(t[|t| - 1]) by { assert t[|t| - 1] == d[|d| - 1]; }
    assert !IsNumberWhite(t[0]) by { assert t[0] == '+'; }
    Lists.AppendAssoc(a, "+", w);
    Lists.AppendAssoc(a + "+", z, d);
    ParsedCore(a, t, b, n);
  }

  /** And written with leading zeros alone. */
  lemma ParsePaddedZeros(a: string, z: string, n: Int32, b: string)
    requires AllNumberWhite(a) && AllNumberWhite(b) && AllZeros(z) && n >= 0
    ensures TryParseInt(a + z + IntToString(n) + b) == Some(n)
  {
    var d := IntToString(n);
    NatDigitsValue(n);
    LeadingZeros(z, d);
    var t := z + d;
    UnsignedDigits(t);
    assert IsDigit(t[0]) && IsDigit(t[|t| - 1]);
    Lists.AppendAssoc(a, z, d);
    ParsedCore(a, t, b, n);
  }

  lemma {:induction false} NatDigitsValue(n: nat)
    ensures DigitsValue(NatDigits(n)) == n
  {
    if n >= 10 {
      var s := NatDigits(n);
      assert s[..|s| - 1] == NatDigits(n / 10);
      NatDigitsValue(n / 10);
    }
  }

  /** Printing an `int` and parsing it back gives the same `int`. */
  lemma ParsePrinted(n: Int32)
    ensures TryParseInt(IntToString(n)) == Some(n)
  {
    var s := IntToString(n);
    PrintedNumber(n);
    assert IsDigit(s[|s| - 1]);
    NoNuls(s);
  }

  lemma PrintedNumber(n: Int32)
    ensures ParseNumber(IntToString(n)) == Some(n)
  {
    var s := IntToString(n);
    var d := NatDigits(Abs(n));
    NatDigitsValue(Abs(n));
    assert !IsNumberWhite(s[0]) && !IsNumberWhite(s[|s| - 1]);
    assert SkipNumberWhite(s) == s;
    assert DropNumberWhite(s) == s;
    if n < 0 {
      assert s[1..] == d;
    }
  }

  lemma {:induction false} SkipIsSuffix(s: string)
    ensures SkipNumberWhite(s) == s[|s| - |SkipNumberWhite(s)|..]
    ensures forall i :: 0 <= i < |s| - |SkipNumberWhite(s)| ==> IsNumberWhite(s[i])
  {
    if |s| > 0 && IsNumberWhite(s[0]) {
      SkipIsSuffix(s[1..]);
    }
  }

  lemma {:induction false} DropIsPrefix(s: string)
    ensures DropNumberWhite(s) == s[..|DropNumberWhite(s)|]
    ensures forall i :: |DropNumberWhite(s)| <= i < |s| ==> IsNumberWhite(s[i])
  {
    if |s| > 0 && IsNumberWhite(s[|s| - 1]) {
      DropIsPrefix(s[..|s| - 1]);
    }
  }

  /** A digit string never starts or ends with white space or a sign. */
  lemma PrintedShape(n: int)
    ensures var s := IntToString(n);
      forall i :: 0 <= i < |s| ==> s[i] != '+' && s[i] != ' ' && !IsNumberWhite(s[i])
  {
  }
}

=== FILE: options.dfy ===
/** The optional value used wherever the C# code returns `null` for "absent". */
module Options {

  datatype Option<+T> = None | Some(value: T) {

    /** The wrapped value, or `default` when there is none. */
    function GetOr(default: T): T {
      match this
      case Some(v) => v
      case None => default
    }
  }
}

=== FILE: players.dfy ===
/**
  Models/Player.cs: a seat at the table. The game code also calls members
  that the `Player` class in this repository does not define (`CanAfford`,
  `SpendCoins`, `AddCardToInventory`, `CountCardsByColor`, `ResetTurnState`,
  `HasWon`); each is given here its minimal meaning, as named in the README.
 */
module Players {
  import opened Cards

  datatype Player = Player(
    name: string,
    connectionId: string,
    coins: int,
    inventory: seq<Card>,
    hasBoughtThisTurn: bool)

  const StartingCoins: int := 3

  /** A player created with only `Name` and `ConnectionId` set. */
  function NewPlayer(name: string, connectionId: string): (p: Player)
    ensures p.name == name && p.connectionId == connectionId
    ensures p.coins == StartingCoins && p.inventory == [] && !p.hasBoughtThisTurn
  {
    Player(name, connectionId, StartingCoins, [], false)
  }

  // ---------------------------------------------------------------------
  // Members the game calls but Player.cs does not show
  // ---------------------------------------------------------------------

  /** Assumed: a player can afford a price no larger than their coins. */
  predicate CanAfford(p: Player, cost: int) {
    p.coins >= cost
  }

  /** A player can afford a price exactly when paying it leaves no debt. */
  lemma CanAffordSpend(p: Player, cost: int)
    ensures CanAfford(p, cost) <==> SpendCoins(p, cost).coins >= 0
  {
  }

  /** Assumed: spending lowers the coins by exactly the amount. */
  function SpendCoins(p: Player, amount: int): (r: Player)
    ensures r.coins + amount == p.coins
    ensures r.(coins := p.coins) == p
  {
    p.(coins := p.coins - amount)
  }

  /** Assumed: a bought or stolen card goes to the end of the inventory. */
  function AddCardToInventory(p: Player, c: Card): (r: Player)
    ensures |r.inventory| == |p.inventory| + 1 && r.inventory[|p.inventory|] == c
    ensures r.inventory[..|p.inventory|] == p.inventory
    ensures r.(inventory := p.inventory) == p
  {
    p.(inventory := p.inventory + [c])
  }

  /** The number of cards of one colour in a sequence of cards. */
  function CountColor(cards: seq<Card>, color: CardColor): (n: nat)
    ensures n <= |cards|
  {
    if |cards| == 0 then 0
    else (if cards[0].color == color then 1 else 0) + CountColor(cards[1..], color)
  }

  /** Assumed: the number of inventory cards of the given colour. */
  function CountCardsByColor(p: Player, color: CardColor): (n: nat)
    ensures n <= |p.inventory|
  {
    CountColor(p.inventory, color)
  }

  /** A card added to the inventory raises its colour's count by one and
      leaves the other colours' counts as they were. */
  lemma CountAfterAdd(p: Player, c: Card, color: CardColor)
    ensures CountCardsByColor(AddCardToInventory(p, c), color)
         == CountCardsByColor(p, color) + (if c.color == color then 1 else 0)
  {
    CountColorAppend(p.inventory, [c], color);
    assert [c][1..] == [];
  }

  lemma {:induction false} CountColorAppend(a: seq<Card>, b: seq<Card>, color: CardColor)
    ensures CountColor(a + b, color) == CountColor(a, color) + CountColor(b, color)
  {
    if |a| > 0 {
      assert (a + b)[1..] == a[1..] + b;
      CountColorAppend(a[1..], b, color);
    } else {
      assert a + b == b;
    }
  }

  /** The per-colour counts of an inventory add up to its size. */
  lemma {:induction false} CountColorsPartition(cards: seq<Card>)
    ensures CountColor(cards, Blue) + CountColor(cards, Gold)
          + CountColor(cards, Red) + CountColor(cards, Purple) == |cards|
  {
    if |cards| > 0 {
      CountColorsPartition(cards[1..]);
    }
  }

  /** Assumed: `ResetTurnState` clears `HasBoughtThisTurn`. Whether it also
      clears the cards' used flags is not visible, so `clearUsed` chooses. */
  function ResetTurnState(p: Player, clearUsed: bool): (r: Player)
    ensures !r.hasBoughtThisTurn
    ensures r.name == p.name && r.connectionId == p.connectionId && r.coins == p.coins
    ensures |r.inventory| == |p.inventory|
    ensures forall i :: 0 <= i < |p.inventory| ==>
      r.inventory[i] == (if clearUsed then Reset(p.inventory[i]) else p.inventory[i])
  {
    var inv := if clearUsed then ResetAll(p.inventory) else p.inventory;
    p.(hasBoughtThisTurn := false, inventory := inv)
  }

  function ResetAll(cards: seq<Card>): (r: seq<Card>)
    ensures |r| == |cards|
    ensures forall i :: 0 <= i < |cards| ==> r[i] == Reset(cards[i])
  {
    seq(|cards|, i requires 0 <= i < |cards| => Reset(cards[i]))
  }

  /** Assumed: a player has won once their coins reach the target. */
  predicate HasWon(p: Player, target: int) {
    p.coins >= target
  }

  /** Gaining coins never takes a win away. */
  lemma HasWonMonotone(p: Player, target: int, gain: nat)
    ensures HasWon(p, target) ==> HasWon(p.(coins := p.coins + gain), target)
  {
  }

  // ---------------------------------------------------------------------
  // Aggregates over a roster, for the conservation properties
  // ---------------------------------------------------------------------

  /** The coins held by all players together. */
  function TotalCoins(ps: seq<Player>): int {
    if |ps| == 0 then 0 else ps[0].coins + TotalCoins(ps[1..])
  }

  /** All cards held by the players, inventory after inventory. */
  function AllCards(ps: seq<Player>): seq<Card> {
    if |ps| == 0 then [] else ps[0].inventory + AllCards(ps[1..])
  }

  /** The names of the players, in roster order. */
  function Names(ps: seq<Player>): (r: seq<string>)
    ensures |r| == |ps|
    ensures forall i :: 0 <= i < |ps| ==> r[i] == ps[i].name
  {
    seq(|ps|, i requires 0 <= i < |ps| => ps[i].name)
  }

  /** Replacing one player changes the total by the change in that player's coins. */
  lemma {:induction false} TotalCoinsUpdate(ps: seq<Player>, i: nat, q: Player)
    requires i < |ps|
    ensures TotalCoins(ps[i := q]) == TotalCoins(ps) - ps[i].coins + q.coins
  {
    if i == 0 {
      assert ps[i := q][1..] == ps[1..];
    } else {
      assert ps[i := q][1..] == ps[1..][i - 1 := q];
      TotalCoinsUpdate(ps[1..], i - 1, q);
    }
  }

  /** Replacing one player swaps that player's inventory in the pool of all cards. */
  lemma {:induction false} AllCardsUpdate(ps: seq<Player>, i: nat, q: Player)
    requires i < |ps|
    ensures multiset(AllCards(ps[i := q])) + multiset(ps[i].inventory)
         == multiset(AllCards(ps)) + multiset(q.inventory)
  {
    var head := ps[0].inventory;
    if i == 0 {
      assert ps[i := q][1..] == ps[1..];
    } else {
      var t := ps[1..];
      var t' := t[i - 1 := q];
      assert ps[i := q][1..] == t';
      assert t[i - 1] == ps[i];
      AllCardsUpdate(t, i - 1, q);
      var old', new' := multiset(ps[i].inventory), multiset(q.inventory);
      var rest, rest' := multiset(AllCards(t)), multiset(AllCards(t'));
      assert rest' + old' == rest + new';
      assert multiset(AllCards(ps[i := q])) == multiset(head) + rest';
      assert multiset(AllCards(ps)) == multiset(head) + rest;
      var h := multiset(head);
      assert h + rest' + old' == h + (rest' + old');
      assert h + rest + new' == h + (rest + new');
    }
  }

  /** The number of cards held by all players together. */
  lemma {:induction false} AllCardsSize(ps: seq<Player>, i: nat, q: Player)
    requires i < |ps|
    ensures |AllCards(ps[i := q])| + |ps[i].inventory| == |AllCards(ps)| + |q.inventory|
  {
    AllCardsUpdate(ps, i, q);
    var a, b := multiset(AllCards(ps[i := q])), multiset(ps[i].inventory);
    var c, d := multiset(AllCards(ps)), multiset(q.inventory);
    assert |a + b| == |a| + |b| && |c + d| == |c| + |d|;
  }
}

=== FILE: sessions.dfy ===
/**
  Services/GameSessionService.cs: the lobby registry, a dictionary from room
  code to the names of the players who joined, in joining order. Names are
  compared exactly (ordinal, case-sensitive).
 */
module Sessions {

  /** `Dictionary<string, List<string>>`. */
  type Rooms = map<string, seq<string>>

  /** No name occurs twice. */
  predicate NoDuplicates(names: seq<string>) {
    forall i, j :: 0 <= i < j < |names| ==> names[i] != names[j]
  }

  /** Every room's list is free of duplicates. */
  predicate WellFormed(rooms: Rooms) {
    forall code :: code in rooms ==> NoDuplicates(rooms[code])
  }

  /** `GetPlayers(roomCode)`: the room's list, or a new empty list for a room
      that does not exist. */
  function GetPlayers(rooms: Rooms, roomCode: string): (r: seq<string>)
    ensures roomCode !in rooms ==> r == []
    ensures roomCode in rooms ==> r == rooms[roomCode]
  {
    if roomCode in rooms then rooms[roomCode] else []
  }

  /** `AddPlayer(roomCode, userName)`: creates the room if needed, then
      appends the name unless it is already there. */
  function AddPlayer(rooms: Rooms, roomCode: string, userName: string): (r: Rooms)
    ensures r.Keys == rooms.Keys + {roomCode}
    ensures forall code :: code in rooms && code != roomCode ==> r[code] == rooms[code]
    ensures userName in GetPlayers(rooms, roomCode) ==> r[roomCode] == GetPlayers(rooms, roomCode)
    ensures userName !in GetPlayers(rooms, roomCode) ==> r[roomCode] == GetPlayers(rooms, roomCode) + [userName]
  {
    var list := if roomCode in rooms then rooms[roomCode] else [];
    if userName in list then rooms[roomCode := list] else rooms[roomCode := list + [userName]]
  }

  /** Joining an unknown room creates it with exactly the one name. */
  lemma AddPlayerCreatesRoom(rooms: Rooms, roomCode: string, userName: string)
    requires roomCode !in rooms
    ensures GetPlayers(AddPlayer(rooms, roomCode, userName), roomCode) == [userName]
  {
  }

  /** Joining keeps every list duplicate-free, and the joined name is then in the room. */
  lemma AddPlayerKeepsWellFormed(rooms: Rooms, roomCode: string, userName: string)
    requires WellFormed(rooms)
    ensures WellFormed(AddPlayer(rooms, roomCode, userName))
    ensures userName in GetPlayers(AddPlayer(rooms, roomCode, userName), roomCode)
  {
    var r := AddPlayer(rooms, roomCode, userName);
    var list := GetPlayers(rooms, roomCode);
    if userName !in list {
      var l2 := list + [userName];
      forall i, j | 0 <= i < j < |l2|
        ensures l2[i] != l2[j]
      {
        if j == |list| {
          assert l2[i] == list[i];
        }
      }
    }
  }

  /** Joining twice is joining once. */
  lemma AddPlayerIdempotent(rooms: Rooms, roomCode: string, userName: string)
    ensures AddPlayer(AddPlayer(rooms, roomCode, userName), roomCode, userName)
         == AddPlayer(rooms, roomCode, userName)
  {
    var r := AddPlayer(rooms, roomCode, userName);
    assert userName in r[roomCode];
    assert r[roomCode := r[roomCode]] == r;
  }

  /** Joining one room is invisible from every other room. */
  lemma AddPlayerOtherRooms(rooms: Rooms, roomCode: string, userName: string, other: string)
    requires other != roomCode
    ensures GetPlayers(AddPlayer(rooms, roomCode, userName), other) == GetPlayers(rooms, other)
  {
  }

  /** Several players joining one room in turn. */
  function JoinAll(rooms: Rooms, roomCode: string, names: seq<string>): (r: Rooms)
    ensures roomCode in r
    decreases |names|
  {
    if |names| == 0 then rooms[roomCode := GetPlayers(rooms, roomCode)]
    else JoinAll(AddPlayer(rooms, roomCode, names[0]), roomCode, names[1..])
  }

  /** After a series of joins the room lists the names it had, still first and
      in order, followed by the newcomers; it holds exactly the old names and
      the joined ones, none twice. */
  lemma {:induction false} JoinAllContents(rooms: Rooms, roomCode: string, names: seq<string>)
    requires NoDuplicates(GetPlayers(rooms, roomCode))
    ensures var list := GetPlayers(JoinAll(rooms, roomCode, names), roomCode);
      && NoDuplicates(list)
      && |list| >= |GetPlayers(rooms, roomCode)|
      && list[..|GetPlayers(rooms, roomCode)|] == GetPlayers(rooms, roomCode)
      && (forall n :: n in list <==> n in GetPlayers(rooms, roomCode) || n in names)
    decreases |names|
  {
    if |names| > 0 {
      var before := GetPlayers(rooms, roomCode);
      var r1 := AddPlayer(rooms, roomCode, names[0]);
      var mid := GetPlayers(r1, roomCode);
      AddPlayerKeepsWellFormed(map[roomCode := before], roomCode, names[0]);
      assert AddPlayer(map[roomCode := before], roomCode, names[0])[roomCode] == mid;
      JoinAllContents(r1, roomCode, names[1..]);
      var list := GetPlayers(JoinAll(rooms, roomCode, names), roomCode);
      assert mid[..|before|] == before;
      assert list[..|before|] == list[..|mid|][..|before|];
      forall n
        ensures n in list <==> n in before || n in names
      {
        assert n in names <==> n == names[0] || n in names[1..];
      }
    }
  }
}

=== FILE: settings.dfy ===
/**
  Models/GameSettings.cs: the balance configuration, its validation and
  repair, the player-count range, the starting-coin draw and the market-size
  formula `"{players_count} + 1"`.
 */
module Settings {
  import opened Options
  import opened Strings
  import opened Numbers

  const DefaultWinTarget: Int32 := 100
  const DefaultDailyIncome: Int32 := 1
  const MinPlayers: Int32 := 2
  const MaxPlayers: Int32 := 4
  const DefaultStartCoinsMin: Int32 := 5
  const StartCoinsSpread: Int32 := 5
  const PlayersCountPlaceholder: string := "{players_count}"
  const DefaultMarketSizeFormula: string := "{players_count} + 1"

  /** The configuration; every number is a C# `int`. */
  datatype GameSettings = GameSettings(
    startCoinsMin: Int32,
    startCoinsMax: Int32,
    winTarget: Int32,
    dailyIncome: Int32,
    minPlayersCount: Int32,
    maxPlayersCount: Int32,
    marketSizeFormula: string)

  /** The property initializers' values. */
  const Defaults: GameSettings :=
    GameSettings(5, 10, DefaultWinTarget, DefaultDailyIncome, MinPlayers, MaxPlayers, DefaultMarketSizeFormula)

  // ---------------------------------------------------------------------
  // Validation
  // ---------------------------------------------------------------------

  /** One message per failed check of `Validate`, named after the check. */
  datatype SettingsProblem =
    | NegativeStartCoins
    | StartCoinsRangeInverted
    | NonPositiveWinTarget
    | NegativeDailyIncome
    | TooFewPlayers
    | TooManyPlayers
    | PlayerRangeInverted

  /** The position of each check in `Validate`. */
  function ProblemRank(p: SettingsProblem): (k: nat)
    ensures k < ChecksCount
  {
    match p
    case NegativeStartCoins => 0
    case StartCoinsRangeInverted => 1
    case NonPositiveWinTarget => 2
    case NegativeDailyIncome => 3
    case TooFewPlayers => 4
    case TooManyPlayers => 5
    case PlayerRangeInverted => 6
  }

  const ChecksCount: nat := 7

  /** The check made at position `k`. */
  function ProblemAt(k: nat): (p: SettingsProblem)
    requires k < ChecksCount
    ensures ProblemRank(p) == k
  {
    if k == 0 then NegativeStartCoins
    else if k == 1 then StartCoinsRangeInverted
    else if k == 2 then NonPositiveWinTarget
    else if k == 3 then NegativeDailyIncome
    else if k == 4 then TooFewPlayers
    else if k == 5 then TooManyPlayers
    else PlayerRangeInverted
  }

  /** All seven checks of `Validate` pass. */
  predicate IsValidSettings(s: GameSettings) {
    && s.startCoinsMin >= 0
    && s.startCoinsMax >= s.startCoinsMin
    && s.winTarget > 0
    && s.dailyIncome >= 0
    && s.minPlayersCount >= MinPlayers
    && s.maxPlayersCount <= MaxPlayers
    && s.minPlayersCount <= s.maxPlayersCount
  }

  /** The condition under which `Validate` reports problem `p`. */
  predicate Fails(s: GameSettings, p: SettingsProblem) {
    match p
    case NegativeStartCoins => s.startCoinsMin < 0
    case StartCoinsRangeInverted => s.startCoinsMax < s.startCoinsMin
    case NonPositiveWinTarget => s.winTarget <= 0
    case NegativeDailyIncome => s.dailyIncome < 0
    case TooFewPlayers => s.minPlayersCount < MinPlayers
    case TooManyPlayers => s.maxPlayersCount > MaxPlayers
    case PlayerRangeInverted => s.minPlayersCount > s.maxPlayersCount
  }

  /** Reported problems appear in check order. */
  predicate Ranked(errors: seq<SettingsProblem>) {
    forall i, j :: 0 <= i < j < |errors| ==> ProblemRank(errors[i]) < ProblemRank(errors[j])
  }

  /** The checks from position `k` on, each adding its message when it fails. */
  function ChecksFrom(s: GameSettings, k: nat): (errors: seq<SettingsProblem>)
    requires k <= ChecksCount
    ensures forall p :: p in errors <==> Fails(s, p) && ProblemRank(p) >= k
    ensures forall i :: 0 <= i < |errors| ==> ProblemRank(errors[i]) >= k
    ensures Ranked(errors)
    decreases ChecksCount - k
  {
    if k == ChecksCount then []
    else
      var p := ProblemAt(k);
      var rest := ChecksFrom(s, k + 1);
      assert forall q :: ProblemRank(q) == k ==> q == p;
      if Fails(s, p) then
        var errors := [p] + rest;
        assert forall i :: 0 < i < |errors| ==> errors[i] == rest[i - 1];
        errors
      else rest
  }

  /** `GameSettings.Validate()`: exactly the failed checks, each once, in check order. */
  function Validate(s: GameSettings): (errors: seq<SettingsProblem>)
    ensures forall p :: p in errors <==> Fails(s, p)
    ensures errors == [] <==> IsValidSettings(s)
    ensures Ranked(errors)
  {
    var errors := ChecksFrom(s, 0);
    assert !IsValidSettings(s) ==> exists p :: Fails(s, p) by {
      if !IsValidSettings(s) {
        if s.startCoinsMin < 0 { assert Fails(s, NegativeStartCoins); }
        else if s.startCoinsMax < s.startCoinsMin { assert Fails(s, StartCoinsRangeInverted); }
        else if s.winTarget <= 0 { assert Fails(s, NonPositiveWinTarget); }
        else if s.dailyIncome < 0 { assert Fails(s, NegativeDailyIncome); }
        else if s.minPlayersCount < MinPlayers { assert Fails(s, TooFewPlayers); }
        else if s.maxPlayersCount > MaxPlayers { assert Fails(s, TooManyPlayers); }
        else { assert Fails(s, PlayerRangeInverted); }
      }
    }
    errors
  }

  /** `IsValidPlayerCount(count)`: the count lies in the configured range. */
  predicate IsValidPlayerCount(s: GameSettings, count: int) {
    s.minPlayersCount <= count <= s.maxPlayersCount
  }

  /** Under settings that validate, an admissible player count is between 2 and 4. */
  lemma ValidPlayerCountBounds(s: GameSettings, count: int)
    requires IsValidSettings(s)
    ensures IsValidPlayerCount(s, count) ==> MinPlayers <= count <= MaxPlayers
  {
  }

  // ---------------------------------------------------------------------
  // Starting coins
  // ---------------------------------------------------------------------

  /** `Random.Next(lo, hi)` with the random choice made explicit as `draw`:
      it throws (None) when `lo > hi`, returns `lo` when they are equal, and
      otherwise a value in [lo, hi). */
  function RandomNext(lo: int, hi: int, draw: nat): (r: Option<int>)
    ensures r.None? <==> lo > hi
    ensures r.Some? && lo < hi ==> lo <= r.value < hi
    ensures r.Some? && lo == hi ==> r.value == lo
  {
    if lo > hi then None
    else if lo == hi then Some(lo)
    else Some(lo + draw % (hi - lo))
  }

  /** `GenerateStartingCoins()` as written: `Random.Next(StartCoinsMin, StartCoinsMax + 1)`,
      where the `+ 1` is unchecked `int` arithmetic. */
  function GenerateStartingCoinsAsWritten(s: GameSettings, draw: nat): (r: Option<int>)
    ensures s.startCoinsMin <= s.startCoinsMax < Int32Max ==>
      r.Some? && s.startCoinsMin <= r.value <= s.startCoinsMax
    ensures s.startCoinsMax < Int32Max ==> (r.None? <==> s.startCoinsMin > s.startCoinsMax + 1)
    ensures s.startCoinsMax == Int32Max && s.startCoinsMin > Int32Min ==> r.None?
  {
    RandomNext(s.startCoinsMin, Wrap32(s.startCoinsMax as int + 1), draw)
  }

  /** With `StartCoinsMax = int.MaxValue` the upper bound wraps to `int.MinValue`
      and the draw throws, although the range is well formed. */
  lemma StartingCoinsOverflow(draw: nat)
    ensures var s := Defaults.(startCoinsMin := 0, startCoinsMax := Int32Max);
      s.startCoinsMin <= s.startCoinsMax && GenerateStartingCoinsAsWritten(s, draw) == None
  {
  }

  /** The starting coins, drawn from [StartCoinsMin, StartCoinsMax] inclusive,
      with the bound computed without wrap-around. */
  function GenerateStartingCoins(s: GameSettings, draw: nat): (coins: int)
    requires s.startCoinsMin <= s.startCoinsMax
    ensures s.startCoinsMin <= coins <= s.startCoinsMax
  {
    s.startCoinsMin + draw % (s.startCoinsMax - s.startCoinsMin + 1)
  }

  /** Every value of the range is the outcome of some draw, and below
      `int.MaxValue` the corrected draw agrees with the code as written. */
  lemma StartingCoinsCoverRange(s: GameSettings, v: int)
    requires s.startCoinsMin <= v <= s.startCoinsMax
    ensures GenerateStartingCoins(s, v - s.startCoinsMin) == v
    ensures s.startCoinsMax < Int32Max ==>
      GenerateStartingCoinsAsWritten(s, v - s.startCoinsMin) == Some(v)
  {
    var d := v - s.startCoinsMin;
    var n := s.startCoinsMax - s.startCoinsMin + 1;
    ModSmall(d, n);
    if s.startCoinsMax < Int32Max {
      assert Wrap32(s.startCoinsMax as int + 1) == s.startCoinsMax + 1;
    }
  }

  // ---------------------------------------------------------------------
  // Market size formula
  // ---------------------------------------------------------------------

  /** The value one `+`-separated part contributes: its trimmed text parsed as
      an `int`, or 0 when it does not parse. */
  function PartValue(part: string): Int32 {
    TryParseInt(Trim(part)).GetOr(0)
  }

  /** The part values, in order (the `Select`). */
  function PartValues(parts: seq<string>): (vs: seq<Int32>)
    ensures |vs| == |parts|
    ensures forall k :: 0 <= k < |parts| ==> vs[k] == PartValue(parts[k])
  {
    seq(|parts|, k requires 0 <= k < |parts| => PartValue(parts[k]))
  }

  /** The plain sum of the values, without any range check. */
  function Sum(vs: seq<int>): int
    decreases |vs|
  {
    if |vs| == 0 then 0 else vs[0] + Sum(vs[1..])
  }

  /** Some running total, `acc` plus the first `j >= 1` values, leaves the `int` range. */
  predicate LeavesRange(acc: int, vs: seq<int>) {
    exists j :: 0 < j <= |vs| && !(Int32Min <= acc + Sum(vs[..j]) <= Int32Max)
  }

  /** The sum of a prefix one longer than the first value's. */
  lemma SumPrefix(vs: seq<int>, j: nat)
    requires 0 < j <= |vs|
    ensures Sum(vs[..j]) == vs[0] + Sum(vs[1..][..j - 1])
  {
    assert vs[..j][1..] == vs[1..][..j - 1];
  }

  /** LINQ `Sum` over `int` values, continuing from `acc`: checked addition,
      so None (an `OverflowException`) exactly when a running total leaves the
      `int` range, and otherwise the plain sum. */
  function CheckedSum(acc: Int32, vs: seq<Int32>): (r: Option<Int32>)
    ensures r.Some? ==> r.value == acc + Sum(vs)
    ensures r.None? <==> LeavesRange(acc, vs)
    ensures r.Some? && (forall k :: 0 <= k < |vs| ==> vs[k] >= 0) ==> r.value >= acc
    decreases |vs|
  {
    if |vs| == 0 then Some(acc)
    else
      var next := acc + vs[0];
      SumPrefix(vs, 1);
      assert vs[1..][..0] == [];
      if Int32Min <= next <= Int32Max then
        var r := CheckedSum(next, vs[1..]);
        assert LeavesRange(acc, vs) <==> LeavesRange(next, vs[1..]) by {
          forall j | 0 < j <= |vs| ensures acc + Sum(vs[..j]) == next + Sum(vs[1..][..j - 1]) {
            SumPrefix(vs, j);
          }
          if LeavesRange(next, vs[1..]) {
            var j :| 0 < j <= |vs| - 1 && !(Int32Min <= next + Sum(vs[1..][..j]) <= Int32Max);
            assert !(Int32Min <= acc + Sum(vs[..j + 1]) <= Int32Max);
          }
        }
        r
      else
        assert !(Int32Min <= acc + Sum(vs[..1]) <= Int32Max);
        None
  }

  /** A zero at the end changes neither the outcome nor the value of the sum. */
  lemma {:induction false} CheckedSumZero(acc: Int32, vs: seq<Int32>)
    ensures CheckedSum(acc, vs + [0]) == CheckedSum(acc, vs)
    decreases |vs|
  {
    if |vs| == 0 {
      assert ([] + [0 as Int32])[1..] == [];
    } else {
      assert (vs + [0])[1..] == vs[1..] + [0];
      if Int32Min <= acc + vs[0] <= Int32Max {
        CheckedSumZero(acc + vs[0], vs[1..]);
      }
    }
  }

  /** A part that does not parse as an integer counts as 0: appending it to
      the formula changes nothing. */
  lemma UnparsablePart(acc: Int32, parts: seq<string>, junk: string)
    requires TryParseInt(Trim(junk)).None?
    ensures CheckedSum(acc, PartValues(parts + [junk])) == CheckedSum(acc, PartValues(parts))
  {
    assert PartValues(parts + [junk]) == PartValues(parts) + [0];
    CheckedSumZero(acc, PartValues(parts));
  }

  /** The formula's terms: the player count substituted for the placeholder,
      the text split on `+`, each part parsed as its value. */
  function Terms(formula: string, playerCount: Int32): seq<Int32> {
    PartValues(Split(Replace(formula, PlayersCountPlaceholder, IntToString(playerCount)), '+'))
  }

  /** The formula's value: the sum of its terms, or None (the overflow
      exception) when a running total leaves the `int` range. */
  function EvaluateFormula(formula: string, playerCount: Int32): (r: Option<Int32>)
    ensures r.Some? ==> r.value == Sum(Terms(formula, playerCount))
    ensures r.None? <==> LeavesRange(0, Terms(formula, playerCount))
  {
    CheckedSum(0, Terms(formula, playerCount))
  }

  /** `GameSettings.CalculateMarketSize(playerCount)`: the formula's value, or
      `playerCount + 1` when the sum overflows (the caught exception). */
  function CalculateMarketSize(s: GameSettings, playerCount: Int32): (r: Int32)
    ensures !LeavesRange(0, Terms(s.marketSizeFormula, playerCount)) ==>
      r == Sum(Terms(s.marketSizeFormula, playerCount))
    ensures LeavesRange(0, Terms(s.marketSizeFormula, playerCount)) ==>
      r == Wrap32(playerCount as int + 1)
  {
    match EvaluateFormula(s.marketSizeFormula, playerCount)
    case Some(v) => v
    case None => Wrap32(playerCount as int + 1)
  }

  /** Substituting the placeholder in the default formula. */
  lemma ReplaceDefault(digits: string)
    ensures Replace(DefaultMarketSizeFormula, PlayersCountPlaceholder, digits) == digits + " + 1"
  {
    var pat, tail := PlayersCountPlaceholder, " + 1";
    assert DefaultMarketSizeFormula == pat + tail;
    ReplaceHead(pat, tail, digits);
    assert pat[0] == '{' && '{' !in tail;
    ReplaceAbsent(tail, pat, digits);
  }

  /** Splitting `w + " + 1"` on `+` when `w` has no `+`. */
  lemma SplitPlusOne(w: string)
    requires '+' !in w
    ensures Split(w + " + 1", '+') == [w + " ", " 1"]
  {
    var left := w + " ";
    assert '+' !in left;
    assert w + " + 1" == left + "+ 1";
    assert Split(" 1", '+') == [" 1"] by {
      SplitJoin([" 1"], '+');
    }
    assert Split("+ 1", '+') == [""] + Split(" 1", '+') by {
      assert "+ 1"[1..] == " 1";
    }
    SplitPrefix(left, "+ 1", '+');
    assert left + "" == left;
  }

  /** The two parts of the default formula contribute the count and 1. */
  lemma DefaultParts(playerCount: Int32)
    ensures PartValue(IntToString(playerCount) + " ") == playerCount
    ensures PartValue(" 1") == 1
  {
    var digits := IntToString(playerCount);
    PrintedShape(playerCount);
    TrimPadded("", digits, " ");
    assert "" + digits + " " == digits + " ";
    ParsePrinted(playerCount);
    TrimPadded(" ", "1", "");
    assert " " + "1" + "" == " 1";
    ParsePrinted(1);
    assert IntToString(1) == "1";
  }

  /** The default formula, evaluated: the two part values summed with overflow check. */
  lemma DefaultFormulaSum(playerCount: Int32)
    ensures EvaluateFormula(DefaultMarketSizeFormula, playerCount)
         == CheckedSum(0, [PartValue(IntToString(playerCount) + " "), PartValue(" 1")])
  {
    var digits := IntToString(playerCount);
    var text := Replace(DefaultMarketSizeFormula, PlayersCountPlaceholder, digits);
    ReplaceDefault(digits);
    assert text == digits + " + 1";
    PrintedShape(playerCount);
    assert '+' !in digits;
    SplitPlusOne(digits);
    var parts := Split(text, '+');
    assert parts == [digits + " ", " 1"];
    PartValuesTwo(digits + " ", " 1");
  }

  lemma PartValuesTwo(a: string, b: string)
    ensures PartValues([a, b]) == [PartValue(a), PartValue(b)]
  {
    var parts := [a, b];
    var vs := PartValues(parts);
    assert |vs| == 2;
    assert vs[0] == PartValue(parts[0]);
    assert vs[1] == PartValue(parts[1]);
    assert vs == [vs[0], vs[1]];
  }

  /** With the default formula the market holds one card more than there are players;
      at `int.MaxValue` players the sum overflows. */
  lemma DefaultFormulaValue(playerCount: Int32)
    ensures playerCount < Int32Max ==>
      EvaluateFormula(DefaultMarketSizeFormula, playerCount) == Some(playerCount + 1)
    ensures playerCount == Int32Max ==>
      EvaluateFormula(DefaultMarketSizeFormula, playerCount) == None
  {
    DefaultFormulaSum(playerCount);
    DefaultParts(playerCount);
    SumTwo(playerCount, 1);
  }

  /** Summing two values overflows only in the second addition. */
  lemma SumTwo(x: Int32, y: Int32)
    ensures var v := x as int + y as int;
      CheckedSum(0, [x, y]) == if Int32Min <= v <= Int32Max then Some(v) else None
  {
    var vs := [x, y];
    assert vs[0] == x && vs[1..] == [y];
    assert CheckedSum(0, vs) == CheckedSum(x, [y]);
    assert [y][0] == y && [y][1..] == [];
    if Int32Min <= x as int + y as int <= Int32Max {
      assert CheckedSum(x, [y]) == CheckedSum(x + y, []);
    }
  }

  /** With the default formula the configured market size is `playerCount + 1`
      (in `int` arithmetic, also on the overflow fallback). */
  lemma DefaultMarketSize(s: GameSettings, playerCount: Int32)
    requires s.marketSizeFormula == DefaultMarketSizeFormula
    ensures CalculateMarketSize(s, playerCount) as int == Wrap32(playerCount as int + 1)
  {
    DefaultFormulaValue(playerCount);
  }

  // ---------------------------------------------------------------------
  // Repair
  // ---------------------------------------------------------------------

  /** `ApplyDefaults()` as written: each field repaired in turn, with
      `StartCoinsMax = StartCoinsMin + 5` computed in unchecked `int`. */
  function ApplyDefaultsAsWritten(s: GameSettings): (r: GameSettings)
    ensures r.startCoinsMin >= 0
    ensures s.startCoinsMin >= 0 ==> r.startCoinsMin == s.startCoinsMin
    ensures r.startCoinsMin <= Int32Max - StartCoinsSpread ==> r.startCoinsMax >= r.startCoinsMin
    ensures r.winTarget > 0 && r.dailyIncome >= 0
    ensures r.maxPlayersCount <= MaxPlayers && r.minPlayersCount <= r.maxPlayersCount
    ensures r.marketSizeFormula == s.marketSizeFormula
  {
    var s1 := if s.startCoinsMin < 0 then s.(startCoinsMin := DefaultStartCoinsMin) else s;
    var s2 := if s1.startCoinsMax < s1.startCoinsMin
      then s1.(startCoinsMax := Wrap32(s1.startCoinsMin as int + StartCoinsSpread)) else s1;
    RepairRest(s2)
  }

  /** The five repairs after the starting-coin range, in source order. */
  function RepairRest(s: GameSettings): (r: GameSettings)
    ensures r.startCoinsMin == s.startCoinsMin && r.startCoinsMax == s.startCoinsMax
    ensures r.marketSizeFormula == s.marketSizeFormula
    ensures r.winTarget > 0 && r.dailyIncome >= 0
    ensures r.maxPlayersCount <= MaxPlayers && r.minPlayersCount <= r.maxPlayersCount
    ensures r.minPlayersCount >= MinPlayers <==> r.maxPlayersCount >= MinPlayers
  {
    var s3 := if s.winTarget <= 0 then s.(winTarget := DefaultWinTarget) else s;
    var s4 := if s3.dailyIncome < 0 then s3.(dailyIncome := DefaultDailyIncome) else s3;
    var s5 := if s4.minPlayersCount < MinPlayers then s4.(minPlayersCount := MinPlayers) else s4;
    var s6 := if s5.maxPlayersCount > MaxPlayers then s5.(maxPlayersCount := MaxPlayers) else s5;
    if s6.minPlayersCount > s6.maxPlayersCount then s6.(minPlayersCount := s6.maxPlayersCount) else s6
  }

  /** A large `StartCoinsMin` makes `StartCoinsMin + 5` wrap to a negative
      maximum, so the repaired range is still inverted. */
  lemma ApplyDefaultsOverflow()
    ensures var s := Defaults.(startCoinsMin := Int32Max - 2, startCoinsMax := 0);
      var r := ApplyDefaultsAsWritten(s);
      r.startCoinsMax < r.startCoinsMin && Validate(r) != []
  {
  }

  /** `StartCoinsMin + 5`, saturating at `int.MaxValue` instead of wrapping. */
  function WidenedMax(min: Int32): (r: Int32)
    ensures r >= min
    ensures min <= Int32Max - StartCoinsSpread ==> r == min + StartCoinsSpread
  {
    if min <= Int32Max - StartCoinsSpread then min + StartCoinsSpread else Int32Max
  }

  /** `ApplyDefaults()` with the wrap-around removed. Afterwards every check of
      `Validate` passes except possibly `MinPlayersCount >= 2`, which fails
      exactly when the configured maximum is below 2. */
  function ApplyDefaults(s: GameSettings): (r: GameSettings)
    ensures r.startCoinsMin >= 0 && r.startCoinsMax >= r.startCoinsMin
    ensures r.winTarget > 0 && r.dailyIncome >= 0
    ensures r.maxPlayersCount <= MaxPlayers && r.minPlayersCount <= r.maxPlayersCount
    ensures r.minPlayersCount >= MinPlayers <==> r.maxPlayersCount >= MinPlayers
    ensures Validate(r) == [] || Validate(r) == [TooFewPlayers]
    ensures r.marketSizeFormula == s.marketSizeFormula
  {
    var s1 := if s.startCoinsMin < 0 then s.(startCoinsMin := DefaultStartCoinsMin) else s;
    var s2 := if s1.startCoinsMax < s1.startCoinsMin
      then s1.(startCoinsMax := WidenedMax(s1.startCoinsMin)) else s1;
    var r := RepairRest(s2);
    OnlyFailure(r, TooFewPlayers);
    r
  }

  /** Settings that can fail only one check report at most that one. */
  lemma OnlyFailure(s: GameSettings, p: SettingsProblem)
    requires forall q :: Fails(s, q) ==> q == p
    ensures Validate(s) == [] || Validate(s) == [p]
  {
    var e := Validate(s);
    forall i | 0 <= i < |e|
      ensures e[i] == p
    {
      assert e[i] in e;
    }
    RankedSingle(e, p);
  }

  /** A rank-ordered list of one repeated problem has at most one element. */
  lemma RankedSingle(e: seq<SettingsProblem>, p: SettingsProblem)
    requires Ranked(e) && forall i :: 0 <= i < |e| ==> e[i] == p
    ensures e == [] || e == [p]
  {
    if |e| > 1 {
      assert ProblemRank(e[0]) < ProblemRank(e[1]);
    }
  }

  /** Repairing settings that already validate changes nothing. */
  lemma ApplyDefaultsKeepsValid(s: GameSettings)
    requires Validate(s) == []
    ensures ApplyDefaults(s) == s
  {
  }

  /** Repairing twice is repairing once. */
  lemma ApplyDefaultsIdempotent(s: GameSettings)
    ensures ApplyDefaults(ApplyDefaults(s)) == ApplyDefaults(s)
  {
  }

  /** Wherever `StartCoinsMin + 5` fits an `int`, the corrected repair is the code as written. */
  lemma ApplyDefaultsAgrees(s: GameSettings)
    requires s.startCoinsMin <= Int32Max - StartCoinsSpread
    ensures ApplyDefaults(s) == ApplyDefaultsAsWritten(s)
  {
  }
}

=== FILE: state.dfy ===
/**
  Models/GameState.cs: one room's game. The roster, the market and the deck,
  the active colour, the two turn indices (`CurrentPlayerIndex`, used by
  `NextPlayer`, and `CurrentTurnIndex`, used by the hub), the turn order and
  the round number.
 */
module State {
  import opened Options
  import opened Strings
  import opened Numbers
  import opened Lists
  import opened Cards
  import opened Players
  import Settings

  datatype GameState = GameState(
    roomCode: string,
    players: seq<Player>,
    market: seq<Card>,
    deck: seq<Card>,
    activeColor: CardColor,
    currentPlayerIndex: Int32,
    turnOrder: seq<string>,
    currentTurnIndex: Int32,
    roundNumber: Int32)

  /** `new GameState(roomCode)`: no players or cards, round 1, both indices 0,
      and the enum's default colour. */
  function NewGame(roomCode: string): (s: GameState)
    ensures s.roomCode == roomCode && s.players == [] && s.turnOrder == []
    ensures s.roundNumber == 1 && s.currentPlayerIndex == 0 && s.currentTurnIndex == 0
  {
    GameState(roomCode, [], [], [], Blue, 0, [], 0, 1)
  }

  /** No two players share a name. */
  predicate DistinctNames(ps: seq<Player>) {
    forall i, j :: 0 <= i < j < |ps| ==> ps[i].name != ps[j].name
  }

  // ---------------------------------------------------------------------
  // Turn order: players by coins, then by name
  // ---------------------------------------------------------------------

  /** The `OrderBy(Coins).ThenBy(Name)` key order, names compared ordinally. */
  predicate WealthLe(a: Player, b: Player) {
    a.coins < b.coins || (a.coins == b.coins && LexLe(a.name, b.name))
  }

  lemma WealthLeTotal(a: Player, b: Player)
    ensures WealthLe(a, b) || WealthLe(b, a)
  {
    LexLeTotal(a.name, b.name);
  }

  lemma WealthLeTransitive(a: Player, b: Player, c: Player)
    requires WealthLe(a, b) && WealthLe(b, c)
    ensures WealthLe(a, c)
  {
    if a.coins == b.coins && b.coins == c.coins {
      LexLeTransitive(a.name, b.name, c.name);
    }
  }

  predicate WealthSorted(q: seq<Player>) {
    forall i, j :: 0 <= i < j < |q| ==> WealthLe(q[i], q[j])
  }

  /** Inserts `p` after every player whose key is not above its own, which
      keeps the sort stable. */
  function InsertByWealth(p: Player, q: seq<Player>): (r: seq<Player>)
    requires WealthSorted(q)
    ensures WealthSorted(r)
    ensures |r| == |q| + 1
    ensures forall j :: 0 <= j < |r| ==> r[j] == p || r[j] in q
    ensures multiset(r) == multiset(q) + multiset{p}
    ensures multiset(Names(r)) == multiset(Names(q)) + multiset{p.name}
  {
    if |q| == 0 then [p]
    else if !WealthLe(q[0], p) then
      InsertFront(p, q);
      [p] + q
    else
      var rest := InsertByWealth(p, q[1..]);
      InsertBehind(p, q, rest);
      [q[0]] + rest
  }

  /** Inserting in front of a sorted roster whose head is richer. */
  lemma InsertFront(p: Player, q: seq<Player>)
    requires WealthSorted(q) && |q| > 0 && !WealthLe(q[0], p)
    ensures WealthSorted([p] + q)
    ensures multiset(Names([p] + q)) == multiset(Names(q)) + multiset{p.name}
  {
    WealthLeTotal(q[0], p);
    PrependSorted(p, q);
    NamesCons(p, q);
  }

  /** Keeping the head and inserting behind it. */
  lemma InsertBehind(p: Player, q: seq<Player>, rest: seq<Player>)
    requires |q| > 0 && WealthSorted(q) && WealthSorted(rest) && WealthLe(q[0], p)
    requires forall j :: 0 <= j < |rest| ==> rest[j] == p || rest[j] in q[1..]
    requires multiset(rest) == multiset(q[1..]) + multiset{p}
    requires multiset(Names(rest)) == multiset(Names(q[1..])) + multiset{p.name}
    ensures WealthSorted([q[0]] + rest)
    ensures forall j :: 0 <= j < |[q[0]] + rest| ==> ([q[0]] + rest)[j] == p || ([q[0]] + rest)[j] in q
    ensures multiset([q[0]] + rest) == multiset(q) + multiset{p}
    ensures multiset(Names([q[0]] + rest)) == multiset(Names(q)) + multiset{p.name}
  {
    InsertAfterHead(p, q, rest);
    NamesCons(q[0], rest);
    NamesCons(q[0], q[1..]);
    assert [q[0]] + q[1..] == q;
  }

  /** The head of a sorted roster stays in front when a richer player is
      inserted into the rest. */
  lemma InsertAfterHead(p: Player, q: seq<Player>, rest: seq<Player>)
    requires |q| > 0 && WealthSorted(q) && WealthSorted(rest) && WealthLe(q[0], p)
    requires forall j :: 0 <= j < |rest| ==> rest[j] == p || rest[j] in q[1..]
    ensures WealthSorted([q[0]] + rest)
  {
    if |rest| > 0 {
      if rest[0] != p {
        var m :| 0 <= m < |q[1..]| && q[1..][m] == rest[0];
        assert q[m + 1] == rest[0];
      }
    }
    PrependSorted(q[0], rest);
  }

  lemma PrependSorted(p: Player, q: seq<Player>)
    requires WealthSorted(q)
    requires |q| > 0 ==> WealthLe(p, q[0])
    ensures WealthSorted([p] + q)
  {
    var r := [p] + q;
    forall i, j | 0 <= i < j < |r|
      ensures WealthLe(r[i], r[j])
    {
      if i == 0 && j > 1 {
        WealthLeTransitive(p, q[0], q[j - 1]);
      }
    }
  }

  lemma NamesCons(p: Player, q: seq<Player>)
    ensures Names([p] + q) == [p.name] + Names(q)
  {
  }

  /** The roster in turn order: a stable insertion sort by (coins, name). */
  function ByWealth(ps: seq<Player>): (q: seq<Player>)
    ensures WealthSorted(q)
    ensures multiset(q) == multiset(ps)
    ensures multiset(Names(q)) == multiset(Names(ps))
  {
    if |ps| == 0 then []
    else
      var init := ps[..|ps| - 1];
      var last := ps[|ps| - 1];
      assert ps == init + [last];
      NamesSnoc(init, last);
      InsertByWealth(last, ByWealth(init))
  }

  lemma NamesSnoc(ps: seq<Player>, p: Player)
    ensures Names(ps + [p]) == Names(ps) + [p.name]
  {
  }

  /** Appending a player with a new name keeps the names distinct. */
  lemma DistinctSnoc(ps: seq<Player>, p: Player)
    requires p.name !in Names(ps)
    ensures DistinctNames(ps) ==> DistinctNames(ps + [p])
  {
    assert forall i :: 0 <= i < |ps| ==> ps[i].name in Names(ps);
  }

  /** `UpdateTurnOrder()`: the names of the roster sorted ascending by coins,
      ties broken by name; nothing else changes. */
  function UpdateTurnOrder(s: GameState): (r: GameState)
    ensures multiset(r.turnOrder) == multiset(Names(s.players))
    ensures |r.turnOrder| == |s.players|
    ensures r.turnOrder == Names(ByWealth(s.players))
    ensures r.(turnOrder := s.turnOrder) == s
  {
    var q := ByWealth(s.players);
    assert |q| == |s.players| by {
      assert |multiset(q)| == |multiset(s.players)|;
    }
    s.(turnOrder := Names(q))
  }

  /** In the new turn order the poorest player moves first. */
  lemma PoorestFirst(s: GameState, i: nat)
    requires i < |s.players|
    ensures ByWealth(s.players)[0].coins <= s.players[i].coins
  {
    var q := ByWealth(s.players);
    assert s.players[i] in multiset(q);
    var m :| 0 <= m < |q| && q[m] == s.players[i];
    if m > 0 {
      assert WealthLe(q[0], q[m]);
    }
  }

  // ---------------------------------------------------------------------
  // Roster changes
  // ---------------------------------------------------------------------

  /** `AddPlayer(player)`: refused for null (None) or a name already seated;
      otherwise the player is appended and the turn order recomputed. */
  function AddPlayer(s: GameState, p: Option<Player>): (r: (bool, GameState))
    ensures r.0 <==> p.Some? && p.value.name !in Names(s.players)
    ensures !r.0 ==> r.1 == s
    ensures r.0 ==> r.1.players == s.players + [p.value]
    ensures r.0 ==> multiset(r.1.turnOrder) == multiset(Names(s.players)) + multiset{p.value.name}
    ensures r.0 ==> r.1.turnOrder == Names(ByWealth(r.1.players))
    ensures r.1.(turnOrder := s.turnOrder, players := s.players) == s
    ensures DistinctNames(s.players) ==> DistinctNames(r.1.players)
  {
    match p
    case None => (false, s)
    case Some(pl) =>
      if pl.name in Names(s.players) then (false, s)
      else
        var ps := s.players + [pl];
        NamesSnoc(s.players, pl);
        DistinctSnoc(s.players, pl);
        var r := UpdateTurnOrder(s.(players := ps));
        assert r.turnOrder == Names(ByWealth(ps));
        (true, r)
  }

  /** `UpdateCurrentPlayerIndex()`: an index past the end of the turn order is
      pulled back to the last position (0 when the order is empty). */
  function UpdateCurrentPlayerIndex(s: GameState): (r: GameState)
    ensures r.currentPlayerIndex <= Max(0, |s.turnOrder| - 1)
    ensures s.currentPlayerIndex < |s.turnOrder| ==> r == s
    ensures r.currentPlayerIndex >= Min(s.currentPlayerIndex, 0)
    ensures r.(currentPlayerIndex := s.currentPlayerIndex) == s
  {
    if s.currentPlayerIndex >= |s.turnOrder| then
      s.(currentPlayerIndex := Max(0, |s.turnOrder| - 1))
    else s
  }

  /** `RemovePlayer(connectionId)`: the first player with that connection
      leaves the roster, its name leaves the turn order, and the index is
      pulled back into range. None, and no change, when nobody has it. */
  function RemovePlayer(s: GameState, connectionId: string): (r: (Option<Player>, GameState))
    ensures r.0.None? <==> forall i :: 0 <= i < |s.players| ==> s.players[i].connectionId != connectionId
    ensures r.0.None? ==> r.1 == s
    ensures r.0.Some? ==> r.0.value.connectionId == connectionId && r.0.value in s.players
    ensures r.0.Some? ==> |r.1.players| == |s.players| - 1
    ensures r.0.Some? ==> multiset(r.1.players) + multiset{r.0.value} == multiset(s.players)
    ensures r.0.Some? ==>
      exists k :: && 0 <= k < |s.players| && s.players[k] == r.0.value
                  && (forall j :: 0 <= j < k ==> s.players[j].connectionId != connectionId)
                  && r.1.players == RemoveAt(s.players, k)
    ensures r.0.Some? ==> multiset(r.1.turnOrder) == multiset(s.turnOrder) - multiset{r.0.value.name}
    ensures r.0.Some? ==> r.1.turnOrder == RemoveFirst(s.turnOrder, r.0.value.name)
    ensures r.0.Some? ==> r.1.currentPlayerIndex <= Max(0, |r.1.turnOrder| - 1)
    ensures r.1.(players := s.players, turnOrder := s.turnOrder, currentPlayerIndex := s.currentPlayerIndex) == s
  {
    match FirstIndex(s.players, (p: Player) => p.connectionId == connectionId)
    case None => (None, s)
    case Some(k) =>
      var p := s.players[k];
      var s1 := s.(players := RemoveAt(s.players, k), turnOrder := RemoveFirst(s.turnOrder, p.name));
      (Some(p), UpdateCurrentPlayerIndex(s1))
  }

  /** A player who joins and leaves again (under a connection id nobody else
      uses) leaves the roster as it was; the turn order then holds the same
      names as before, though possibly in the newly sorted order. */
  lemma {:induction false} RemoveAfterAdd(s: GameState, p: Player)
    requires p.name !in Names(s.players)
    requires forall i :: 0 <= i < |s.players| ==> s.players[i].connectionId != p.connectionId
    ensures var r := RemovePlayer(AddPlayer(s, Some(p)).1, p.connectionId);
      r.0 == Some(p) && r.1.players == s.players
      && multiset(r.1.turnOrder) == multiset(Names(s.players))
  {
    var s1 := AddPlayer(s, Some(p)).1;
    RemoveLastJoined(s1, s.players, p);
  }

  /** Removing, by connection id, the player who joined last, when nobody
      before them shares the id. */
  lemma RemoveLastJoined(s1: GameState, before: seq<Player>, p: Player)
    requires s1.players == before + [p]
    requires forall i :: 0 <= i < |before| ==> before[i].connectionId != p.connectionId
    requires multiset(s1.turnOrder) == multiset(Names(before)) + multiset{p.name}
    ensures var r := RemovePlayer(s1, p.connectionId);
      r.0 == Some(p) && r.1.players == before
      && multiset(r.1.turnOrder) == multiset(Names(before))
  {
    var k := FirstIndex(s1.players, (q: Player) => q.connectionId == p.connectionId);
    assert s1.players[|before|] == p;
    assert k == Some(|before|);
    RemoveAtLast(before, p);
  }

  /** Removing a player keeps the names distinct. */
  lemma RemoveKeepsDistinct(s: GameState, connectionId: string)
    requires DistinctNames(s.players)
    ensures DistinctNames(RemovePlayer(s, connectionId).1.players)
  {
  }

  // ---------------------------------------------------------------------
  // Current player and turn advance
  // ---------------------------------------------------------------------

  /** The first player with this name. */
  function PlayerNamed(ps: seq<Player>, name: string): (r: Option<Player>)
    ensures r.Some? ==> r.value in ps && r.value.name == name
    ensures r.None? <==> name !in Names(ps)
  {
    match FirstIndex(ps, (p: Player) => p.name == name)
    case None => None
    case Some(k) => Some(ps[k])
  }

  /** What `GameState.GetCurrentPlayer()` does: it raises or returns a player or null. */
  datatype Lookup = IndexOutOfRange | Found(player: Option<Player>)

  /** `GetCurrentPlayer()` as written: `TurnOrder[CurrentPlayerIndex]` is
      read before anything is checked, so an index outside the turn order
      (an empty turn order in particular) raises. */
  function GetCurrentPlayerAsWritten(s: GameState): (r: Lookup)
    ensures r.IndexOutOfRange? <==> !(0 <= s.currentPlayerIndex < |s.turnOrder|)
  {
    if !(0 <= s.currentPlayerIndex < |s.turnOrder|) then IndexOutOfRange
    else
      var name := s.turnOrder[s.currentPlayerIndex];
      if name == "" then Found(None) else Found(PlayerNamed(s.players, name))
  }

  /** The method is documented to return null when the list is empty, but on
      a room with no turn order it raises instead. */
  lemma GetCurrentPlayerEmptyRaises(s: GameState)
    requires s.turnOrder == []
    ensures GetCurrentPlayerAsWritten(s) == IndexOutOfRange
  {
  }

  /** `GetCurrentPlayer()` as documented: null (None) when the index does not
      point into the turn order, when the name there is empty, or when no
      player has that name; otherwise the first player with that name. */
  function GetCurrentPlayer(s: GameState): (r: Option<Player>)
    ensures r.Some? ==> (0 <= s.currentPlayerIndex < |s.turnOrder|
                         && r.value.name == s.turnOrder[s.currentPlayerIndex]
                         && r.value in s.players)
    ensures r.None? <==> (!(0 <= s.currentPlayerIndex < |s.turnOrder|)
                          || s.turnOrder[s.currentPlayerIndex] == ""
                          || s.turnOrder[s.currentPlayerIndex] !in Names(s.players))
  {
    match GetCurrentPlayerAsWritten(s)
    case IndexOutOfRange => None
    case Found(p) => p
  }

  /** Wherever the code as written does not raise, it agrees with the corrected lookup. */
  lemma GetCurrentPlayerAgrees(s: GameState)
    requires 0 <= s.currentPlayerIndex < |s.turnOrder|
    ensures GetCurrentPlayerAsWritten(s) == Found(GetCurrentPlayer(s))
  {
  }

  /** What `NextPlayer()` does: it returns a name or raises after the indices moved. */
  datatype Advance = Advanced(state: GameState, name: string) | AdvanceRaised(state: GameState)

  /** `NextPlayer()`: `""` on an empty turn order; otherwise
      `CurrentPlayerIndex = (CurrentPlayerIndex + 1) % Count` with C#'s
      remainder, `CurrentTurnIndex++` (both unchecked `int`), and the name
      at the new index, which raises when that index is negative. */
  function NextPlayer(s: GameState): (r: Advance)
    ensures |s.turnOrder| == 0 ==> r == Advanced(s, "")
    ensures InTurnOrder(s) ==>
      && r.Advanced?
      && r.state.currentPlayerIndex == (s.currentPlayerIndex + 1) % |s.turnOrder|
      && r.state.currentPlayerIndex == Succ(s.currentPlayerIndex, |s.turnOrder|)
      && r.name == s.turnOrder[r.state.currentPlayerIndex]
    ensures |s.turnOrder| > 0 ==> r.state.currentTurnIndex == Wrap32(s.currentTurnIndex as int + 1)
    ensures r.AdvanceRaised? ==> s.currentPlayerIndex < -1 || s.currentPlayerIndex == Int32Max
    ensures r.state.(currentPlayerIndex := s.currentPlayerIndex, currentTurnIndex := s.currentTurnIndex) == s
  {
    if |s.turnOrder| == 0 then Advanced(s, "")
    else
      var n := |s.turnOrder|;
      var i := CsRem(Wrap32(s.currentPlayerIndex as int + 1), n);
      var s1 := s.(currentPlayerIndex := i, currentTurnIndex := Wrap32(s.currentTurnIndex as int + 1));
      assert InTurnOrder(s) ==> i == (s.currentPlayerIndex + 1) % n
                                  && i == Succ(s.currentPlayerIndex, n) by {
        if InTurnOrder(s) {
          var j: nat := s.currentPlayerIndex + 1;
          CsRemOfNat(j, n);
          if j == n { ModSelf(n); } else { ModSmall(j, n); }
        }
      }
      if i < 0 then AdvanceRaised(s1) else Advanced(s1, s.turnOrder[i])
  }

  /** The index points into a turn order whose length fits a C# `int`. */
  predicate InTurnOrder(s: GameState) {
    0 <= s.currentPlayerIndex < |s.turnOrder| <= Int32Max
  }

  /** `k` calls of `NextPlayer()` from an index inside the turn order. */
  function AdvanceTimes(s: GameState, k: nat): (r: GameState)
    requires InTurnOrder(s)
    ensures InTurnOrder(r) && r.turnOrder == s.turnOrder
    ensures r.players == s.players
  {
    if k == 0 then s else NextPlayer(AdvanceTimes(s, k - 1)).state
  }

  /** The seat after `i` in a turn order of `n` names. */
  function Succ(i: nat, n: nat): (j: nat)
    requires i < n
    ensures j < n
  {
    if i + 1 == n then 0 else i + 1
  }

  /** The seat reached from `i` after `k` moves. */
  function Seat(i: nat, n: nat, k: nat): (j: nat)
    requires i < n
    ensures j < n
  {
    if k == 0 then i else Succ(Seat(i, n, k - 1), n)
  }

  /** The index after `k` calls of `NextPlayer()` is the seat `k` moves on. */
  lemma {:induction false} AdvanceSeat(s: GameState, k: nat)
    requires InTurnOrder(s)
    ensures AdvanceTimes(s, k).currentPlayerIndex == Seat(s.currentPlayerIndex, |s.turnOrder|, k)
  {
    if k > 0 {
      AdvanceSeat(s, k - 1);
    }
  }

  lemma {:induction false} SeatCompose(i: nat, n: nat, a: nat, b: nat)
    requires i < n
    ensures Seat(i, n, a + b) == Seat(Seat(i, n, a), n, b)
  {
    if b > 0 {
      SeatCompose(i, n, a, b - 1);
    }
  }

  lemma {:induction false} SeatUpward(i: nat, n: nat, k: nat)
    requires i + k < n
    ensures Seat(i, n, k) == i + k
  {
    if k > 0 {
      SeatUpward(i, n, k - 1);
    }
  }

  /** Moving on from seat `i` as many places as there are seats after it reaches seat 0. */
  lemma {:induction false} SeatWrap(i: nat, n: nat)
    requires i < n
    ensures Seat(i, n, n - i) == 0
  {
    SeatUpward(i, n, n - i - 1);
  }

  /** Moving on as many places as there are seats comes back to the start. */
  lemma {:induction false} SeatCycle(i: nat, n: nat)
    requires i < n
    ensures Seat(i, n, n) == i
  {
    SeatCompose(i, n, n - i, i);
    SeatWrap(i, n);
    if i > 0 {
      SeatUpward(0, n, i);
    }
  }

  /** `Count` calls of `NextPlayer()` pass through seat 0 and bring the index
      back to where it started. */
  lemma {:induction false} AdvanceFullCycle(s: GameState)
    requires InTurnOrder(s)
    ensures AdvanceTimes(s, |s.turnOrder| - s.currentPlayerIndex).currentPlayerIndex == 0
    ensures AdvanceTimes(s, |s.turnOrder|).currentPlayerIndex == s.currentPlayerIndex
  {
    var n, i := |s.turnOrder|, s.currentPlayerIndex as nat;
    AdvanceSeat(s, n - i);
    AdvanceSeat(s, n);
    SeatWrap(i, n);
    SeatCycle(i, n);
  }

  // ---------------------------------------------------------------------
  // Rounds and the market
  // ---------------------------------------------------------------------

  /** Every player's turn state reset. */
  function ResetPlayers(ps: seq<Player>, clearUsed: bool): (r: seq<Player>)
    ensures |r| == |ps|
    ensures forall i :: 0 <= i < |ps| ==> r[i] == ResetTurnState(ps[i], clearUsed)
  {
    seq(|ps|, i requires 0 <= i < |ps| => ResetTurnState(ps[i], clearUsed))
  }

  /** Resetting keeps names and coins, so the total and the roster are unchanged. */
  lemma {:induction false} ResetPlayersKeeps(ps: seq<Player>, clearUsed: bool)
    ensures TotalCoins(ResetPlayers(ps, clearUsed)) == TotalCoins(ps)
    ensures Names(ResetPlayers(ps, clearUsed)) == Names(ps)
  {
    if |ps| > 0 {
      ResetPlayersKeeps(ps[1..], clearUsed);
      assert ResetPlayers(ps, clearUsed)[1..] == ResetPlayers(ps[1..], clearUsed);
    }
  }

  /** `StartNewRound()`: the round number goes up by one (unchecked), both
      indices return to 0 and every player's turn state is reset; the turn
      order, the market and the deck are untouched. */
  function StartNewRound(s: GameState, clearUsed: bool): (r: GameState)
    ensures r.roundNumber == Succ32(s.roundNumber)
    ensures s.roundNumber < Int32Max ==> r.roundNumber == s.roundNumber + 1
    ensures r.currentTurnIndex == 0 && r.currentPlayerIndex == 0
    ensures |r.players| == |s.players|
    ensures forall i :: 0 <= i < |r.players| ==> !r.players[i].hasBoughtThisTurn
    ensures forall i :: 0 <= i < |r.players| ==>
      r.players[i].name == s.players[i].name && r.players[i].coins == s.players[i].coins
    ensures forall i :: 0 <= i < |r.players| ==> r.players[i] == ResetTurnState(s.players[i], clearUsed)
    ensures r.turnOrder == s.turnOrder && r.market == s.market && r.deck == s.deck
    ensures r.activeColor == s.activeColor && r.roomCode == s.roomCode
  {
    s.(roundNumber := Succ32(s.roundNumber), currentTurnIndex := 0, currentPlayerIndex := 0,
       players := ResetPlayers(s.players, clearUsed))
  }

  /** A second reset of the same round changes no player. */
  lemma StartNewRoundSettles(s: GameState, clearUsed: bool)
    ensures StartNewRound(StartNewRound(s, clearUsed), clearUsed).players
         == StartNewRound(s, clearUsed).players
  {
    var a := StartNewRound(s, clearUsed).players;
    var b := StartNewRound(StartNewRound(s, clearUsed), clearUsed).players;
    forall i | 0 <= i < |a|
      ensures b[i] == a[i]
    {
      assert a[i].inventory == (if clearUsed then ResetAll(s.players[i].inventory) else s.players[i].inventory);
    }
  }

  /** The number of deck cards `ReplenishMarket(target)` moves. */
  function RefillCount(s: GameState, target: int): (k: nat)
    ensures k <= |s.deck|
    ensures |s.market| >= target ==> k == 0
    ensures |s.market| < target ==> k == Min(target - |s.market|, |s.deck|)
  {
    if |s.market| >= target then 0 else Min(target - |s.market|, |s.deck|)
  }

  /** The market after `ReplenishMarket(target)`, in closed form. */
  function Refill(s: GameState, target: int): (r: GameState)
    ensures r.market + r.deck == s.market + s.deck
    ensures multiset(r.market) + multiset(r.deck) == multiset(s.market) + multiset(s.deck)
    ensures |s.market| >= target ==> r == s
    ensures |r.market| == Max(|s.market|, Min(target, |s.market| + |s.deck|))
    ensures r.(market := s.market, deck := s.deck) == s
  {
    var k := RefillCount(s, target);
    assert s.deck == s.deck[..k] + s.deck[k..];
    s.(market := s.market + s.deck[..k], deck := s.deck[k..])
  }

  /** `ReplenishMarket(targetSize)`: while the market is short of the target
      and the deck is not empty, the deck's first card moves to the end of
      the market. */
  method ReplenishMarket(s: GameState, target: int) returns (r: GameState)
    ensures r == Refill(s, target)
    ensures r.market + r.deck == s.market + s.deck
    ensures |r.market| >= target || |r.deck| == 0
    ensures |s.market| >= target ==> r == s
  {
    var market := s.market;
    var deck := s.deck;
    while |market| < target && |deck| > 0
      invariant market + deck == s.market + s.deck
      invariant |s.market| <= |market|
      invariant |market| > |s.market| ==> |market| <= target
      decreases |deck|
    {
      var card := deck[0];
      assert market + deck == market + [card] + deck[1..];
      deck := deck[1..];
      market := market + [card];
    }
    var k := |market| - |s.market|;
    assert k == RefillCount(s, target);
    assert market == (market + deck)[..|market|];
    assert market == s.market + s.deck[..k];
    assert deck == (market + deck)[|market|..];
    r := s.(market := market, deck := deck);
  }

  /** `RemoveCardFromMarket(cardId)`: the first market card with the id leaves
      the market and is returned; None, with nothing changed, if there is none. */
  function RemoveCardFromMarket(s: GameState, cardId: int): (r: (Option<Card>, GameState))
    ensures r.0.None? <==> forall j :: 0 <= j < |s.market| ==> s.market[j].id != cardId
    ensures r.0.None? ==> r.1 == s
    ensures r.0.Some? ==> exists k :: 0 <= k < |s.market| && s.market[k] == r.0.value
                                   && r.1.market == s.market[..k] + s.market[k + 1..]
                                   && forall j :: 0 <= j < k ==> s.market[j].id != cardId
    ensures r.0.Some? ==> r.0.value.id == cardId && |r.1.market| == |s.market| - 1
    ensures r.0.Some? ==> multiset(r.1.market) + multiset{r.0.value} == multiset(s.market)
    ensures r.1.(market := s.market) == s
  {
    match FirstIndex(s.market, (c: Card) => c.id == cardId)
    case None => (None, s)
    case Some(k) => (Some(s.market[k]), s.(market := RemoveAt(s.market, k)))
  }

  /** `CheckWinner(winTarget)`: the name of the first player, in roster order,
      who has reached the target; None when nobody has. */
  function CheckWinner(s: GameState, winTarget: int): (r: Option<string>)
    ensures r.None? <==> forall i :: 0 <= i < |s.players| ==> !HasWon(s.players[i], winTarget)
    ensures r.Some? ==> exists i :: 0 <= i < |s.players| && s.players[i].name == r.value
                                 && HasWon(s.players[i], winTarget)
                                 && forall j :: 0 <= j < i ==> !HasWon(s.players[j], winTarget)
  {
    match FirstIndex(s.players, (p: Player) => HasWon(p, winTarget))
    case None => None
    case Some(k) => Some(s.players[k].name)
  }

  /** `CalculateMarketSize(formula)`: the formula evaluated at the number of
      players. Unlike the settings' version this one does not catch the sum's
      overflow, so None here is an exception escaping to the caller. */
  function CalculateMarketSize(s: GameState, formula: string): (r: Option<Int32>)
    requires |s.players| <= Int32Max
    ensures r.Some? ==> r.value == Settings.Sum(Settings.Terms(formula, |s.players|))
    ensures r.None? <==> Settings.LeavesRange(0, Settings.Terms(formula, |s.players|))
  {
    Settings.EvaluateFormula(formula, |s.players|)
  }

  /** With the default formula the market size is the number of players plus one. */
  lemma DefaultMarketSize(s: GameState, formula: string)
    requires |s.players| < Int32Max && formula == Settings.DefaultMarketSizeFormula
    ensures CalculateMarketSize(s, formula) == Some(|s.players| + 1)
  {
    MarketSizeIsFormula(s, formula);
    Settings.DefaultFormulaValue(|s.players|);
  }

  lemma MarketSizeIsFormula(s: GameState, formula: string)
    requires |s.players| <= Int32Max
    ensures CalculateMarketSize(s, formula) == Settings.EvaluateFormula(formula, |s.players|)
  {
  }
}

=== FILE: strings.dfy ===
/**
  The handful of .NET string operations the game logic relies on, over
  `string` = `seq<char>`: `Char.IsWhiteSpace`, `String.IsNullOrWhiteSpace`,
  `Trim`, `Split(char)` with and without `RemoveEmptyEntries`, an ASCII
  `ToUpper`, ordinal `Replace`, and an ordinal lexicographic order.
 */
module Strings {

  /** `Char.IsWhiteSpace`: the Unicode space, line and paragraph separators
      together with the control characters U+0009..U+000D and U+0085. */
  predicate IsWhiteSpace(c: char) {
    || ('\U{0009}' <= c <= '\U{000D}')
    || c == ' ' || c == '\U{0085}' || c == '\U{00A0}' || c == '\U{1680}'
    || ('\U{2000}' <= c <= '\U{200A}')
    || c == '\U{2028}' || c == '\U{2029}' || c == '\U{202F}' || c == '\U{205F}' || c == '\U{3000}'
  }

  /** `String.IsNullOrWhiteSpace` (a Dafny string is never null). */
  predicate IsBlank(s: string) {
    forall i :: 0 <= i < |s| ==> IsWhiteSpace(s[i])
  }

  // ---------------------------------------------------------------------
  // Case mapping (ASCII letters only)
  // ---------------------------------------------------------------------

  function UpperChar(c: char): char {
    if 'a' <= c <= 'z' then (c as int - 32) as char else c
  }

  /** `String.ToUpper`, restricted to the ASCII letters. */
  function Upper(s: string): (r: string)
    ensures |r| == |s|
    ensures forall i :: 0 <= i < |s| ==> r[i] == UpperChar(s[i])
  {
    seq(|s|, i requires 0 <= i < |s| => UpperChar(s[i]))
  }

  /** `StringComparison.OrdinalIgnoreCase` equality, for ASCII case. */
  predicate EqualsIgnoreCase(a: string, b: string) {
    Upper(a) == Upper(b)
  }

  // ---------------------------------------------------------------------
  // Trim
  // ---------------------------------------------------------------------

  function TrimStart(s: string): (r: string)
    ensures |r| <= |s| && r == s[|s| - |r|..]
    ensures forall i :: 0 <= i < |s| - |r| ==> IsWhiteSpace(s[i])
    ensures |r| == 0 || !IsWhiteSpace(r[0])
  {
    if |s| > 0 && IsWhiteSpace(s[0]) then TrimStart(s[1..]) else s
  }

  function TrimEnd(s: string): (r: string)
    ensures |r| <= |s| && r == s[..|r|]
    ensures forall i :: |r| <= i < |s| ==> IsWhiteSpace(s[i])
    ensures |r| == 0 || !IsWhiteSpace(r[|r| - 1])
  {
    if |s| > 0 && IsWhiteSpace(s[|s| - 1]) then TrimEnd(s[..|s| - 1]) else s
  }

  /** `String.Trim()`: drops the leading and trailing white space. */
  function Trim(s: string): (r: string)
    ensures |r| == 0 || (!IsWhiteSpace(r[0]) && !IsWhiteSpace(r[|r| - 1]))
  {
    TrimEnd(TrimStart(s))
  }

  /** A string that neither starts nor ends with white space is its own trim. */
  lemma TrimUnchanged(s: string)
    requires |s| == 0 || (!IsWhiteSpace(s[0]) && !IsWhiteSpace(s[|s| - 1]))
    ensures Trim(s) == s
  {
  }

  lemma {:induction false} TrimStartPadded(left: string, w: string)
    requires forall i :: 0 <= i < |left| ==> IsWhiteSpace(left[i])
    requires |w| > 0 && !IsWhiteSpace(w[0])
    ensures TrimStart(left + w) == w
  {
    if |left| > 0 {
      assert (left + w)[1..] == left[1..] + w;
      TrimStartPadded(left[1..], w);
    } else {
      assert left + w == w;
    }
  }

  lemma {:induction false} TrimEndPadded(w: string, right: string)
    requires forall i :: 0 <= i < |right| ==> IsWhiteSpace(right[i])
    requires |w| > 0 && !IsWhiteSpace(w[|w| - 1])
    ensures TrimEnd(w + right) == w
  {
    if |right| > 0 {
      var r' := right[..|right| - 1];
      assert (w + right)[..|w + right| - 1] == w + r';
      TrimEndPadded(w, r');
    } else {
      assert w + right == w;
    }
  }

  /** Trimming a word padded with white space on both sides gives the word. */
  lemma TrimPadded(left: string, w: string, right: string)
    requires forall i :: 0 <= i < |left| ==> IsWhiteSpace(left[i])
    requires forall i :: 0 <= i < |right| ==> IsWhiteSpace(right[i])
    requires |w| > 0 && !IsWhiteSpace(w[0]) && !IsWhiteSpace(w[|w| - 1])
    ensures Trim(left + w + right) == w
  {
    assert left + w + right == left + (w + right);
    TrimStartPadded(left, w + right);
    TrimEndPadded(w, right);
  }

  // ---------------------------------------------------------------------
  // Split and Join
  // ---------------------------------------------------------------------

  /** `String.Split(sep)`: the pieces between separators, empty ones kept. */
  function Split(s: string, sep: char): (r: seq<string>)
    ensures |r| >= 1
    ensures forall k :: 0 <= k < |r| ==> sep !in r[k]
  {
    if |s| == 0 then [""]
    else
      var rest := Split(s[1..], sep);
      if s[0] == sep then [""] + rest
      else [[s[0]] + rest[0]] + rest[1..]
  }

  /** `String.Join(sep, pieces)`. */
  function Join(pieces: seq<string>, sep: char): string {
    if |pieces| == 0 then ""
    else if |pieces| == 1 then pieces[0]
    else pieces[0] + [sep] + Join(pieces[1..], sep)
  }

  /** Joining the pieces of a split with the same separator gives the string back. */
  lemma {:induction false} JoinSplit(s: string, sep: char)
    ensures Join(Split(s, sep), sep) == s
  {
    if |s| > 0 {
      JoinSplit(s[1..], sep);
      var rest := Split(s[1..], sep);
      if s[0] == sep {
        assert Split(s, sep)[1..] == rest;
      } else if |rest| > 1 {
        assert Split(s, sep)[1..] == rest[1..];
        assert Join(rest, sep) == rest[0] + [sep] + Join(rest[1..], sep);
        assert s == [s[0]] + s[1..];
      } else {
        assert s == [s[0]] + s[1..];
      }
    }
  }

  lemma {:induction false} SplitPrefix(a: string, b: string, sep: char)
    requires sep !in a
    ensures Split(a + b, sep) == [a + Split(b, sep)[0]] + Split(b, sep)[1..]
  {
    if |a| > 0 {
      assert (a + b)[1..] == a[1..] + b;
      SplitPrefix(a[1..], b, sep);
      assert [a[0]] + (a[1..] + Split(b, sep)[0]) == a + Split(b, sep)[0];
    } else {
      var r := Split(b, sep);
      assert a + b == b && a + r[0] == r[0];
      assert [r[0]] + r[1..] == r;
    }
  }

  /** Splitting a join of separator-free pieces gives the pieces back. */
  lemma {:induction false} SplitJoin(pieces: seq<string>, sep: char)
    requires |pieces| >= 1
    requires forall k :: 0 <= k < |pieces| ==> sep !in pieces[k]
    ensures Split(Join(pieces, sep), sep) == pieces
  {
    if |pieces| == 1 {
      SplitPrefix(pieces[0], "", sep);
      assert pieces[0] + "" == pieces[0];
    } else {
      var tail := Join(pieces[1..], sep);
      SplitJoin(pieces[1..], sep);
      assert Join(pieces, sep) == pieces[0] + ([sep] + tail);
      assert Split([sep] + tail, sep) == [""] + pieces[1..] by {
        assert ([sep] + tail)[1..] == tail;
      }
      SplitPrefix(pieces[0], [sep] + tail, sep);
      assert pieces[0] + "" == pieces[0];
      assert [pieces[0]] + pieces[1..] == pieces;
    }
  }

  /** The pieces that are not empty (`StringSplitOptions.RemoveEmptyEntries`). */
  function NonEmpty(pieces: seq<string>): (r: seq<string>)
    ensures |r| <= |pieces|
    ensures forall k :: 0 <= k < |r| ==> |r[k]| > 0
    ensures forall k :: 0 <= k < |r| ==> r[k] in pieces
  {
    if |pieces| == 0 then []
    else if |pieces[0]| == 0 then NonEmpty(pieces[1..])
    else [pieces[0]] + NonEmpty(pieces[1..])
  }

  /** `s.Split(' ', StringSplitOptions.RemoveEmptyEntries)`. */
  function Tokens(s: string): seq<string> {
    NonEmpty(Split(s, ' '))
  }

  /** A token is never empty and never holds a space. */
  lemma TokensShape(s: string)
    ensures forall k :: 0 <= k < |Tokens(s)| ==> |Tokens(s)[k]| > 0 && ' ' !in Tokens(s)[k]
  {
    var pieces := Split(s, ' ');
    forall k | 0 <= k < |Tokens(s)|
      ensures ' ' !in Tokens(s)[k]
    {
      assert Tokens(s)[k] in pieces;
    }
  }

  lemma {:induction false} NonEmptyOfClean(pieces: seq<string>)
    requires forall k :: 0 <= k < |pieces| ==> |pieces[k]| > 0
    ensures NonEmpty(pieces) == pieces
  {
    if |pieces| > 0 {
      NonEmptyOfClean(pieces[1..]);
      assert [pieces[0]] + pieces[1..] == pieces;
    }
  }

  /** Tokenising words joined by single spaces gives the words back. */
  lemma TokensJoin(words: seq<string>)
    requires forall k :: 0 <= k < |words| ==> |words[k]| > 0 && ' ' !in words[k]
    ensures Tokens(Join(words, ' ')) == words
  {
    if |words| > 0 {
      SplitJoin(words, ' ');
      NonEmptyOfClean(words);
    }
  }

  lemma {:induction false} SplitHasNonEmptyPiece(s: string, sep: char, i: nat)
    requires i < |s| && s[i] != sep
    ensures exists k :: 0 <= k < |Split(s, sep)| && |Split(s, sep)[k]| > 0
  {
    var r := Split(s, sep);
    if s[0] != sep {
      assert |r[0]| > 0;
    } else {
      SplitHasNonEmptyPiece(s[1..], sep, i - 1);
      var rest := Split(s[1..], sep);
      var k :| 0 <= k < |rest| && |rest[k]| > 0;
      assert r[k + 1] == rest[k];
    }
  }

  lemma {:induction false} NonEmptyKeeps(pieces: seq<string>, k: nat)
    requires k < |pieces| && |pieces[k]| > 0
    ensures |NonEmpty(pieces)| > 0
  {
    if |pieces[0]| == 0 {
      NonEmptyKeeps(pieces[1..], k - 1);
    }
  }

  /** A string that is not blank has at least one token. */
  lemma TokensOfNonBlank(s: string)
    requires !IsBlank(s)
    ensures |Tokens(s)| > 0
  {
    var i :| 0 <= i < |s| && !IsWhiteSpace(s[i]);
    SplitHasNonEmptyPiece(s, ' ', i);
    var k :| 0 <= k < |Split(s, ' ')| && |Split(s, ' ')[k]| > 0;
    NonEmptyKeeps(Split(s, ' '), k);
  }

  // ---------------------------------------------------------------------
  // Replace
  // ---------------------------------------------------------------------

  /** Ordinal `String.Replace(pat, rep)`: every occurrence of `pat`, scanned
      left to right without overlap, is replaced by `rep`. */
  function Replace(s: string, pat: string, rep: string): string
    requires |pat| > 0
    decreases |s|
  {
    if |s| == 0 then ""
    else if pat <= s then rep + Replace(s[|pat|..], pat, rep)
    else [s[0]] + Replace(s[1..], pat, rep)
  }

  /** A string that does not start with `pat`'s first character anywhere is unchanged. */
  lemma {:induction false} ReplaceAbsent(s: string, pat: string, rep: string)
    requires |pat| > 0 && pat[0] !in s
    ensures Replace(s, pat, rep) == s
  {
    if |s| > 0 {
      assert s[0] in s;
      ReplaceAbsent(s[1..], pat, rep);
      assert [s[0]] + s[1..] == s;
    }
  }

  /** Replacing in a concatenation whose first part starts with the pattern. */
  lemma ReplaceHead(pat: string, rest: string, rep: string)
    requires |pat| > 0
    ensures Replace(pat + rest, pat, rep) == rep + Replace(rest, pat, rep)
  {
    assert pat <= pat + rest;
    assert (pat + rest)[|pat|..] == rest;
  }

  // ---------------------------------------------------------------------
  // Ordinal order
  // ---------------------------------------------------------------------

  /** Ordinal lexicographic `a <= b` (character codes, shorter prefix first). */
  predicate LexLe(a: string, b: string)
    decreases |a|
  {
    |a| == 0 || (|b| > 0 && (a[0] < b[0] || (a[0] == b[0] && LexLe(a[1..], b[1..]))))
  }

  lemma {:induction false} LexLeTotal(a: string, b: string)
    ensures LexLe(a, b) || LexLe(b, a)
    decreases |a|
  {
    if |a| > 0 && |b| > 0 && a[0] == b[0] {
      LexLeTotal(a[1..], b[1..]);
    }
  }

  lemma {:induction false} LexLeTransitive(a: string, b: string, c: string)
    requires LexLe(a, b) && LexLe(b, c)
    ensures LexLe(a, c)
    decreases |a|
  {
    if |a| > 0 && a[0] == b[0] && b[0] == c[0] {
      LexLeTransitive(a[1..], b[1..], c[1..]);
    }
  }

  lemma {:induction false} LexLeAntisymmetric(a: string, b: string)
    requires LexLe(a, b) && LexLe(b, a)
    ensures a == b
    decreases |a|
  {
    if |a| > 0 {
      LexLeAntisymmetric(a[1..], b[1..]);
      assert a == [a[0]] + a[1..] && b == [b[0]] + b[1..];
    }
  }
}
